=== FILE: README.md ===
# GradeAggregator: the relabel-and-aggregate engine in Dafny

GradeAggregator turns a learning platform's grade export into an
aggregate sheet for a teacher. It produces one row per student and one
column per "unit and category" label, holding that label's summed points.
Row 0 holds the points possible. Optional per-category percentage grade
columns follow the summed columns. It can then reshape that aggregate into
Synergy bulk-import files, one per class period.

This project models that engine as pure functions over immutable data and
proves what the aggregators and the import promise:

- **TSK aggregator** (`tsk.dfy`, module `Tsk`). It folds the five header
  rows of the export left to right into "<lesson> <kind>" labels. It joins
  the name columns into a "Last, First" Student column and drops sparse
  columns. It then coerces the cell text to points: "Turned In", "In
  progress", "a/b" fractions and the like. Assignment fractions count 1 when
  `a/b >= 1/2`; assessment fractions count `a`, and `b` becomes the max
  score. Finally it puts a max-score row on top and sums the columns that
  share a label.
- **STEM aggregators**. `stem.dfy` (module `Stem`) holds the steps the two
  STEM aggregators share:
  - dropping the ID columns and the read-only and unscored columns
  - indexing by Student and Section
  - the same-label sum
  - the category grade columns, `int(.49 + 100 * earned / possible)`,
    computed exactly in integers in `grades.dfy`

  `csp.dfy` (module `Csp`) is the CS Principles aggregator and its
  positional state machine over the column order. `csa.dfy` (module `Csa`)
  is the CS A aggregator, which classifies each header by pattern.
- **Shared table vocabulary** (`table.dfy`, module `Table`). Cells, the
  participation filter `dropna(axis=1, thresh=t)`, and
  `groupby(columns).sum()`. The groupby yields one column per distinct
  label, in sorted label order.
- **Roster and Synergy import**. `roster.dfy` (module `Roster`) holds the
  roster `student` record, its `__str__`, the alias-keyed roster dictionary
  and the label-to-assignment-type map. `synergy.dfy` (module `Synergy`)
  holds `agg_to_synergy`:
  - a declarative specification
  - a loop implementation proved equal to it
  - soundness and completeness of the emitted import rows, and their
    grouping into one file per period
- **How the parts meet** (`pipeline.dfy`, module `Pipeline`). Every label an
  aggregator emits has an import type, and the import reads exactly the
  summed columns. The "drop me" column the CSA aggregator leaves behind
  makes the whole import refuse; see Findings.

`wrappers.dfy` (`Option`, `Result`) and `strings.dfy` (the Python `str`
operations the scripts use, over `seq<char>`) are support.

An exception in the source is modelled as an `Err` carrying the reason. A
`None` return is modelled as `None`. The roster rows, the due-date table
and the sheets themselves are inputs; nothing is read from disk.

The code behaves as follows:

- A CSP header that fits no rule stops the run. The CSP asserts raise, so
  the column is not dropped.
- There is no keyword-to-unit lookup table. Units come only from leading
  numbers and project names.
- A TSK assessment column's max score is the `b` of the LAST fraction in
  the column (TskAggregator.py:126), not the first.
- The participation threshold is `int(rows / t)`, which is floor and not
  ceiling, and the comparison is `>=`.
- The CSP aggregator computes all five category grades unconditionally, so
  a category with no column fails instead of being skipped.

## Model

| member | source | states |
|---|---|---|
| Table.NonMissing | TskAggregator.py:89 | the count of non-empty cells is 0 exactly when every cell is empty and the full height exactly when none is |
| Table.KeepParticipating | StemCspAggregator.py:107 | a column is kept if and only if at least `thresh` of its cells are non-empty; the first kept column is the first column that qualifies |
| Table.NumericValues | StemCspAggregator.py:115 | a column sums only when it holds no text cell; each empty cell counts 0 and each number counts itself |
| Table.Insert | TskAggregator.py:137 | inserting a label into a strictly sorted label list keeps it strictly sorted, adds exactly that label, and changes nothing when the label is present |
| Table.SortedLabels | TskAggregator.py:137 | the groupby's label order is strictly increasing in Python string order and contains exactly the input labels |
| Table.GroupByLabel | TskAggregator.py:137 | one output column per distinct label, in sorted order; each output cell is the sum of the same-row cells of every input column with that label |
| Table.GroupByLabelPreservesRowTotals | TskAggregator.py:137 | summing same-label columns never changes a row's grand total |
| Table.GroupByLabelColumns | TskAggregator.py:137 | a label appears in the grouped sheet exactly once if some input column carries it, and otherwise not at all |
| Grades.TruncDiv | StemCspAggregator.py:126 | `astype(int)` of a quotient truncates toward zero: the magnitude is the floor of the magnitudes' quotient |
| Grades.Grade | StemCspAggregator.py:126 | no grade without points possible; with `0 <= earned <= possible` the grade lies in 0..100; full marks give exactly 100 and no marks give 0 |
| Grades.GradeBrackets | StemCspAggregator.py:126 | the grade is the unique integer `g` with `g <= 0.49 + 100 * earned / possible < g + 1`, so `int(.49 + x)` is computed exactly |
| Grades.GradeMonotone | StemCspAggregator.py:126 | more earned points never give a lower grade |
| Grades.GradeExamples | StemCspAggregator.py:126 | 3/4 gives 75, 0/4 gives 0, 4/4 gives 100 (never 101), 2/3 gives 67 and 1/200 gives 0 |
| Grades.GradeColumn | StemCspAggregator.py:122-126 | the "<cat> grade" column has the sheet's height; it fails exactly when row 0's category total is zero; each row holds the rounded percentage of its category total over row 0's, so row 0 grades 100 and a row whose total lies between 0 and row 0's grades between 0 and 100 |
| Grades.CategoryGrades | StemCsaAggregator.py:106-112 | the grade columns follow the category order; at most one per category; when every category is required, exactly one per category, the k-th being the k-th category's grade over the summed columns and the grade columns added before it |
| Grades.NoCategoryNoGrades | StemCsaAggregator.py:106-112 | when empty categories are skipped and no summed column mentions any category, there is no grade column at all |
| Grades.GradeIffCategoryPresent | StemCsaAggregator.py:108-112 | when empty categories are skipped, a category gets a grade column exactly when some summed column's name mentions it |
| Grades.SeparateGrades | StemCspAggregator.py:122-126 | when no category name occurs in another category's grade column name, the grading fails exactly when a graded category has a zero points-possible total, and every grade column is its category's grade over the summed columns alone |
| Stem.Where | StemCspAggregator.py:57-58 | the column filter keeps exactly the columns that pass the test, in their order |
| Stem.FirstAbsent | StemCspAggregator.py:56 | dropping the ID columns fails exactly when one of them is missing, and names a missing one |
| Stem.Find | StemCspAggregator.py:59 | looking up a named column finds a column with that name exactly when one exists |
| Stem.Prelude | StemCspAggregator.py:55-59 | a missing ID column or an empty sheet is an error; otherwise Student and Section become the index and exactly the columns that are neither ID, index, read-only nor unscored remain, all of the sheet's height |
| Stem.SortedNamesIff | StemCspAggregator.py:115 | a label is among the grouped labels exactly when some column carries it |
| Stem.Totals | StemCspAggregator.py:115-118 | the summing step succeeds exactly when no column holds text, and then turns every column into its numbers with its name kept |
| Stem.Tail | StemCspAggregator.py:115-126 | the sum-and-grade tail keeps the index, sums same-label columns under the sorted distinct labels, and appends the category grade columns after the separator |
| Csp.LeadingNumber | StemCspAggregator.py:71 | a header yields a unit number exactly when it starts with a digit |
| Csp.MilestoneName | StemCspAggregator.py:82 | the project named by a Milestone header is a non-empty word of the header |
| Csp.ProjectName | StemCspAggregator.py:86 | a project name is a leading piece of the header's first word, without blanks or colons |
| Csp.UnitRule | StemCspAggregator.py:71-84 | a leading unit below the current one moves to the next category, which is an error past the last category; the first Milestone in the exercises starts the projects at unit 2; any other header leaves the state alone |
| Csp.ProjectRule | StemCspAggregator.py:85-90 | inside the projects a blank header is an error; a project name that differs from the current one advances the unit by one and becomes current |
| Csp.CheckRule | StemCspAggregator.py:91-97 | a quiz column without "Quiz", an exam-category column with neither "Exam" nor "Create", or a unit above 6 is an error; a "Create" column moves to the Performance category |
| Csp.LabelShape | StemCspAggregator.py:97-101 | every state the checks admit names a CSP label: "Performance", or a unit digit 0-6, a space and one of the first four categories |
| Csp.Step | StemCspAggregator.py:69-101 | one column never moves the category index backwards and gives the column the label of its new state |
| Csp.LowerUnitNextCategory | StemCspAggregator.py:73-74 | a unit number that goes down moves the column into a later category |
| Csp.MilestoneStartsProjects | StemCspAggregator.py:79-90 | the first Milestone header starts the projects with that project current, at unit 2, or at unit 3 when its first word carries a colon |
| Csp.NewProjectNextUnit | StemCspAggregator.py:85-89 | inside the projects each new project name is the next unit, and the same project keeps its unit |
| Csp.Relabel | StemCspAggregator.py:67-104 | the relabelling is the state machine run from its start over the column names, one step per column, and every new name is a CSP label |
| Csp.RelabelFails | StemCspAggregator.py:68-101 | the relabelling fails exactly when, along the run from the start, some column's step fails |
| Csp.FollowsIsRelabel | StemCspAggregator.py:68-101 | any run that takes one step per column from the start, with every step succeeding, is the relabelling's result, so the run is unique |
| Csp.CategoriesNeverDecrease | StemCspAggregator.py:73-96 | along the columns the category index never decreases |
| Csp.Classify | StemCspAggregator.py:55-104 | the prelude's errors pass through; it succeeds exactly when the prelude and the relabelling succeed; the index is kept and every graded column keeps its cells under the label the relabelling gave it |
| Csp.KeptLabels | StemCspAggregator.py:107-115 | after the half-participation filter the grouped labels are exactly the labels of columns with at least `n / 2` entries, all CSP labels |
| Csp.Summarise | StemCspAggregator.py:107-126 | it succeeds exactly when summing and grading the half-participating columns succeeds, and is that result: the output labels are exactly the labels of participating columns, sorted and distinct, with exactly five grade columns, one per category in `cat_order` |
| Csp.Aggregate | StemCspAggregator.py:53-126 | a missing ID column or an empty export is reported as such; it succeeds exactly when classifying and summarising succeed, and is the summary of the classified columns, indexed by the export's own Student and Section columns, summing exactly the participating labels in sorted order, with the five category grades |
| Csp.SummariseValues | StemCspAggregator.py:107-126 | a summary's sums are the same-label sums of the participating columns' numbers, and its grades are the five category grades of those sums |
| Csp.SummariseNoPoints | StemCspAggregator.py:115-126 | once every participating column is numeric, the summary fails exactly when one of the five categories has a zero row-0 total in the summed columns |
| Csp.NoPointsTurn | StemCspAggregator.py:122-126 | grading the five CSP categories over summed columns fails exactly when one of them has a zero row-0 total |
| Csp.AggregateGrades | StemCspAggregator.py:122-126 | each of the five grade columns is its category's grade over the summed columns |
| Csp.CategoriesSeparate | StemCspAggregator.py:63 | the CSP categories are distinct, and no category name occurs in an earlier category's grade column name |
| Csa.FirstDigits | StemCsaAggregator.py:74 | the unit is the first maximal digit run of the header, and there is none exactly when the header has no digit |
| Csa.CategoryOf | StemCsaAggregator.py:62-84 | a category is found exactly when the header matches one of "Unit N Exam", "Unit N: Lesson", "Unit N Quiz" or a leading "Assignment" |
| Csa.Label | StemCsaAggregator.py:69-91 | FRQ headers and headers without a unit or a category are labelled "drop me"; every other header becomes "<unit> <category>" |
| Csa.UnitHeaderLabel | StemCsaAggregator.py:74-91 | a "Unit <digits>..." header is labelled with exactly those digits and its category |
| Csa.ExamHeader | StemCsaAggregator.py:63 | "Unit N Exam..." is labelled "N Exam" |
| Csa.LessonHeader | StemCsaAggregator.py:64 | "Unit N: Lesson..." is labelled "N Exercises" |
| Csa.QuizHeader | StemCsaAggregator.py:65 | "Unit N Quiz..." is labelled "N Quiz and assignment" |
| Csa.FreeResponseDropped | StemCsaAggregator.py:71-73 | every FRQ column is labelled "drop me" |
| Csa.NoNumberDropped | StemCsaAggregator.py:74-78 | a header without a digit is labelled "drop me" |
| Csa.NotDropUnderscore | StemCsaAggregator.py:95 | no relabelled column is ever called "drop_me" |
| Csa.Relabelled | StemCsaAggregator.py:51-94 | it succeeds exactly when the prelude does, whose errors pass through; the relabelled columns are exactly the quarter-participating graded columns under their new labels |
| Csa.Drop | StemCsaAggregator.py:95-96 | the intended drop keeps exactly the columns not labelled "drop me" |
| Csa.DropAsWrittenKeepsAll | StemCsaAggregator.py:95-96 | as written, the drop never removes anything from a relabelled sheet |
| Csa.AggregateAsWritten | StemCsaAggregator.py:49-112 | as written, it succeeds exactly when relabelling and then summing and grading every relabelled column succeed, and is that result: the output sums exactly the labels of the relabelled columns, "drop me" included |
| Csa.DropMeSurvives | StemCsaAggregator.py:95-99 | as written, a participating column labelled "drop me" reaches the summed output |
| Csa.FreeResponseSurvives | StemCsaAggregator.py:71-99 | as written, a participating FRQ column reaches the summed output as "drop me" |
| Csa.DropMeOnlyTail | StemCsaAggregator.py:99-112 | numeric columns that are all labelled "drop me" sum into exactly one "drop me" column and get no grade column |
| Csa.AsWrittenDropMeOnly | StemCsaAggregator.py:95-112 | as written, an export whose relabelled columns are all "drop me" is summed into one "drop me" column |
| Csa.IntendedDropMeOnly | StemCsaAggregator.py:95-112 | with the intended drop, an export whose relabelled columns are all "drop me" has no summed column |
| Csa.FreeResponseExample | StemCsaAggregator.py:71-99 | for a one-student export whose only graded column is "FRQ 1", the as-written aggregate sums exactly one column, "drop me", and the intended one sums none |
| Csa.DropMeNotGraded | StemCsaAggregator.py:106-112 | a "drop me" column never changes any category total |
| Csa.CategoriesSeparate | StemCsaAggregator.py:62-66 | the CSA categories are distinct, and no grade column's name contains a later category |
| Csa.Aggregate | StemCsaAggregator.py:49-112 | with the intended drop, it succeeds exactly when relabelling and then summing and grading the columns other than "drop me" succeed, and is that result: the output sums exactly the relabelled labels other than "drop me", sorted and distinct; a category has a grade column exactly when some summed column mentions it |
| Csa.Summarise | StemCsaAggregator.py:95-112 | after the intended drop, summing and grading fails only as not numeric or without points; a result keeps the index, sums exactly the relabelled labels other than "drop me", sorted, and has a grade column exactly for each category some summed column mentions |
| Csa.IntendedSheet | StemCsaAggregator.py:95-112 | after the intended drop, the output labels are the relabelled labels without "drop me", and grades follow category presence |
| Csa.IntendedNoPoints | StemCsaAggregator.py:99-112 | once the kept columns are numeric, the intended aggregate fails exactly when a category that some summed column mentions has a zero row-0 total |
| Csa.NoPointsTurn | StemCsaAggregator.py:106-112 | grading the CSA categories over summed columns fails exactly when a category some column mentions has a zero row-0 total |
| Csa.IntendedGrades | StemCsaAggregator.py:106-112 | every grade column of the intended aggregate is the grade, over its summed columns, of a category they mention |
| Csa.MentionedGrades | StemCsaAggregator.py:106-112 | every CSA grade column over summed columns is the grade of a category those columns mention |
| Tsk.Classify | TskAggregator.py:68-78 | only an Assessment column can be a Quiz or an Exam; an Exam is exactly an assessment in a "T" lesson whose title is neither a practice test nor a lesson check; an assessment without a title text is an error |
| Tsk.HeaderStep | TskAggregator.py:58-78 | a column fails exactly when a present unit cell is not text of at least six characters, the lesson cell is a number, or an assessment has no title text; a present unit cell sets the unit to its sixth character; a blank unit or lesson cell carries the previous one; the column is labelled "<lesson> <kind>"; an Exam's lesson ends in "T" |
| Tsk.StepLabelGood | TskAggregator.py:64-78 | every label the fold gives is a lesson without inner blanks, a space and a kind word, and an Exam label's lesson is "<unit>.T" |
| Tsk.ExamLesson | TskAggregator.py:73-74 | a well-formed lesson that ends in "T" is exactly "<unit>.T" |
| Tsk.HeaderFold | TskAggregator.py:53-78 | the fold fails exactly when some column's header cells are bad, and otherwise gives one well-formed label per assignment column |
| Tsk.FoldUnitIsLastNamed | TskAggregator.py:58-59 | the unit after the fold is the sixth character of the last present unit cell |
| Tsk.FoldUnitDefault | TskAggregator.py:53 | with no unit cell at all the unit stays "0" |
| Tsk.GoodLabelParts | TskAggregator.py:70-78 | a label splits back into its lesson, a space and its kind word |
| Tsk.KindLabelOf | TskAggregator.py:70-78 | appending " <kind>" to a lesson gives a label whose kind and lesson read back as those two |
| Tsk.LineEnd | TskAggregator.py:99 | the first line break at or after a position, or the end of the text |
| Tsk.LineEndAt | TskAggregator.py:99 | any position with no line break before it and a line break or the end at it is the line end |
| Tsk.DropLinesOfCodeAt | TskAggregator.py:99 | the first " lines of code" is removed together with the rest of its line, the line break stays, and the search resumes after it |
| Tsk.DropLinesOfCodeLine | TskAggregator.py:99 | on one line, everything from the first " lines of code" on is removed and what precedes it is kept |
| Tsk.FirstLine | TskAggregator.py:100 | removing "\n.*" leaves no line break and never lengthens the text |
| Tsk.FirstLineIsLine | TskAggregator.py:100 | what "\n.*" leaves is a prefix of the text, followed in the text by a line break unless it is the whole text |
| Tsk.LastIndexOf | TskAggregator.py:101 | the last position of a character, or none exactly when it does not occur |
| Tsk.LastIndexOfAt | TskAggregator.py:101 | a position holding the character with none after it is the last position |
| Tsk.DropParentheticalAt | TskAggregator.py:101 | " (", at least one character and ")" are removed, from the first " (" to the last ")", and the text around them is kept |
| Tsk.Clean | TskAggregator.py:94-101 | an empty cell becomes 0 and a number stays; a text with "In progress", "In Progress" or "Syntax error" becomes 0, else one with "Turned In" becomes 1, else the text stays text, no longer and on one line |
| Tsk.CleanLinesOfCode | TskAggregator.py:94-101 | a one-line score followed by " lines of code" is cleaned to the text before the phrase, less any parenthetical |
| Tsk.CleanParenthetical | TskAggregator.py:94-101 | a one-line score followed by " (...)" is cleaned to the score alone |
| Tsk.CleanScoreWithPercentage | TskAggregator.py:94-101 | "3/4 (75%)" is cleaned to "3/4" |
| Tsk.ScoreColumn | TskAggregator.py:112-126 | a column fails exactly when some text cell holds fewer than two numbers, or is an assignment fraction with zero possible points; otherwise each text cell becomes its score and an assignment column's max is 1 |
| Tsk.MaxFromLastRow | TskAggregator.py:124-126 | an assessment column's max score is the possible points of its last fraction cell |
| Tsk.MaxDefault | TskAggregator.py:108 | a column without a fraction keeps the default max score 1 |
| Tsk.AssignmentHalf | TskAggregator.py:119-123 | on an assignment column a fraction scores 1 exactly when `a/b >= 1/2`, and 0 exactly when it is below |
| Tsk.ScoreAll | TskAggregator.py:112-126 | the scoring loop fails exactly when some column from the third position on fails; otherwise the second position is left unscored and every later column is scored |
| Tsk.NumericColumn | TskAggregator.py:136 | `to_numeric` succeeds exactly when every cell is a number or digit text, and then gives each cell's value |
| Tsk.ScoredNumeric | TskAggregator.py:103-126 | after scoring, every cell of a scored column is numeric |
| Tsk.Totals | TskAggregator.py:130-136 | the numeric check fails exactly when some column has an unreadable cell; otherwise each column is its max score followed by its cells' values |
| Tsk.StudentColumn | TskAggregator.py:85 | the Student column exists exactly when, on every row, both name cells are text or one is empty; it then holds "Last, First" on each row, or empty where a name cell is empty |
| Tsk.LabelledColumns | TskAggregator.py:81-82 | each assignment column gets its label and loses its five header rows |
| Tsk.KeptColumns | TskAggregator.py:89 | a labelled column is kept exactly when at least a quarter of its cells are filled; a kept column has one cell per student and a well-formed label; the first kept column is the first labelled column that qualifies |
| Tsk.Prepare | TskAggregator.py:81-89 | fewer than three columns or five rows is an error; otherwise each student row keeps its "Last, First" name, and the kept columns have well-formed labels and full height |
| Tsk.PrepareSucceeds | TskAggregator.py:53-89 | with at least three columns and five rows, preparing succeeds exactly when no header is bad and every student's two name cells can be joined; the kept columns are then the quarter-filtered labelled columns |
| Tsk.Score | TskAggregator.py:94-137 | scoring fails only for a cell-stage reason; it succeeds exactly when the Student column survives the filter, no later column fails scoring and every scored cell is numeric; a result is each kept column's scored values under its max row, with the column's name |
| Tsk.ScoreMaxRow | TskAggregator.py:108-130 | row 0 of the first kept column is 1, and row 0 of every later one is its scored max |
| Tsk.FirstColumnUnscored | TskAggregator.py:112 | the first kept assignment column bypasses fraction scoring: its cleaned cells must already be numeric |
| Tsk.ScoredColumnRow | TskAggregator.py:113-125 | every later column's student cell is its cleaned cell's score |
| Tsk.Aggregate | TskAggregator.py:45-140 | size errors are reported exactly when the grid is too small; a result starts with the "Max score" row, lists every student's cleaned "Last, First" name with section "Default", and its sums are distinct, sorted and well labelled, with no grade columns |
| Tsk.AggregateSucceeds | TskAggregator.py:45-137 | the aggregate exists exactly when preparing and scoring succeed, and its sums are then the same-label sums of the scored columns |
| Tsk.ScoreAndAssemble | TskAggregator.py:94-140 | on a prepared sheet, it fails only for a scoring reason and exactly when scoring fails; a result has the "Max score" row over the cleaned student names, the "Default" section, and the same-label sums of the scored columns, sorted and well labelled |
| Tsk.AggregateKeepsTotals | TskAggregator.py:134-137 | summing same-label columns keeps every row's grand total of the scored columns, and each summed cell is the sum of that row over the scored columns with its label |
| Tsk.Assemble | TskAggregator.py:130-140 | the output sheet has the max-score row plus one row per student, the "Default" section, and the same-label sums of the scored columns under sorted distinct well-formed labels |
| Tsk.IndexColumn | TskAggregator.py:108-131 | the index column is "Max score" above the students' cleaned names |
| Tsk.Sections | TskAggregator.py:140 | the section column is "Default" on every row |
| Tsk.GroupedLabelsGood | TskAggregator.py:137 | summing same-label columns keeps every label well formed |
| Roster.LastName | GradeUtils.py:126 | the last name is the part of the name before its first comma |
| Roster.FirstName | GradeUtils.py:127-130 | the first name has no surrounding blanks |
| Roster.MakeStudent | GradeUtils.py:122-134 | a student keeps period and course, prints the SIS number as id, takes the last name up to the first comma, and uses a non-empty text alias or else "Last, First" |
| Roster.StudentIdRoundTrip | GradeUtils.py:125 | a numeric SIS number gives a digit id that reads back as that number |
| Roster.FirstNameOfPlainName | GradeUtils.py:126-130 | for "Last,rest" the first name is `rest` stripped, with three characters dropped when it ends in "." |
| Roster.Show | GradeUtils.py:136-141 | a student prints as "id: Last, First", then " (alias)" exactly when the alias differs from "Last, First", then a tab, "P", the period, a space and the course |
| Roster.ShowWithoutAlias | GradeUtils.py:131-141 | a student without an alias prints as "id: Last, First", a tab and "P<period> <course>", with no parenthesis |
| Roster.ShowMentionsAlias | GradeUtils.py:136-141 | a printed student always shows the alias it is filed under |
| Roster.Entries | GradeUtils.py:160-165 | one student per roster row, the Alias column used only when the file has one |
| Roster.IndexByAlias | GradeUtils.py:166 | the dictionary holds exactly the aliases of the entries, each under its own alias |
| Roster.IndexByAliasFromEntries | GradeUtils.py:166 | every student the dictionary holds is one of the entries |
| Roster.IndexByAliasLastWins | GradeUtils.py:166 | for a repeated alias the last entry carrying it wins |
| Roster.RosterDict | GradeUtils.py:151-168 | `None` exactly when a required column is missing; otherwise each row's alias is a key, every key holds the student of some row, filed under its own alias |
| Roster.RosterDictLastWins | GradeUtils.py:159-166 | an alias carried by several rows maps to the student of the last of them |
| Roster.AssignmentType | GradeUtils.py:170-183 | the type depends only on the text after the first word, and is one of the five Synergy types exactly when that text is one of the eight known category words |
| Roster.AfterFirstWordOfLabel | GradeUtils.py:171 | for "<word> <rest>" the text looked up is `rest` |
| Roster.AfterFirstWordOfSingleWord | GradeUtils.py:171 | a one-word label is looked up as that word |
| Synergy.FindName | GradeUtils.py:206 | a column lookup finds the first column with the name, and nothing exactly when there is none |
| Synergy.ColumnStop | GradeUtils.py:222-224 | the import reads the columns from the third up to, not including, the first blank heading |
| Synergy.RowKindLookup | GradeUtils.py:205-212 | a row aborts exactly when there is no Student column or its cell is not text; otherwise it is unlisted when the name is not in the roster, skipped when the course is "Audit", and else listed under that roster entry |
| Synergy.CellStepChecks | GradeUtils.py:225-246 | a cell aborts the import exactly when its points or max points are not digits, its column has no import type, or it has no due date; a due date of "S" or "X" skips it; otherwise it emits the student's id and names, the column, "points/max", the type and the due date |
| Synergy.CellSteps | GradeUtils.py:222-245 | a listed row has one step per imported column |
| Synergy.FoldCellsSound | GradeUtils.py:222-257 | every emitted row comes from an emitting column of that student row, in column order |
| Synergy.FoldCellsComplete | GradeUtils.py:222-257 | a row that completes has no aborting column and emits every emitting column |
| Synergy.FoldCellsAbortAt | GradeUtils.py:231-242 | one aborting column makes the whole row fail |
| Synergy.Advance | GradeUtils.py:207-217 | a row stops the import exactly when it aborts or its student's course differs from the course fixed by an earlier row; otherwise its rows are appended |
| Synergy.RunOutcomesCourse | GradeUtils.py:211-217 | when the import completes, no row aborted and every listed row has the one course of the import |
| Synergy.RunOutcomesSound | GradeUtils.py:204-257 | every emitted row comes from a listed student row, and rows come out in sheet order, row by row and column by column |
| Synergy.RunOutcomesComplete | GradeUtils.py:204-257 | every row a listed student emits reaches the import |
| Synergy.FindPeriod | GradeUtils.py:249 | a period's file is found exactly when one exists |
| Synergy.Periods | GradeUtils.py:249-255 | the periods are distinct, in first-seen order, and are exactly the periods of the emitted rows |
| Synergy.PartitionIsGrouped | GradeUtils.py:248-257 | filing rows one at a time into per-period files gives one file per period, holding that period's rows in order |
| Synergy.PartitionFiles | GradeUtils.py:248-257 | the files have distinct periods, and each holds exactly its period's rows in order |
| Synergy.PartitionCoversPeriods | GradeUtils.py:259-268 | there is an output file exactly for every period that emitted a row |
| Synergy.AggToSynergySpec | GradeUtils.py:188-194 | no roster or an empty roster gives no output; a sheet with only the points row gives no files |
| Synergy.AggToSynergy | GradeUtils.py:186-270 | the loop implementation computes exactly the declarative import |
| Synergy.StudentRow | GradeUtils.py:205-257 | one student row either stops the import or advances it by exactly that row's emissions, filed by period |
| Synergy.StudentRows | GradeUtils.py:222-257 | the column loop of one row succeeds exactly when no column aborts, and files exactly that row's emissions |
| Synergy.TakeJustified | GradeUtils.py:222-257 | every row a student emits is justified by a listed student, an imported column and its cell's checks, in column order |
| Synergy.TakeComplete | GradeUtils.py:222-257 | a listed student that does not stop the import emits every column that passes its checks |
| Synergy.ImportSound | GradeUtils.py:204-268 | an import's files are its emitted rows grouped by period; every row is justified; rows come out in sheet order; any file implies a course |
| Synergy.ImportComplete | GradeUtils.py:204-257 | in a completed import no listed student's cell aborted, and each emitting cell reached the import |
| Synergy.MixedCoursesRefused | GradeUtils.py:213-217 | two listed students of different courses refuse the import |
| Synergy.RefusedRowRefuses | GradeUtils.py:204-217 | one refusing row refuses the whole import |
| Synergy.BadCellRefused | GradeUtils.py:231-243 | one bad cell of a listed student refuses the whole import |
| Synergy.BadKeyRefused | GradeUtils.py:206-208 | a sheet without a Student column, or a student cell that is not text, refuses the import |
| Synergy.OutputFileName | GradeUtils.py:262 | every output file name ends with " <course>.xlsx" |
| Synergy.OutputFileNameInjective | GradeUtils.py:262 | different periods of one course get different file names |
| Pipeline.TskLabelTyped | GradeUtils.py:170-183 | every TSK label has the import type of its kind word |
| Pipeline.CspLabelTyped | GradeUtils.py:170-183 | every CSP label has the import type of its category |
| Pipeline.CsaLabelTyped | GradeUtils.py:170-183 | every CSA label other than "drop me" has the import type of its category |
| Pipeline.ShortTailUntyped | GradeUtils.py:171-183 | a label whose last part is shorter than four characters has no import type |
| Pipeline.DropMeUntyped | GradeUtils.py:171-183 | "drop me" has no import type |
| Pipeline.Header | StemCspAggregator.py:121 | the written aggregate's header is Student, Section, the summed labels and, for STEM, a blank separator before the grade columns |
| Pipeline.ReadBack | GradeUtils.py:200 | a written cell reads back missing exactly when it was missing or empty, with the same text otherwise, and as a number exactly when it was one in a column without text |
| Pipeline.Row | GradeUtils.py:200 | a read-back row holds the student and section cells as read back, then the sums as numbers |
| Pipeline.ToSheet | StemCspAggregator.py:138 | the written aggregate is rectangular, with one row per index entry holding the student, the section and the sums |
| Pipeline.TextKeys | GradeUtils.py:200-209 | in a Student column that opens with text, a number comes back as its digits and is looked up as a name; only a missing or empty key stops the import |
| Pipeline.TskKeysReadAsText | TskAggregator.py:94 | a TSK aggregate row stops the import only for an empty cleaned name; a blank name, filled with 0, is read as "0" and skipped unless the roster has that alias |
| Pipeline.ImportReadsSums | GradeUtils.py:222-224 | the import reads exactly the summed columns of an aggregate, never its grade columns |
| Pipeline.TskImportTyped | GradeUtils.py:222-242 | every column the import reads from a TSK aggregate has an import type |
| Pipeline.CspImportTyped | GradeUtils.py:222-242 | every column the import reads from a CSP aggregate has an import type |
| Pipeline.CsaImportTyped | GradeUtils.py:222-242 | every column the import reads from an intended CSA aggregate has an import type |
| Pipeline.DropMeCellAborts | GradeUtils.py:239-242 | a "drop me" column aborts the import at every student row |
| Pipeline.DropMeRefused | GradeUtils.py:239-242 | an aggregate with a "drop me" column and a listed student is refused |
| Pipeline.AsWrittenImportRefused | StemCsaAggregator.py:95-96 | the as-written CSA aggregate with a "drop me" column and a listed student cannot be imported |

## Left out

- File I/O is outside the model: reading the Excel and CSV exports and the
  roster, `to_csv`, the openpyxl workbooks, locating the latest download
  and launching a viewer. Sheets, roster rows and due dates are inputs.
- `trace` and `print` output is not modelled. Warnings are not modelled
  either, beyond the control flow they sit in.
- TskAggregator.py:29 imports `trace` and `println` names that GradeUtils
  does not define. The model treats the module as if the import succeeded.
- `get_assignment_due_dates` is an interactive prompt. The due-date table
  is an input map, and a missing entry refuses the import, as the KeyError
  would.
- Floating point is not modelled. Every sum is an exact integer, and
  `int(.49 + 100 * e / p)` is computed exactly with rationals. The
  binary-float rounding of that expression can differ at exact ties.
- The CSP "Overall grade" column (StemCspAggregator.py:129-135) is not
  modelled, because it is a weighted floating-point sum. The commented-out
  CSA overall grade is not modelled either.
- The mean imputation is not modelled. It is commented out in both STEM
  aggregators.
- Duplicate column names in an export are not modelled; pandas would mangle
  them on read. Columns are distinct by construction of the input.
- The TSK regex replacements are modelled as the specific clean-ups they
  perform on the platform's cell texts. The matching of arbitrary regular
  expressions is not modelled.
- Whitespace and digits are the ASCII ones. Python's Unicode `isspace` and
  `isdigit` accept more.
- When several failures apply, the model reports one. Which one can differ
  from the exception Python raises first; only the fact of failure is
  promised.
- `os.path.sep` and the output directory are parameters of
  `Synergy.OutputFileName`.
- Tsk.NumericColumn: reads only unsigned digit text. `pd.to_numeric` also
  reads a sign, a decimal point and an exponent ("-1", "2.5", "1e3"); such
  cells fail here as not numeric. The cleaned TSK cells the platform
  produces are whole point counts.
- Roster.Show: the period is modelled as text. A numeric Period column makes
  `"P" + period` raise TypeError in the source; that failure is not
  modelled.
- Roster.RosterDict: a roster name is text. A blank Student Name is read as
  NaN, and `split(",")` on it raises AttributeError in the source; that
  failure is not modelled.
- Pipeline.ReadBack: only an empty field reads back as missing. pandas also
  reads "NA", "nan", "NULL" and its other default markers as missing, and
  reads a column of number-like text as numbers; neither is modelled.
- Numbers are integers. A float cell (for example 7.5 points) in a STEM
  export is not modelled.
- Roster.AssignmentType: requires a non-blank label, because `split()[-1]`
  of a blank label raises IndexError. The only caller stops at the first
  blank heading before reaching it.
- Roster.FirstName: states only that the result is stripped. The full
  shape for an ordinary "Last,rest" name is in
  Roster.FirstNameOfPlainName.
- Csp.MilestoneName: states only that the name is a non-empty word of the
  header. It is the first word, as Csp.ProjectName's relation to it in
  Csp.MilestoneStartsProjects shows.
- Synergy.AggToSynergySpec: its own contract covers only the early exits.
  The full behaviour is stated by Synergy.ImportSound,
  Synergy.ImportComplete and the refusal lemmas.

## Findings

| source | as written | input that shows it | evidently intended | confidence | as-written member | corrected member |
|---|---|---|---|---|---|---|
| StemCsaAggregator.py:95-96 | the check looks for a column named "drop_me", but the relabelling names discarded columns "drop me", so the drop never happens | a one-student CSA export whose only graded column is "FRQ 1" (`Csa.FrqExport`) | the "drop me" columns are removed before summing | not executed | Csa.AggregateAsWritten (exhibited by Csa.FreeResponseExample; see also Csa.DropMeSurvives, Pipeline.AsWrittenImportRefused) | Csa.Aggregate (with Csa.Drop, Csa.IntendedSheet, Csa.FreeResponseExample) |

=== FILE: csa.dfy ===
/**
 * The STEM AP CS A aggregator.  Unlike the CSP export, each CSA header says
 * what it is, so every column is relabelled on its own: the unit is the
 * first number in the header and the category comes from the first of three
 * header patterns it matches.  Free-response columns and headers that match
 * no pattern are labelled "drop me".
 */
module Csa {
  import opened Wrappers
  import opened Strings
  import opened Table
  import opened Grades
  import opened Stem

  const Exam := "Exam"
  const Exercises := "Exercises"
  const QuizAndAssignment := "Quiz and assignment"

  /** The categories in `cat_info` order, which is also the order the grade columns are added in. */
  const Categories: seq<string> := [Exam, Exercises, QuizAndAssignment]

  /** The label of a column the aggregator means to discard. */
  const DropMe := "drop me"

  /** `re.search("\d+", h)`: the first maximal run of digits, kept as text. */
  function FirstDigits(h: string): (r: Option<string>)
    ensures r.None? <==> forall i :: 0 <= i < |h| ==> !IsDigit(h[i])
    ensures r.Some? ==> IsDigits(r.value) && r.value == DigitRuns(h)[0]
  {
    var i := LeadingNonDigits(h);
    if i == |h| then None
    else
      var j := i + LeadingDigits(h[i..]);
      assert h[i..j] == h[i..][..j - i];
      Some(h[i..j])
  }

  /** `re.search("^Unit \d+" + rest, h)`: "Unit ", a number, then `rest`. */
  predicate UnitThen(h: string, rest: string) {
    StartsWith(h, "Unit ") && var k := LeadingDigits(h[5..]); k > 0 && StartsWith(h[5 + k..], rest)
  }

  /** The category of the first `cat_info` pattern the header matches (lines 62 to 66 and 81 to 84). */
  function CategoryOf(h: string): (c: Option<string>)
    ensures c.Some? ==> c.value in Categories
    ensures c.None? <==>
      !UnitThen(h, " Exam") && !UnitThen(h, ": Lesson") && !UnitThen(h, " Quiz") && !StartsWith(h, "Assignment")
  {
    if UnitThen(h, " Exam") then Some(Exam)
    else if UnitThen(h, ": Lesson") then Some(Exercises)
    else if UnitThen(h, " Quiz") || StartsWith(h, "Assignment") then Some(QuizAndAssignment)
    else None
  }

  /** Every CSA label: "drop me", or a number, a space and a category. */
  predicate CsaLabel(l: string) {
    l == DropMe || (var k := LeadingDigits(l); 0 < k < |l| && l[k] == ' ' && l[k + 1..] in Categories)
  }

  /** Lines 70 to 91: the new name of the column headed `h`. */
  function Label(h: string): (l: string)
    ensures CsaLabel(l)
    ensures StartsWith(h, "FRQ") || FirstDigits(h).None? || CategoryOf(h).None? ==> l == DropMe
    ensures l != DropMe ==> l == FirstDigits(h).value + " " + CategoryOf(h).value
  {
    if StartsWith(h, "FRQ") then DropMe
    else match FirstDigits(h)
      case None => DropMe
      case Some(unit) =>
        match CategoryOf(h)
        case None => DropMe
        case Some(cat) =>
          LeadingDigitsOfRun(unit, " " + cat);
          assert unit + " " + cat == unit + (" " + cat);
          assert (unit + " " + cat)[|unit| + 1..] == cat;
          unit + " " + cat
  }

  lemma {:induction false} LeadingDigitsOfRun(d: string, rest: string)
    requires AllDigits(d) && |rest| > 0 && !IsDigit(rest[0])
    ensures LeadingDigits(d + rest) == |d|
    decreases |d|
  {
    if |d| > 0 {
      assert (d + rest)[1..] == d[1..] + rest;
      LeadingDigitsOfRun(d[1..], rest);
    } else {
      assert d + rest == rest;
    }
  }

  /** The unit of a header that starts "Unit <number>" is that number. */
  lemma UnitHeaderNumber(d: string, rest: string)
    requires IsDigits(d) && |rest| > 0 && !IsDigit(rest[0])
    ensures FirstDigits("Unit " + d + rest) == Some(d)
  {
    var h := "Unit " + d + rest;
    assert LeadingNonDigits(h) == 5 by {
      assert h[5] == d[0];
    }
    assert h[5..] == d + rest;
    LeadingDigitsOfRun(d, rest);
    assert h[5..5 + |d|] == d;
  }

  /** After "Unit <number>", a header pattern tests what follows the number. */
  lemma UnitHeaderPattern(d: string, rest: string, other: string)
    requires IsDigits(d) && |rest| > 0 && !IsDigit(rest[0])
    ensures UnitThen("Unit " + d + rest, other) <==> StartsWith(rest, other)
  {
    var h := "Unit " + d + rest;
    assert h[5..] == d + rest;
    LeadingDigitsOfRun(d, rest);
    assert h[5 + |d|..] == rest;
  }

  /** The label of "Unit <number>" followed by a category marker. */
  lemma UnitHeaderLabel(d: string, rest: string, cat: string)
    requires IsDigits(d) && |rest| > 0 && !IsDigit(rest[0])
    requires CategoryOf("Unit " + d + rest) == Some(cat)
    ensures Label("Unit " + d + rest) == d + " " + cat
  {
    var h := "Unit " + d + rest;
    assert h[0] == 'U';
    assert !StartsWith(h, "FRQ");
    UnitHeaderNumber(d, rest);
  }

  /** "Unit <n> Exam…" is labelled "<n> Exam". */
  lemma ExamHeader(d: string, rest: string)
    requires IsDigits(d)
    ensures Label("Unit " + d + " Exam" + rest) == d + " " + Exam
  {
    var tail := " Exam" + rest;
    assert "Unit " + d + " Exam" + rest == "Unit " + d + tail;
    assert tail[0] == ' ' && tail[..5] == " Exam";
    UnitHeaderPattern(d, tail, " Exam");
    UnitHeaderLabel(d, tail, Exam);
  }

  /** "Unit <n>: Lesson…" is labelled "<n> Exercises". */
  lemma LessonHeader(d: string, rest: string)
    requires IsDigits(d)
    ensures Label("Unit " + d + ": Lesson" + rest) == d + " " + Exercises
  {
    var tail := ": Lesson" + rest;
    assert "Unit " + d + ": Lesson" + rest == "Unit " + d + tail;
    assert tail[0] == ':' && tail[..8] == ": Lesson";
    UnitHeaderPattern(d, tail, " Exam");
    UnitHeaderPattern(d, tail, ": Lesson");
    UnitHeaderLabel(d, tail, Exercises);
  }

  /** "Unit <n> Quiz…" is labelled "<n> Quiz and assignment". */
  lemma QuizHeader(d: string, rest: string)
    requires IsDigits(d)
    ensures Label("Unit " + d + " Quiz" + rest) == d + " " + QuizAndAssignment
  {
    var tail := " Quiz" + rest;
    assert "Unit " + d + " Quiz" + rest == "Unit " + d + tail;
    assert tail[0] == ' ' && tail[1] == 'Q' && tail[..5] == " Quiz";
    UnitHeaderPattern(d, tail, " Exam");
    UnitHeaderPattern(d, tail, ": Lesson");
    UnitHeaderPattern(d, tail, " Quiz");
    UnitHeaderLabel(d, tail, QuizAndAssignment);
  }

  /** A free-response column is always dropped. */
  lemma FreeResponseDropped(rest: string)
    ensures Label("FRQ" + rest) == DropMe
  {
    assert ("FRQ" + rest)[..3] == "FRQ";
  }

  /** A header without any digit is dropped. */
  lemma NoNumberDropped(h: string)
    requires forall i :: 0 <= i < |h| ==> !IsDigit(h[i])
    ensures Label(h) == DropMe
  {
  }

  /** Lines 68 to 94: every column's new name. */
  function NewNames(names: seq<string>): (ls: seq<string>)
    ensures |ls| == |names| && forall k :: 0 <= k < |names| ==> ls[k] == Label(names[k])
  {
    seq(|names|, k requires 0 <= k < |names| => Label(names[k]))
  }

  /** No label is spelled "drop_me", the name line 95 tests for. */
  lemma NotDropUnderscore(l: string)
    requires CsaLabel(l)
    ensures l != "drop_me"
  {
    if l != DropMe {
      assert IsDigit(l[..LeadingDigits(l)][0]);
    } else {
      assert l[4] == ' ';
    }
  }

  /** The columns left after the drops, the index and the participation filter (lines 51 to 56), relabelled. */
  function Relabelled(cols: seq<Column>, n: nat): (r: Result<Indexed, Failure>)
    requires SameHeight(cols, n)
    ensures Prelude(cols, n).Err? ==> r == Err(Prelude(cols, n).error)
    ensures r.Ok? ==> Prelude(cols, n).Ok? && n > 0 && SameHeight(r.value.cols, n)
    ensures r.Ok? ==> r.value.student == Prelude(cols, n).value.student && r.value.section == Prelude(cols, n).value.section
    ensures r.Ok? ==> |r.value.student| == n && |r.value.section| == n
    ensures r.Ok? ==> forall c :: c in r.value.cols <==>
      exists d :: d in Prelude(cols, n).value.cols && NonMissing(d.cells) >= n / 4 && c == Column(Label(d.name), d.cells)
    ensures r.Ok? ==> forall c :: c in r.value.cols ==> CsaLabel(c.name)
    ensures r.Ok? <==> Prelude(cols, n).Ok?
  {
    match Prelude(cols, n)
    case Err(e) => Err(e)
    case Ok(ix) =>
      var kept := KeepParticipating(ix.cols, n / 4);
      var out := Rename(kept, NewNames(Names(kept)));
      SubsetHeight(ix.cols, kept, n);
      RenameMembers(ix.cols, kept, out, n);
      Ok(Indexed(ix.student, ix.section, out))
  }

  lemma RenameMembers(cols: seq<Column>, kept: seq<Column>, out: seq<Column>, n: nat)
    requires forall c :: c in kept <==> c in cols && NonMissing(c.cells) >= n / 4
    requires |out| == |kept| && forall k :: 0 <= k < |kept| ==> out[k] == Column(Label(kept[k].name), kept[k].cells)
    requires SameHeight(kept, n)
    ensures SameHeight(out, n)
    ensures forall c :: c in out <==> exists d :: d in cols && NonMissing(d.cells) >= n / 4 && c == Column(Label(d.name), d.cells)
  {
    forall c
      ensures c in out <==> exists d :: d in cols && NonMissing(d.cells) >= n / 4 && c == Column(Label(d.name), d.cells)
    {
      if c in out {
        var k :| 0 <= k < |out| && out[k] == c;
        assert kept[k] in kept;
      }
      if exists d :: d in cols && NonMissing(d.cells) >= n / 4 && c == Column(Label(d.name), d.cells) {
        var d :| d in cols && NonMissing(d.cells) >= n / 4 && c == Column(Label(d.name), d.cells);
        var k :| 0 <= k < |kept| && kept[k] == d;
        assert out[k] == c;
      }
    }
  }

  /** Lines 95 and 96 as written: the "drop me" columns are removed only if a column is named "drop_me". */
  function DropAsWritten(cols: seq<Column>): (r: Result<seq<Column>, Failure>)
  {
    if "drop_me" in Names(cols) then
      if DropMe in Names(cols) then Ok(Where(cols, (c: Column) => c.name != DropMe)) else Err(MissingColumn(DropMe))
    else Ok(cols)
  }

  /** Lines 95 and 96 as evidently intended: every "drop me" column is removed. */
  function Drop(cols: seq<Column>): (out: seq<Column>)
    ensures |out| <= |cols|
    ensures forall c :: c in out <==> c in cols && c.name != DropMe
    ensures (forall c :: c in cols ==> c.name == DropMe) ==> out == []
    ensures forall n: nat :: SameHeight(cols, n) ==> SameHeight(out, n)
  {
    var out := Where(cols, (c: Column) => c.name != DropMe);
    SubsetHeights(cols, out);
    out
  }

  /** On relabelled columns the check on line 95 never succeeds, so nothing is removed. */
  lemma DropAsWrittenKeepsAll(cols: seq<Column>)
    requires forall c :: c in cols ==> CsaLabel(c.name)
    ensures DropAsWritten(cols) == Ok(cols)
  {
    forall k | 0 <= k < |cols|
      ensures Names(cols)[k] != "drop_me"
    {
      assert cols[k] in cols;
      NotDropUnderscore(cols[k].name);
    }
  }

  /** `aggregate` as written: the "drop me" columns reach the sums. */
  function AggregateAsWritten(cols: seq<Column>, n: nat): (r: Result<AggregateSheet, Failure>)
    requires SameHeight(cols, n)
    ensures r.Ok? ==> Relabelled(cols, n).Ok?
    ensures r.Ok? ==> forall l :: l in Labels(r.value.sums) <==> exists c :: c in Relabelled(cols, n).value.cols && c.name == l
    ensures r.Ok? ==> |r.value.student| == n && |r.value.section| == n
    ensures r.Ok? ==> SummedHeight(r.value.sums, n) && SummedHeight(r.value.grades, n)
    ensures r.Ok? ==> forall k :: 0 <= k < |r.value.sums| ==> CsaLabel(r.value.sums[k].name)
    ensures r.Ok? <==>
      Relabelled(cols, n).Ok? && Tail(Relabelled(cols, n).value, Relabelled(cols, n).value.cols, n, Categories, false).Ok?
    ensures r.Ok? ==> r.value == Tail(Relabelled(cols, n).value, Relabelled(cols, n).value.cols, n, Categories, false).value
  {
    match Relabelled(cols, n)
    case Err(e) => Err(e)
    case Ok(ix) =>
      DropAsWrittenKeepsAll(ix.cols);
      var shown := DropAsWritten(ix.cols).value;
      var sheet := Tail(ix, shown, n, Categories, false);
      if sheet.Ok? then
        AsWrittenSheet(ix, shown, n, sheet.value);
        sheet
      else sheet
  }

  lemma AsWrittenSheet(ix: Indexed, cols: seq<Column>, n: nat, a: AggregateSheet)
    requires forall c :: c in cols ==> CsaLabel(c.name)
    requires SameHeight(cols, n) && Tail(ix, cols, n, Categories, false) == Ok(a)
    ensures forall l :: l in Labels(a.sums) <==> exists c :: c in cols && c.name == l
    ensures SummedHeight(a.sums, n) && SummedHeight(a.grades, n)
    ensures forall k :: 0 <= k < |a.sums| ==> CsaLabel(a.sums[k].name)
  {
    SortedNamesIffAll(cols);
    forall k | 0 <= k < |cols|
      ensures CsaLabel(cols[k].name)
    {
      assert cols[k] in cols;
    }
    SortedNamesAll(cols, CsaLabel);
    forall k | 0 <= k < |a.sums|
      ensures CsaLabel(a.sums[k].name)
    {
      assert Labels(a.sums)[k] == a.sums[k].name;
    }
    assert GradesFor(a.grades, Categories, n, false);
  }

  lemma SortedNamesIffAll(cols: seq<Column>)
    ensures forall l :: l in SortedLabels(Names(cols)) <==> exists c :: c in cols && c.name == l
  {
    forall l
      ensures l in SortedLabels(Names(cols)) <==> exists c :: c in cols && c.name == l
    {
      SortedNamesIff(cols, l);
    }
  }

  /** With a participating column labelled "drop me", the sums as written carry a "drop me" column. */
  lemma DropMeSurvives(cols: seq<Column>, n: nat, d: Column)
    requires SameHeight(cols, n) && AggregateAsWritten(cols, n).Ok?
    requires d in Prelude(cols, n).value.cols && NonMissing(d.cells) >= n / 4 && Label(d.name) == DropMe
    ensures DropMe in Labels(AggregateAsWritten(cols, n).value.sums)
  {
    assert Column(DropMe, d.cells) in Relabelled(cols, n).value.cols;
  }

  /** A free-response column that participates is enough to exhibit it. */
  lemma FreeResponseSurvives(cols: seq<Column>, n: nat, d: Column)
    requires SameHeight(cols, n) && AggregateAsWritten(cols, n).Ok?
    requires d in Prelude(cols, n).value.cols && NonMissing(d.cells) >= n / 4 && StartsWith(d.name, "FRQ")
    ensures DropMe in Labels(AggregateAsWritten(cols, n).value.sums)
  {
    DropMeSurvives(cols, n, d);
  }

  /** A string none of whose characters starts `t` does not contain `t`. */
  lemma NoStartNoMatch(s: string, t: string)
    requires |t| > 0 && forall i :: 0 <= i < |s| ==> s[i] != t[0]
    ensures !Contains(s, t)
  {
    forall j: nat
      ensures !MatchAt(s, t, j)
    {
      if j + |t| <= |s| {
        assert s[j..j + |t|][0] == s[j];
      }
    }
  }

  /** "drop me" names no category, so a "drop me" column never enters a grade. */
  lemma DropMeInNoCategory(k: nat)
    requires k < |Categories|
    ensures !Contains(DropMe, Categories[k])
  {
    assert Categories[k][0] == 'E' || Categories[k][0] == 'Q';
    assert forall i :: 0 <= i < |DropMe| ==> DropMe[i] in "drop me";
    NoStartNoMatch(DropMe, Categories[k]);
  }

  /** Appending a "drop me" column leaves every category total as it was. */
  lemma DropMeNotGraded(cols: seq<Summed>, values: seq<int>, k: nat, r: nat)
    requires k < |Categories|
    requires forall j :: 0 <= j < |cols| ==> r < |cols[j].values|
    requires r < |values|
    ensures CategoryTotal(cols + [Summed(DropMe, values)], Categories[k], r) == CategoryTotal(cols, Categories[k], r)
  {
    DropMeInNoCategory(k);
    assert (cols + [Summed(DropMe, values)])[..|cols|] == cols;
  }

  /** No CSA grade column names a category that comes after its own. */
  lemma CategoriesSeparate()
    ensures SeparateCategories(Categories)
  {
    var eg := Exam + " grade";
    forall j: nat
      ensures !MatchAt(eg, Exercises, j)
    {
      if j == 0 {
        assert eg[2] != Exercises[2];
        assert eg[..9][2] == eg[2];
      } else if j == 1 {
        assert eg[1..10][0] == eg[1];
      }
    }
    assert !Contains(eg, QuizAndAssignment);
    assert !Contains(Exercises + " grade", QuizAndAssignment);
  }

  /**
   * `aggregate` with the "drop me" columns removed before the sums, as the
   * comment on lines 95 and 96 intends.
   */
  function Aggregate(cols: seq<Column>, n: nat): (r: Result<AggregateSheet, Failure>)
    requires SameHeight(cols, n)
    ensures r.Err? ==> SharedFailure(r.error)
    ensures FirstAbsent(cols, IdColumns).Some? ==> r == Err(MissingColumn(FirstAbsent(cols, IdColumns).value))
    ensures FirstAbsent(cols, IdColumns).None? ==> (r == Err(NoRows) <==> n == 0)
    ensures r.Ok? ==> n > 0 && Column("Student", r.value.student) in cols && Column("Section", r.value.section) in cols
    ensures r.Ok? ==> Relabelled(cols, n).Ok?
    ensures r.Ok? ==> |r.value.student| == n && |r.value.section| == n
    ensures r.Ok? ==> forall l :: l in Labels(r.value.sums) <==>
      l != DropMe && exists c :: c in Relabelled(cols, n).value.cols && c.name == l
    ensures r.Ok? ==> forall k :: 0 <= k < |r.value.sums| ==> CsaLabel(r.value.sums[k].name) && r.value.sums[k].name != DropMe
    ensures r.Ok? ==> SummedHeight(r.value.sums, n) && StrictlySorted(Labels(r.value.sums))
    ensures r.Ok? ==> r.value.separated && SummedHeight(r.value.grades, n) && |r.value.grades| <= |Categories|
    ensures r.Ok? ==> forall k :: 0 <= k < |Categories| ==>
      (HasGrade(r.value.grades, Categories[k]) <==> HasCategory(r.value.sums, Categories[k]))
    ensures r.Ok? <==>
      Relabelled(cols, n).Ok? && Tail(Relabelled(cols, n).value, Drop(Relabelled(cols, n).value.cols), n, Categories, false).Ok?
    ensures r.Ok? ==>
      r.value == Tail(Relabelled(cols, n).value, Drop(Relabelled(cols, n).value.cols), n, Categories, false).value
  {
    match Relabelled(cols, n)
    case Err(e) => Err(e)
    case Ok(ix) => Summarise(ix, n)
  }

  /**
   * From the relabelled columns on, with the "drop me" columns removed: the
   * sums by label and the grades of the categories that have points.
   */
  function Summarise(ix: Indexed, n: nat): (r: Result<AggregateSheet, Failure>)
    requires SameHeight(ix.cols, n) && forall c :: c in ix.cols ==> CsaLabel(c.name)
    ensures r.Err? ==> r.error.NotNumeric? || r.error.NoPoints?
    ensures r.Ok? ==> r.value.student == ix.student && r.value.section == ix.section
    ensures r.Ok? ==> forall l :: l in Labels(r.value.sums) <==>
      l != DropMe && exists c :: c in ix.cols && c.name == l
    ensures r.Ok? ==> forall k :: 0 <= k < |r.value.sums| ==> CsaLabel(r.value.sums[k].name) && r.value.sums[k].name != DropMe
    ensures r.Ok? ==> SummedHeight(r.value.sums, n) && StrictlySorted(Labels(r.value.sums))
    ensures r.Ok? ==> r.value.separated && SummedHeight(r.value.grades, n) && |r.value.grades| <= |Categories|
    ensures r.Ok? ==> forall k :: 0 <= k < |Categories| ==>
      (HasGrade(r.value.grades, Categories[k]) <==> HasCategory(r.value.sums, Categories[k]))
    ensures r == Tail(ix, Drop(ix.cols), n, Categories, false)
  {
    var kept := Drop(ix.cols);
    SubsetHeight(ix.cols, kept, n);
    var sheet := Tail(ix, kept, n, Categories, false);
    if sheet.Ok? then
      IntendedSheet(ix, kept, n, sheet.value);
      sheet
    else sheet
  }

  /**
   * Once the relabelled columns other than "drop me" read as numbers, the
   * intended run fails exactly when a category some summed column mentions
   * has no points possible.
   */
  lemma IntendedNoPoints(cols: seq<Column>, n: nat)
    requires SameHeight(cols, n) && Relabelled(cols, n).Ok?
    requires Totals(Drop(Relabelled(cols, n).value.cols)).Ok?
    ensures SummedHeight(Totals(Drop(Relabelled(cols, n).value.cols)).value, n)
    ensures Aggregate(cols, n).Err? <==>
      AnyTurnFails(GroupByLabel(Totals(Drop(Relabelled(cols, n).value.cols)).value, n), Categories, n, false)
  {
    var ix := Relabelled(cols, n).value;
    var kept := Drop(ix.cols);
    assert SameHeight(kept, n);
    TotalsHeight(kept, n);
    var sums := GroupByLabel(Totals(kept).value, n);
    assert Aggregate(cols, n).Ok? <==> Tail(ix, kept, n, Categories, false).Ok?;
    assert Tail(ix, kept, n, Categories, false).Ok? <==> CategoryGrades(sums, Categories, n, false).Some?;
    NoPointsTurn(sums, n);
  }

  /** The CSA grades fail exactly when a category the summed columns mention has no points possible. */
  lemma NoPointsTurn(sums: seq<Summed>, n: nat)
    requires SummedHeight(sums, n)
    ensures CategoryGrades(sums, Categories, n, false).None? <==> AnyTurnFails(sums, Categories, n, false)
  {
    CategoriesSeparate();
    SeparateGrades(sums, Categories, n, false);
  }

  /** Every CSA grade column is the grade over the summed columns of a category they mention. */
  lemma IntendedGrades(cols: seq<Column>, n: nat, a: AggregateSheet)
    requires SameHeight(cols, n) && Aggregate(cols, n) == Ok(a)
    ensures EachGraded(a.sums, a.grades, Categories, n, false)
  {
    var ix := Relabelled(cols, n).value;
    assert Tail(ix, Drop(ix.cols), n, Categories, false) == Ok(a);
    assert CategoryGrades(a.sums, Categories, n, false) == Some(a.grades);
    MentionedGrades(a.sums, a.grades, n);
  }

  /** The CSA grade columns, each over the summed columns alone. */
  lemma MentionedGrades(sums: seq<Summed>, grades: seq<Summed>, n: nat)
    requires SummedHeight(sums, n) && CategoryGrades(sums, Categories, n, false) == Some(grades)
    ensures EachGraded(sums, grades, Categories, n, false)
  {
    CategoriesSeparate();
    SeparateGrades(sums, Categories, n, false);
  }

  lemma IntendedSheet(ix: Indexed, kept: seq<Column>, n: nat, sheet: AggregateSheet)
    requires forall c :: c in ix.cols ==> CsaLabel(c.name)
    requires forall c :: c in kept <==> c in ix.cols && c.name != DropMe
    requires SameHeight(kept, n) && Tail(ix, kept, n, Categories, false) == Ok(sheet)
    ensures forall l :: l in Labels(sheet.sums) <==> l != DropMe && exists c :: c in ix.cols && c.name == l
    ensures forall k :: 0 <= k < |sheet.sums| ==> CsaLabel(sheet.sums[k].name) && sheet.sums[k].name != DropMe
    ensures forall k :: 0 <= k < |Categories| ==>
      (HasGrade(sheet.grades, Categories[k]) <==> HasCategory(sheet.sums, Categories[k]))
  {
    SortedNamesIffAll(kept);
    forall k | 0 <= k < |kept|
      ensures CsaLabel(kept[k].name) && kept[k].name != DropMe
    {
      assert kept[k] in kept;
    }
    SortedNamesAll(kept, (l: string) => CsaLabel(l) && l != DropMe);
    forall k | 0 <= k < |sheet.sums|
      ensures CsaLabel(sheet.sums[k].name) && sheet.sums[k].name != DropMe
    {
      assert Labels(sheet.sums)[k] in SortedLabels(Names(kept));
    }
    CategoriesSeparate();
    forall k | 0 <= k < |Categories|
      ensures HasGrade(sheet.grades, Categories[k]) <==> HasCategory(sheet.sums, Categories[k])
    {
      GradeIffCategoryPresent(sheet.sums, Categories, n, k);
    }
  }

  /** A one-student export whose only graded column is a free-response question, scored `points`. */
  function FrqExport(points: int): (cols: seq<Column>)
    ensures SameHeight(cols, 1)
  {
    [Column("Student", [Text("Doe, Jane")]), Column("ID", [Num(7)]), Column("SIS User ID", [Num(7)]),
     Column("SIS Login ID", [Text("jdoe")]), Column("Section", [Text("P1")]), Column("FRQ 1", [Num(points)])]
  }

  /** The example carries every ID column. */
  lemma FrqIds(points: int)
    ensures SameHeight(FrqExport(points), 1) && FirstAbsent(FrqExport(points), IdColumns).None?
  {
    assert NamedIn(FrqExport(points), "ID") by { assert FrqExport(points)[1] in FrqExport(points); }
    assert NamedIn(FrqExport(points), "SIS User ID") by { assert FrqExport(points)[2] in FrqExport(points); }
    assert NamedIn(FrqExport(points), "SIS Login ID") by { assert FrqExport(points)[3] in FrqExport(points); }
  }

  /** Student and Section survive the drops of the example. */
  lemma FrqScored(points: int, scored: seq<Column>)
    requires forall c :: c in scored <==> c in FrqExport(points) && c.name !in IdColumns && !Unscored(c)
    ensures Find(scored, "Student").Some? && Find(scored, "Section").Some?
  {
    var st := FrqExport(points)[0];
    var se := FrqExport(points)[4];
    assert st in FrqExport(points) && se in FrqExport(points);
    assert st in scored && se in scored;
  }

  /** The example passes the drops and the index. */
  lemma FrqPrelude(points: int)
    ensures SameHeight(FrqExport(points), 1) && Prelude(FrqExport(points), 1).Ok?
  {
    FrqIds(points);
    var scored := Where(FrqExport(points), (c: Column) => c.name !in IdColumns && !Unscored(c));
    FrqScored(points, scored);
  }

  /** Of the example's columns only the FRQ one is graded. */
  lemma FrqGraded(points: int, c: Column)
    requires c in FrqExport(points)
    ensures Graded(c) <==> c == FrqExport(points)[5]
  {
    var i :| 0 <= i < |FrqExport(points)| && FrqExport(points)[i] == c;
    assert i == 0 || i == 1 || i == 2 || i == 3 || i == 4 || i == 5;
  }

  /** The FRQ column is the only one left, relabelled "drop me". */
  lemma FrqRelabelled(points: int)
    ensures SameHeight(FrqExport(points), 1) && Relabelled(FrqExport(points), 1).Ok?
    ensures Column(DropMe, [Num(points)]) in Relabelled(FrqExport(points), 1).value.cols
    ensures forall c :: c in Relabelled(FrqExport(points), 1).value.cols ==> c == Column(DropMe, [Num(points)])
    ensures forall c :: c in Relabelled(FrqExport(points), 1).value.cols ==> c.name == DropMe && NumericValues(c.cells).Some?
  {
    FrqKept(points);
    FrqOnlyKept(points);
    assert NumericValues([Num(points)]).Some?;
  }

  /** The FRQ column survives the relabelling as a "drop me" column. */
  lemma FrqKept(points: int)
    ensures SameHeight(FrqExport(points), 1) && Relabelled(FrqExport(points), 1).Ok?
    ensures Column(DropMe, [Num(points)]) in Relabelled(FrqExport(points), 1).value.cols
  {
    FrqPrelude(points);
    var frq := FrqExport(points)[5];
    assert frq.name == "FRQ 1" && frq.cells == [Num(points)];
    assert StartsWith(frq.name, "FRQ");
    assert Label(frq.name) == DropMe;
    FrqGraded(points, frq);
    assert frq in Prelude(FrqExport(points), 1).value.cols;
  }

  /** No other column survives the relabelling. */
  lemma FrqOnlyKept(points: int)
    requires SameHeight(FrqExport(points), 1) && Relabelled(FrqExport(points), 1).Ok?
    ensures forall c :: c in Relabelled(FrqExport(points), 1).value.cols ==> c == Column(DropMe, [Num(points)])
  {
    var frq := FrqExport(points)[5];
    assert frq.name == "FRQ 1" && frq.cells == [Num(points)];
    assert StartsWith(frq.name, "FRQ");
    assert Label(frq.name) == DropMe;
    var ix := Prelude(FrqExport(points), 1).value;
    var rl := Relabelled(FrqExport(points), 1).value;
    forall c | c in rl.cols
      ensures c == Column(DropMe, [Num(points)])
    {
      var d :| d in ix.cols && NonMissing(d.cells) >= 0 && c == Column(Label(d.name), d.cells);
      FrqGraded(points, d);
    }
  }

  /** Numeric columns that are all labelled "drop me" sum to one "drop me" column and grade nothing. */
  lemma DropMeOnlyTail(ix: Indexed, cols: seq<Column>, n: nat)
    requires SameHeight(cols, n) && |cols| > 0
    requires forall k :: 0 <= k < |cols| ==> cols[k].name == DropMe && NumericValues(cols[k].cells).Some?
    ensures Tail(ix, cols, n, Categories, false).Ok?
    ensures Labels(Tail(ix, cols, n, Categories, false).value.sums) == [DropMe]
  {
    var totals := Totals(cols).value;
    assert Labels(totals) == Names(cols);
    var sums := GroupByLabel(totals, n);
    forall j | 0 <= j < |sums|
      ensures sums[j].name == DropMe
    {
      assert Labels(sums)[j] in Names(cols);
    }
    assert DropMe in Labels(sums) by {
      assert Names(cols)[0] == DropMe;
    }
    forall k | 0 <= k < |Categories|
      ensures !HasCategory(sums, Categories[k])
    {
      DropMeInNoCategory(k);
    }
    NoCategoryNoGrades(sums, Categories, n);
    assert |sums| == 1 by {
      if |sums| > 1 {
        SortedDistinct(Labels(sums), 0, 1);
      }
    }
  }

  /** With no columns left the tail succeeds with no sums and no grades. */
  lemma EmptyTail(ix: Indexed, n: nat)
    ensures Tail(ix, [], n, Categories, false).Ok? && Tail(ix, [], n, Categories, false).value.sums == []
  {
    NoCategoryNoGrades(GroupByLabel(Totals([]).value, n), Categories, n);
  }

  /** Numeric columns all labelled "drop me" are summed as written into one "drop me" column. */
  lemma AsWrittenDropMeOnly(cols: seq<Column>, n: nat)
    requires SameHeight(cols, n) && Relabelled(cols, n).Ok? && |Relabelled(cols, n).value.cols| > 0
    requires forall c :: c in Relabelled(cols, n).value.cols ==> c.name == DropMe && NumericValues(c.cells).Some?
    ensures AggregateAsWritten(cols, n).Ok? && Labels(AggregateAsWritten(cols, n).value.sums) == [DropMe]
  {
    var ix := Relabelled(cols, n).value;
    forall k | 0 <= k < |ix.cols|
      ensures ix.cols[k].name == DropMe && NumericValues(ix.cols[k].cells).Some?
    {
      assert ix.cols[k] in ix.cols;
    }
    DropAsWrittenKeepsAll(ix.cols);
    DropMeOnlyTail(ix, ix.cols, n);
  }

  /** With the intended drop, columns all labelled "drop me" leave nothing to sum. */
  lemma IntendedDropMeOnly(cols: seq<Column>, n: nat)
    requires SameHeight(cols, n) && Relabelled(cols, n).Ok?
    requires forall c :: c in Relabelled(cols, n).value.cols ==> c.name == DropMe
    ensures Aggregate(cols, n).Ok? && Aggregate(cols, n).value.sums == []
  {
    var ix := Relabelled(cols, n).value;
    EmptyTail(ix, n);
  }

  /**
   * The input that exhibits lines 95 and 96: as written, the FRQ column
   * reaches the sums as "drop me"; with the intended drop it does not.
   */
  lemma FreeResponseExample(points: int)
    ensures SameHeight(FrqExport(points), 1)
    ensures AggregateAsWritten(FrqExport(points), 1).Ok?
    ensures Labels(AggregateAsWritten(FrqExport(points), 1).value.sums) == [DropMe]
    ensures Aggregate(FrqExport(points), 1).Ok? && Aggregate(FrqExport(points), 1).value.sums == []
  {
    FrqRelabelled(points);
    AsWrittenDropMeOnly(FrqExport(points), 1);
    IntendedDropMeOnly(FrqExport(points), 1);
  }
}

=== FILE: csp.dfy ===
/**
 * The STEM AP CS Principles aggregator.  STEM orders its export by category
 * and then by unit, so the columns are relabelled by a left-to-right state
 * machine: a unit number that goes down starts the next category, the first
 * "Milestone" column starts the projects, and each new project name is a
 * new unit.  Labels are "<unit> <category>", or "Performance" alone.
 */
module Csp {
  import opened Wrappers
  import opened Strings
  import opened Table
  import opened Grades
  import opened Stem

  /** `cat_order`. */
  const Categories: seq<string> := ["Exercises", "Project", "Quizzes", "Exam", "Performance"]

  /** No CSP grade column names a category that comes after its own. */
  lemma CategoriesSeparate()
    ensures SeparateCategories(Categories)
  {
    forall i, j | 0 <= i < j < |Categories|
      ensures Categories[i] != Categories[j] && !Contains(Categories[i] + " grade", Categories[j])
    {
      var g := Categories[i] + " grade";
      var c := Categories[j];
      assert |g| < |c| || g[..|c|][0] != c[0] || g[..|c|][1] != c[1] || g[..|c|][2] != c[2];
      assert forall k :: 0 < k < |g| ==> g[k] != c[0];
      NotContainsFirstChar(g, c);
    }
  }

  /** The loop state: index into `Categories`, unit number, current project name. */
  datatype State = State(cat: nat, unit: nat, project: Option<string>)

  const Start: State := State(0, 0, None)

  /** The header as the classifier reads it: every "Unit " removed. */
  function Bare(heading: string): string {
    ReplaceAll(heading, "Unit ", "")
  }

  /** `re.search("^\d+", h)`: the number the header starts with. */
  function LeadingNumber(h: string): (r: Option<nat>)
    ensures r.Some? <==> |h| > 0 && IsDigit(h[0])
  {
    var k := LeadingDigits(h);
    if k == 0 then None else Some(ParseNat(h[..k]))
  }

  /** `split()[0]` of a header that names a milestone. */
  function MilestoneName(h: string): (w: string)
    requires Contains(h, "Milestone")
    ensures |w| > 0 && NoSpace(w) && Contains(h, w)
  {
    ContainsNotBlank(h, "Milestone");
    FirstWord(h)
  }

  /** `split()[0].split(":")[0]`: the project a header belongs to. */
  function ProjectName(h: string): (p: string)
    requires !AllSpace(h)
    ensures forall i :: 0 <= i < |p| ==> p[i] != ':' && !IsSpace(p[i])
    ensures StartsWith(FirstWord(h), p)
  {
    BeforeChar(FirstWord(h), ':')
  }

  /**
   * Lines 71 to 84: a leading number sets the unit and, when it is smaller
   * than the current one, moves to the next category (naming a sixth
   * category fails); in the first category a "Milestone" header starts the
   * projects at unit 2.
   */
  function UnitRule(s: State, h: string, col: nat): (r: Result<State, Failure>)
    requires s.cat <= 4
    ensures r.Err? <==> LeadingNumber(h).Some? && LeadingNumber(h).value < s.unit && s.cat == 4
    ensures r.Err? ==> r.error == CategoryOverflow(col)
    ensures r.Ok? ==> s.cat <= r.value.cat <= 4
    ensures r.Ok? && LeadingNumber(h).Some? ==>
      r.value.unit == LeadingNumber(h).value && r.value.project == s.project &&
      r.value.cat == (if LeadingNumber(h).value < s.unit then s.cat + 1 else s.cat)
    ensures LeadingNumber(h).None? && s.cat == 0 && Contains(h, "Milestone") ==>
      r == Ok(State(1, 2, Some(MilestoneName(h))))
    ensures LeadingNumber(h).None? && !(s.cat == 0 && Contains(h, "Milestone")) ==> r == Ok(s)
  {
    match LeadingNumber(h)
    case Some(v) =>
      if v < s.unit then
        if s.cat + 1 >= |Categories| then Err(CategoryOverflow(col)) else Ok(State(s.cat + 1, v, s.project))
      else Ok(State(s.cat, v, s.project))
    case None =>
      if s.cat == 0 && Contains(h, "Milestone") then Ok(State(1, 2, Some(MilestoneName(h)))) else Ok(s)
  }

  /** Lines 85 to 90: in the Project category a new project name is a new unit. */
  function ProjectRule(s: State, h: string, col: nat): (r: Result<State, Failure>)
    ensures s.cat != 1 ==> r == Ok(s)
    ensures s.cat == 1 ==> (r.Err? <==> AllSpace(h))
    ensures r.Err? ==> r.error == BlankHeader(col)
    ensures s.cat == 1 && r.Ok? ==> r.value.cat == 1 && r.value.project == Some(ProjectName(h))
    ensures s.cat == 1 && r.Ok? ==>
      r.value.unit == (if s.project == Some(ProjectName(h)) then s.unit else s.unit + 1)
  {
    if s.cat != 1 then Ok(s)
    else if AllSpace(h) then Err(BlankHeader(col))
    else
      var next := ProjectName(h);
      if s.project != Some(next) then Ok(State(1, s.unit + 1, Some(next))) else Ok(s)
  }

  /**
   * Lines 91 to 97: a Quizzes header must mention "Quiz"; an Exam header
   * without "Exam" must mention "Create" and starts Performance; no unit
   * may exceed 6.
   */
  function CheckRule(s: State, h: string, col: nat): (r: Result<State, Failure>)
    requires s.cat <= 4
    ensures r.Err? <==>
      (s.cat == 2 && !Contains(h, "Quiz")) || (s.cat == 3 && !Contains(h, "Exam") && !Contains(h, "Create")) || s.unit > 6
    ensures r.Ok? ==> r.value == (if s.cat == 3 && !Contains(h, "Exam") then State(4, s.unit, s.project) else s)
    ensures r.Err? && s.cat == 2 && !Contains(h, "Quiz") ==> r.error == NotQuiz(col)
  {
    if s.cat == 2 && !Contains(h, "Quiz") then Err(NotQuiz(col))
    else if s.cat == 3 && !Contains(h, "Exam") && !Contains(h, "Create") then Err(NotExam(col))
    else if s.unit > 6 then Err(UnitTooLarge(col))
    else if s.cat == 3 && !Contains(h, "Exam") then Ok(State(4, s.unit, s.project))
    else Ok(s)
  }

  /** Lines 98 to 101: the new column name. */
  function LabelOf(s: State): string
    requires s.cat <= 4
  {
    if s.cat == 4 then Categories[4] else NatToString(s.unit) + " " + Categories[s.cat]
  }

  /** Every CSP label: "Performance", or a unit digit 0 to 6, a space and one of the first four categories. */
  predicate CspLabel(l: string) {
    l == "Performance" || (|l| > 2 && '0' <= l[0] <= '6' && l[1] == ' ' && l[2..] in Categories[..4])
  }

  lemma LabelShape(s: State)
    requires s.cat <= 4 && s.unit <= 6
    ensures CspLabel(LabelOf(s))
  {
    if s.cat < 4 {
      var l := LabelOf(s);
      assert NatToString(s.unit) == [DigitChar(s.unit)];
      assert l[2..] == Categories[s.cat];
    }
  }

  /** A state and the label it gives its column. */
  datatype Labelled = Labelled(state: State, heading: string)

  /** The loop body (lines 69 to 102) on the header of column `col`. */
  function Step(s: State, heading: string, col: nat): (r: Result<Labelled, Failure>)
    requires s.cat <= 4
    ensures r.Ok? ==> s.cat <= r.value.state.cat <= 4 && r.value.state.unit <= 6
    ensures r.Ok? ==> r.value.heading == LabelOf(r.value.state) && CspLabel(r.value.heading)
    ensures r.Err? ==> !SharedFailure(r.error)
  {
    var h := Bare(heading);
    match UnitRule(s, h, col)
    case Err(e) => Err(e)
    case Ok(s1) =>
      match ProjectRule(s1, h, col)
      case Err(e) => Err(e)
      case Ok(s2) =>
        match CheckRule(s2, h, col)
        case Err(e) => Err(e)
        case Ok(s3) =>
          LabelShape(s3);
          Ok(Labelled(s3, LabelOf(s3)))
  }

  /** A leading number below the current unit moves the state to a later category. */
  lemma LowerUnitNextCategory(s: State, heading: string, col: nat)
    requires s.cat <= 4 && Step(s, heading, col).Ok?
    requires LeadingNumber(Bare(heading)).Some? && LeadingNumber(Bare(heading)).value < s.unit
    ensures Step(s, heading, col).value.state.cat > s.cat
  {
  }

  /** A first "Milestone" header starts the projects: unit 2, or 3 when its first word holds a colon. */
  lemma MilestoneStartsProjects(s: State, heading: string, col: nat)
    requires s.cat == 0 && Step(s, heading, col).Ok?
    requires LeadingNumber(Bare(heading)).None? && Contains(Bare(heading), "Milestone")
    ensures Step(s, heading, col).value.state.cat == 1
    ensures Step(s, heading, col).value.state.unit ==
      (if ProjectName(Bare(heading)) == MilestoneName(Bare(heading)) then 2 else 3)
    ensures Step(s, heading, col).value.state.project == Some(ProjectName(Bare(heading)))
  {
  }

  /** In the Project category, a header without a leading number counts a new unit exactly when its project name changes. */
  lemma NewProjectNextUnit(s: State, heading: string, col: nat)
    requires s.cat == 1 && Step(s, heading, col).Ok?
    requires LeadingNumber(Bare(heading)).None?
    ensures Step(s, heading, col).value.state.cat == 1
    ensures Step(s, heading, col).value.state.unit ==
      (if s.project == Some(ProjectName(Bare(heading))) then s.unit else s.unit + 1)
  {
  }

  /** The loop state before and after each column, and the new names. */
  datatype Run = Run(states: seq<State>, labels: seq<string>)

  /**
   * `run` is the loop over `names` from `Start`: one state per boundary and
   * one new name per column, each column taking one `Step`.
   */
  predicate Follows(names: seq<string>, run: Run) {
    |run.states| == |names| + 1 && |run.labels| == |names| && run.states[0] == Start &&
    (forall i :: 0 <= i < |run.states| ==> run.states[i].cat <= 4) &&
    forall i :: 0 <= i < |names| ==>
      Step(run.states[i], names[i], i) == Ok(Labelled(run.states[i + 1], run.labels[i]))
  }

  /** One more column extends a run by the state and name its step gives. */
  lemma FollowsSnoc(names: seq<string>, run: Run, l: Labelled)
    requires |names| > 0 && Follows(names[..|names| - 1], run)
    requires Step(run.states[|names| - 1], names[|names| - 1], |names| - 1) == Ok(l)
    ensures Follows(names, Run(run.states + [l.state], run.labels + [l.heading]))
  {
    var k := |names| - 1;
    var states := run.states + [l.state];
    var labels := run.labels + [l.heading];
    assert forall i :: 0 <= i <= k ==> states[i] == run.states[i];
    assert forall i :: 0 <= i < k ==> labels[i] == run.labels[i] && names[..k][i] == names[i];
  }

  /** Lines 67 to 104: the loop over the column names, from `Start`. */
  function Relabel(names: seq<string>): (r: Result<Run, Failure>)
    ensures r.Ok? ==> Follows(names, r.value)
    ensures r.Ok? ==> forall i :: 0 <= i < |names| ==> CspLabel(r.value.labels[i])
    ensures r.Err? ==> !SharedFailure(r.error)
  {
    if |names| == 0 then Ok(Run([Start], []))
    else
      var k := |names| - 1;
      match Relabel(names[..k])
      case Err(e) => Err(e)
      case Ok(run) =>
        match Step(run.states[k], names[k], k)
        case Err(e) => Err(e)
        case Ok(l) =>
          FollowsSnoc(names, run, l);
          Ok(Run(run.states + [l.state], run.labels + [l.heading]))
  }

  /** The first `k` columns of a run are a run over the first `k` names. */
  lemma FollowsPrefix(names: seq<string>, run: Run, k: nat)
    requires Follows(names, run) && k <= |names|
    ensures Follows(names[..k], Run(run.states[..k + 1], run.labels[..k]))
  {
    var pre := Run(run.states[..k + 1], run.labels[..k]);
    forall i | 0 <= i < k
      ensures Step(pre.states[i], names[..k][i], i) == Ok(Labelled(pre.states[i + 1], pre.labels[i]))
    {
      assert Step(run.states[i], names[i], i) == Ok(Labelled(run.states[i + 1], run.labels[i]));
    }
  }

  /** The loop is deterministic: any run over `names` is the one `Relabel` makes. */
  lemma {:induction false} FollowsIsRelabel(names: seq<string>, run: Run)
    requires Follows(names, run)
    ensures Relabel(names) == Ok(run)
    decreases |names|
  {
    if |names| == 0 {
      assert run.states == [Start] && run.labels == [];
    } else {
      var k := |names| - 1;
      FollowsPrefix(names, run, k);
      var pre := Run(run.states[..k + 1], run.labels[..k]);
      FollowsIsRelabel(names[..k], pre);
      var l := Labelled(run.states[k + 1], run.labels[k]);
      assert Step(pre.states[k], names[k], k) == Ok(l);
      assert pre.states + [l.state] == run.states;
      assert pre.labels + [l.heading] == run.labels;
    }
  }

  /** Some first `k` columns run from `Start` and the step on column `k` fails. */
  ghost predicate SomeStepFails(names: seq<string>) {
    exists k: nat, run: Run :: k < |names| && Follows(names[..k], run) && Step(run.states[k], names[k], k).Err?
  }

  /** The relabelling fails exactly when some step of the run from `Start` fails. */
  lemma RelabelFails(names: seq<string>)
    ensures Relabel(names).Err? <==> SomeStepFails(names)
  {
    if Relabel(names).Err? {
      FailureHasStep(names);
    }
    if SomeStepFails(names) {
      StepFailureStops(names);
    }
  }

  lemma {:induction false} FailureHasStep(names: seq<string>)
    requires Relabel(names).Err?
    ensures SomeStepFails(names)
    decreases |names|
  {
    var k := |names| - 1;
    match Relabel(names[..k])
    case Ok(run) =>
      assert Follows(names[..k], run) && Step(run.states[k], names[k], k).Err?;
    case Err(_) =>
      FailureHasStep(names[..k]);
      var j: nat, run: Run :| j < k && Follows(names[..k][..j], run) && Step(run.states[j], names[..k][j], j).Err?;
      assert names[..k][..j] == names[..j] && names[..k][j] == names[j];
      assert Follows(names[..j], run) && Step(run.states[j], names[j], j).Err?;
  }

  lemma StepFailureStops(names: seq<string>)
    requires SomeStepFails(names)
    ensures Relabel(names).Err?
  {
    var j: nat, run: Run :| j < |names| && Follows(names[..j], run) && Step(run.states[j], names[j], j).Err?;
    if Relabel(names).Ok? {
      var whole := Relabel(names).value;
      FollowsPrefix(names, whole, j);
      FollowsIsRelabel(names[..j], run);
      FollowsIsRelabel(names[..j], Run(whole.states[..j + 1], whole.labels[..j]));
      assert whole.states[j] == run.states[j];
      assert Step(whole.states[j], names[j], j) == Ok(Labelled(whole.states[j + 1], whole.labels[j]));
    }
  }

  /** Along any run the category index never decreases. */
  lemma {:induction false} FollowsMonotone(names: seq<string>, run: Run, i: nat, j: nat)
    requires Follows(names, run) && i <= j <= |names|
    ensures run.states[i].cat <= run.states[j].cat
    decreases j - i
  {
    if i < j {
      assert Step(run.states[i], names[i], i) == Ok(Labelled(run.states[i + 1], run.labels[i]));
      FollowsMonotone(names, run, i + 1, j);
    }
  }

  /** The category index never decreases along the run of the relabelling. */
  lemma CategoriesNeverDecrease(names: seq<string>, i: nat, j: nat)
    requires Relabel(names).Ok? && i <= j <= |names|
    ensures Relabel(names).value.states[i].cat <= Relabel(names).value.states[j].cat
  {
    FollowsMonotone(names, Relabel(names).value, i, j);
  }

  /** Lines 55 to 104: the drops, the index and the relabelling. */
  function Classify(cols: seq<Column>, n: nat): (r: Result<Indexed, Failure>)
    requires SameHeight(cols, n)
    ensures Prelude(cols, n).Err? ==> r == Err(Prelude(cols, n).error)
    ensures r.Ok? ==> Prelude(cols, n).Ok? && n > 0 && SameHeight(r.value.cols, n)
    ensures r.Ok? ==> r.value.student == Prelude(cols, n).value.student && r.value.section == Prelude(cols, n).value.section
    ensures r.Ok? ==> |r.value.student| == n && |r.value.section| == n
    ensures r.Ok? ==> |r.value.cols| == |Prelude(cols, n).value.cols| && forall k :: 0 <= k < |r.value.cols| ==>
      r.value.cols[k].cells == Prelude(cols, n).value.cols[k].cells && CspLabel(r.value.cols[k].name)
    ensures r.Ok? <==> Prelude(cols, n).Ok? && Relabel(Names(Prelude(cols, n).value.cols)).Ok?
    ensures r.Ok? ==> forall k :: 0 <= k < |r.value.cols| ==>
      r.value.cols[k].name == Relabel(Names(Prelude(cols, n).value.cols)).value.labels[k]
  {
    match Prelude(cols, n)
    case Err(e) => Err(e)
    case Ok(ix) =>
      match Relabel(Names(ix.cols))
      case Err(e) => Err(e)
      case Ok(run) => Ok(Indexed(ix.student, ix.section, Rename(ix.cols, run.labels)))
  }

  /** `aggregate`: the CSP export to the aggregate sheet. */
  function Aggregate(cols: seq<Column>, n: nat): (r: Result<AggregateSheet, Failure>)
    requires SameHeight(cols, n)
    ensures FirstAbsent(cols, IdColumns).Some? ==> r == Err(MissingColumn(FirstAbsent(cols, IdColumns).value))
    ensures FirstAbsent(cols, IdColumns).None? ==> (r == Err(NoRows) <==> n == 0)
    ensures r.Ok? ==> n > 0 && Column("Student", r.value.student) in cols && Column("Section", r.value.section) in cols
    ensures r.Ok? ==> Classify(cols, n).Ok?
    ensures r.Ok? ==> |r.value.student| == n && |r.value.section| == n
    ensures r.Ok? ==> forall l :: l in Labels(r.value.sums) <==>
      exists c :: c in Classify(cols, n).value.cols && c.name == l && NonMissing(c.cells) >= n / 2
    ensures r.Ok? ==> SummedHeight(r.value.sums, n) && StrictlySorted(Labels(r.value.sums))
    ensures r.Ok? ==> forall k :: 0 <= k < |r.value.sums| ==> CspLabel(r.value.sums[k].name)
    ensures r.Ok? ==> r.value.separated && |r.value.grades| == |Categories| && SummedHeight(r.value.grades, n)
    ensures r.Ok? ==> forall k :: 0 <= k < |Categories| ==> r.value.grades[k].name == Categories[k] + " grade"
    ensures r.Ok? <==> Classify(cols, n).Ok? && Summarise(Classify(cols, n).value, n).Ok?
    ensures r.Ok? ==> r.value == Summarise(Classify(cols, n).value, n).value
  {
    match Classify(cols, n)
    case Err(e) => Err(e)
    case Ok(ix) => Summarise(ix, n)
  }

  /**
   * From the relabelled columns on: the participation filter at half the
   * rows, the sums by label and the five category grades.
   */
  function Summarise(ix: Indexed, n: nat): (r: Result<AggregateSheet, Failure>)
    requires SameHeight(ix.cols, n) && forall k :: 0 <= k < |ix.cols| ==> CspLabel(ix.cols[k].name)
    ensures r.Err? ==> r.error.NotNumeric? || r.error.NoPoints?
    ensures r.Ok? ==> r.value.student == ix.student && r.value.section == ix.section
    ensures r.Ok? ==> forall l :: l in Labels(r.value.sums) <==>
      exists c :: c in ix.cols && c.name == l && NonMissing(c.cells) >= n / 2
    ensures r.Ok? ==> SummedHeight(r.value.sums, n) && StrictlySorted(Labels(r.value.sums))
    ensures r.Ok? ==> forall k :: 0 <= k < |r.value.sums| ==> CspLabel(r.value.sums[k].name)
    ensures r.Ok? ==> r.value.separated && |r.value.grades| == |Categories| && SummedHeight(r.value.grades, n)
    ensures r.Ok? ==> forall k :: 0 <= k < |Categories| ==> r.value.grades[k].name == Categories[k] + " grade"
    ensures r.Ok? <==> Tail(ix, KeepParticipating(ix.cols, n / 2), n, Categories, true).Ok?
    ensures r.Ok? ==> r.value == Tail(ix, KeepParticipating(ix.cols, n / 2), n, Categories, true).value
  {
    var kept := KeepParticipating(ix.cols, n / 2);
    KeptLabels(ix.cols, kept, n);
    var r := Tail(ix, kept, n, Categories, true);
    if r.Err? then r
    else
      TailLabels(ix, kept, n, r.value);
      TailGrades(ix, kept, n, r.value);
      r
  }

  /**
   * A summarised sheet sums the participating columns by label, every one
   * read as numbers, and grades the five categories over those sums.
   */
  lemma SummariseValues(ix: Indexed, n: nat)
    requires SameHeight(ix.cols, n) && forall k :: 0 <= k < |ix.cols| ==> CspLabel(ix.cols[k].name)
    requires Summarise(ix, n).Ok?
    ensures Totals(KeepParticipating(ix.cols, n / 2)).Ok?
    ensures Summarise(ix, n).value.sums == GroupByLabel(Totals(KeepParticipating(ix.cols, n / 2)).value, n)
    ensures Summarise(ix, n).value.grades == CategoryGrades(Summarise(ix, n).value.sums, Categories, n, true).value
  {
    var kept := KeepParticipating(ix.cols, n / 2);
    assert SameHeight(kept, n);
    assert Summarise(ix, n) == Tail(ix, kept, n, Categories, true);
  }

  /**
   * Once the participating columns read as numbers, summarising fails
   * exactly when one of the five categories has no points possible.
   */
  lemma SummariseNoPoints(ix: Indexed, n: nat)
    requires SameHeight(ix.cols, n) && forall k :: 0 <= k < |ix.cols| ==> CspLabel(ix.cols[k].name)
    requires Totals(KeepParticipating(ix.cols, n / 2)).Ok?
    ensures SummedHeight(Totals(KeepParticipating(ix.cols, n / 2)).value, n)
    ensures Summarise(ix, n).Err? <==>
      AnyTurnFails(GroupByLabel(Totals(KeepParticipating(ix.cols, n / 2)).value, n), Categories, n, true)
  {
    var kept := KeepParticipating(ix.cols, n / 2);
    assert SameHeight(kept, n);
    TotalsHeight(kept, n);
    var sums := GroupByLabel(Totals(kept).value, n);
    assert Summarise(ix, n).Ok? <==> Tail(ix, kept, n, Categories, true).Ok?;
    assert Tail(ix, kept, n, Categories, true).Ok? <==> CategoryGrades(sums, Categories, n, true).Some?;
    NoPointsTurn(sums, n);
  }

  /** The CSP grades fail exactly when some category has no points possible in the summed columns. */
  lemma NoPointsTurn(sums: seq<Summed>, n: nat)
    requires SummedHeight(sums, n)
    ensures CategoryGrades(sums, Categories, n, true).None? <==> AnyTurnFails(sums, Categories, n, true)
  {
    CategoriesSeparate();
    SeparateGrades(sums, Categories, n, true);
  }

  /** Every CSP category grade is that category's grade over the summed columns. */
  lemma AggregateGrades(cols: seq<Column>, n: nat)
    requires SameHeight(cols, n) && Aggregate(cols, n).Ok?
    ensures forall k :: 0 <= k < |Categories| ==>
      GradeColumn(Aggregate(cols, n).value.sums, Categories[k], n) == Some(Aggregate(cols, n).value.grades[k])
  {
    var a := Aggregate(cols, n).value;
    CategoriesSeparate();
    SeparateGrades(a.sums, Categories, n, true);
  }

  /** The sums carry the kept columns' labels, each once and in order. */
  lemma TailLabels(ix: Indexed, kept: seq<Column>, n: nat, a: AggregateSheet)
    requires SameHeight(kept, n) && Tail(ix, kept, n, Categories, true) == Ok(a)
    requires forall l :: l in SortedLabels(Names(kept)) ==> CspLabel(l)
    ensures SummedHeight(a.sums, n) && StrictlySorted(Labels(a.sums))
    ensures forall l :: l in Labels(a.sums) <==> l in SortedLabels(Names(kept))
    ensures forall k :: 0 <= k < |a.sums| ==> CspLabel(a.sums[k].name)
  {
    forall k | 0 <= k < |a.sums|
      ensures CspLabel(a.sums[k].name)
    {
      assert Labels(a.sums)[k] == a.sums[k].name;
    }
  }

  /** After the separator come the five category grades, in category order. */
  lemma TailGrades(ix: Indexed, kept: seq<Column>, n: nat, a: AggregateSheet)
    requires SameHeight(kept, n) && Tail(ix, kept, n, Categories, true) == Ok(a)
    ensures a.separated && |a.grades| == |Categories| && SummedHeight(a.grades, n)
    ensures forall k :: 0 <= k < |Categories| ==> a.grades[k].name == Categories[k] + " grade"
  {
    assert GradesFor(a.grades, Categories, n, true);
  }

  /** The kept columns have the table's height and CSP labels, and so do the labels they sum to. */
  lemma KeptLabels(cols: seq<Column>, kept: seq<Column>, n: nat)
    requires SameHeight(cols, n) && forall k :: 0 <= k < |cols| ==> CspLabel(cols[k].name)
    requires forall c :: c in kept <==> c in cols && NonMissing(c.cells) >= n / 2
    ensures SameHeight(kept, n)
    ensures forall l :: l in SortedLabels(Names(kept)) ==> CspLabel(l)
    ensures forall l :: l in SortedLabels(Names(kept)) <==> exists c :: c in cols && c.name == l && NonMissing(c.cells) >= n / 2
  {
    SubsetHeight(cols, kept, n);
    forall k | 0 <= k < |kept|
      ensures CspLabel(kept[k].name)
    {
      assert kept[k] in cols;
    }
    SortedNamesAll(kept, CspLabel);
    forall l
      ensures l in SortedLabels(Names(kept)) <==> exists c :: c in cols && c.name == l && NonMissing(c.cells) >= n / 2
    {
      SortedNamesIff(kept, l);
    }
  }
}

=== FILE: grades.dfy ===
/**
 * Percentage grades: `int(.49 + 100 * earned / possible)` evaluated exactly in
 * integers, and the per-category grade columns the STEM aggregators append
 * after their summed columns.  The divisor of every row is the category's
 * total in row 0, the points-possible row.
 */
module Grades {
  import opened Wrappers
  import opened Strings
  import opened Table

  function Abs(x: int): nat {
    if x < 0 then -x else x
  }

  /** Python's `int()` of the rational `a / b`: truncation toward zero. */
  function TruncDiv(a: int, b: int): (q: int)
    requires b != 0
    ensures a >= 0 && b > 0 ==> q == a / b
    ensures Abs(q) * Abs(b) <= Abs(a) < (Abs(q) + 1) * Abs(b)
  {
    var q := Abs(a) / Abs(b);
    DivBounds(Abs(a), Abs(b));
    var r := if (a < 0) == (b < 0) then q else -q;
    assert Abs(r) == q;
    r
  }

  /** Euclidean division brackets its dividend. */
  lemma DivBounds(a: nat, b: nat)
    requires b > 0
    ensures (a / b) * b <= a < (a / b + 1) * b
  {
    var q := a / b;
    assert a == b * q + a % b;
    assert (q + 1) * b == q * b + b;
  }

  /** The one `k` with k * den <= num < (k + 1) * den is num / den. */
  lemma DivUnique(num: nat, den: nat, k: nat)
    requires den > 0 && k * den <= num < (k + 1) * den
    ensures num / den == k
  {
    var q := num / den;
    DivBounds(num, den);
    if q < k {
      MulLeftMonotone(den, q + 1, k);
    } else if q > k {
      MulLeftMonotone(den, k + 1, q);
    }
  }

  lemma MulLeftMonotone(d: nat, a: int, b: int)
    requires a <= b
    ensures a * d <= b * d
  {
  }

  /**
   * `int(.49 + 100 * earned / possible)` as rationals: the quotient
   * (49 * possible + 10000 * earned) / (100 * possible) truncated toward zero.
   * A zero divisor gives NaN or infinity in the source, which `astype(int)`
   * refuses; that is `None` here.
   */
  function Grade(earned: int, possible: int): (g: Option<int>)
    ensures g.None? <==> possible == 0
    ensures possible > 0 && 0 <= earned <= possible ==> 0 <= g.value <= 100
    ensures possible > 0 && earned == possible ==> g.value == 100
    ensures possible > 0 && earned == 0 ==> g.value == 0
  {
    if possible == 0 then None
    else
      var num := 49 * possible + 10000 * earned;
      var den := 100 * possible;
      var q := TruncDiv(num, den);
      assert 0 <= earned <= possible ==> 0 <= q <= 100 && (earned == possible ==> q == 100) && (earned == 0 ==> q == 0) by {
        if 0 <= earned <= possible {
          GradeQuotient(earned, possible, num, den);
        }
      }
      Some(q)
  }

  lemma GradeQuotient(earned: nat, possible: nat, num: nat, den: nat)
    requires possible > 0 && earned <= possible
    requires num == 49 * possible + 10000 * earned && den == 100 * possible
    ensures 0 <= num / den <= 100
    ensures earned == possible ==> num / den == 100
    ensures earned == 0 ==> num / den == 0
  {
    GradeAtMost100(num, den, possible);
    if earned == possible {
      FullMarks(possible);
    }
    if earned == 0 {
      NoMarks(possible);
    }
  }

  lemma FullMarks(possible: nat)
    requires possible > 0
    ensures (49 * possible + 10000 * possible) / (100 * possible) == 100
  {
    DivUnique(49 * possible + 10000 * possible, 100 * possible, 100);
  }

  lemma NoMarks(possible: nat)
    requires possible > 0
    ensures (49 * possible + 10000 * 0) / (100 * possible) == 0
  {
    DivUnique(49 * possible + 10000 * 0, 100 * possible, 0);
  }

  lemma GradeAtMost100(num: nat, den: nat, possible: nat)
    requires den == 100 * possible && possible > 0 && num <= 10049 * possible
    ensures 0 <= num / den <= 100
  {
    var q := num / den;
    DivBounds(num, den);
    if q > 100 {
      MulLeftMonotone(den, 101, q);
    } else if q < 0 {
      MulLeftMonotone(den, q + 1, 0);
    }
  }

  /**
   * The grade is the round-half-up percentage, nudged toward the student:
   * `g` is the one integer with g <= 100 * earned / possible + 0.49 < g + 1.
   */
  lemma GradeBrackets(earned: nat, possible: int)
    requires possible > 0
    ensures var g := Grade(earned, possible).value;
      100 * possible * g <= 49 * possible + 10000 * earned < 100 * possible * (g + 1)
  {
    var g := Grade(earned, possible).value;
    var num := 49 * possible + 10000 * earned;
    var den := 100 * possible;
    assert g == num / den;
    assert den * g <= num < den * (g + 1);
    assert 100 * possible * g == den * g;
    assert 100 * possible * (g + 1) == den * (g + 1);
  }

  /** More points never give a lower grade. */
  lemma GradeMonotone(e1: int, e2: int, possible: int)
    requires possible > 0 && 0 <= e1 <= e2
    ensures Grade(e1, possible).value <= Grade(e2, possible).value
  {
    var den := 100 * possible;
    var n1 := 49 * possible + 10000 * e1;
    var n2 := 49 * possible + 10000 * e2;
    DivMonotone(n1, n2, den);
  }

  lemma DivMonotone(a: nat, b: nat, d: int)
    requires a <= b && d > 0
    ensures a / d <= b / d
  {
    if a / d > b / d {
      assert (b / d + 1) * d <= (a / d) * d by {
        MulLeftMonotone(d, b / d + 1, a / d);
      }
    }
  }

  /** The worked examples: 3 of 4 points is 75, none is 0, all is 100, 2 of 3 is 67. */
  lemma GradeExamples()
    ensures Grade(3, 4) == Some(75)
    ensures Grade(0, 4) == Some(0)
    ensures Grade(4, 4) == Some(100)
    ensures Grade(2, 3) == Some(67)
    ensures Grade(1, 200) == Some(0)
  {
  }

  // ---------------------------------------------------------------------------
  // Category grade columns
  // ---------------------------------------------------------------------------

  /** Row `r` summed over the columns whose name contains `cat` (`df[cols].sum(axis=1)`). */
  function CategoryTotal(cols: seq<Summed>, cat: string, r: nat): int
    requires forall j :: 0 <= j < |cols| ==> r < |cols[j].values|
  {
    if |cols| == 0 then 0
    else
      var last := cols[|cols| - 1];
      CategoryTotal(cols[..|cols| - 1], cat, r) + (if Contains(last.name, cat) then last.values[r] else 0)
  }

  function HasCategory(cols: seq<Summed>, cat: string): bool {
    exists j :: 0 <= j < |cols| && Contains(cols[j].name, cat)
  }

  /**
   * The `<cat> grade` column over the table `cols` of height `n`: each row's
   * category total as a grade against the row-0 total.  `None` when there is
   * no row 0 or the row-0 total is zero.
   */
  function GradeColumn(cols: seq<Summed>, cat: string, n: nat): (g: Option<Summed>)
    requires SummedHeight(cols, n)
    ensures g.None? <==> n == 0 || CategoryTotal(cols, cat, 0) == 0
    ensures g.Some? ==> g.value.name == cat + " grade" && |g.value.values| == n
    ensures g.Some? ==> g.value.values[0] == 100 || CategoryTotal(cols, cat, 0) < 0
    ensures g.Some? ==> forall r :: (0 <= r < n && 0 <= CategoryTotal(cols, cat, r) <= CategoryTotal(cols, cat, 0)
                                     ==> 0 <= g.value.values[r] <= 100)
    ensures g.Some? ==> forall r :: 0 <= r < n ==>
      g.value.values[r] == Grade(CategoryTotal(cols, cat, r), CategoryTotal(cols, cat, 0)).value
  {
    if n == 0 then None
    else
      var possible := CategoryTotal(cols, cat, 0);
      if possible == 0 then None
      else
        Some(Summed(cat + " grade",
          seq(n, r requires 0 <= r < n => Grade(CategoryTotal(cols, cat, r), possible).value)))
  }

  /**
   * The grade columns for the categories `cats`, in order.  Each category
   * looks at every column present when its turn comes, the grade columns
   * already appended included.  When `everyCategory` is false a category with
   * no column is skipped; otherwise it yields an all-zero total and fails.
   */
  function CategoryGrades(cols: seq<Summed>, cats: seq<string>, n: nat, everyCategory: bool): (gs: Option<seq<Summed>>)
    requires SummedHeight(cols, n)
    ensures gs.Some? ==> GradesFor(gs.value, cats, n, everyCategory)
    ensures gs.Some? ==> GradesBuilt(cols, gs.value, cats, n)
    ensures gs.Some? && everyCategory ==> forall k :: 0 <= k < |cats| ==>
      SummedHeight(cols + gs.value[..k], n) && GradeColumn(cols + gs.value[..k], cats[k], n) == Some(gs.value[k])
    decreases |cats|
  {
    if |cats| == 0 then Some([])
    else
      var init := cats[..|cats| - 1];
      var cat := cats[|cats| - 1];
      assert cats == init + [cat];
      match CategoryGrades(cols, init, n, everyCategory)
      case None => None
      case Some(prev) =>
        var table := cols + prev;
        if !everyCategory && !HasCategory(table, cat) then
          GradesSkip(prev, init, cat, n);
          BuiltWider(cols, prev, init, cat, n);
          Some(prev)
        else
          match GradeColumn(table, cat, n)
          case None => None
          case Some(g) =>
            GradesSnoc(prev, g, init, cat, n, everyCategory);
            EveryGradeSnoc(cols, prev, g, init, cat, n, everyCategory);
            BuiltWider(cols, prev, init, cat, n);
            BuiltAppend(cols, prev, g, cats, n);
            Some(prev + [g])
  }

  /**
   * `gs` can be the grade columns of `cats`: each of height `n`, at most one
   * per category, each named after one of them, and with `everyCategory`
   * exactly one per category in order.
   */
  predicate GradesFor(gs: seq<Summed>, cats: seq<string>, n: nat, everyCategory: bool) {
    SummedHeight(gs, n) && |gs| <= |cats| &&
    (everyCategory ==> |gs| == |cats| && forall k :: 0 <= k < |cats| ==> gs[k].name == cats[k] + " grade") &&
    forall k :: 0 <= k < |gs| ==> GradeOf(gs[k].name, cats)
  }

  /** A skipped category leaves the grade columns as they were. */
  lemma GradesSkip(prev: seq<Summed>, init: seq<string>, cat: string, n: nat)
    requires GradesFor(prev, init, n, false)
    ensures GradesFor(prev, init + [cat], n, false)
  {
    GradeOfPrefix(prev, init, cat);
  }

  /** A graded category appends its column after the earlier ones. */
  lemma GradesSnoc(prev: seq<Summed>, g: Summed, init: seq<string>, cat: string, n: nat, everyCategory: bool)
    requires GradesFor(prev, init, n, everyCategory)
    requires g.name == cat + " grade" && |g.values| == n
    ensures GradesFor(prev + [g], init + [cat], n, everyCategory)
  {
    GradeOfPrefix(prev, init, cat);
    var gs := prev + [g];
    var cats := init + [cat];
    assert forall k :: 0 <= k < |prev| ==> gs[k] == prev[k];
    assert forall k :: 0 <= k < |init| ==> cats[k] == init[k];
    assert gs[|prev|] == g;
  }

  /**
   * Each of `gs` is the grade column of one of `cats` over `cols` and the
   * grade columns before it.
   */
  predicate GradesBuilt(cols: seq<Summed>, gs: seq<Summed>, cats: seq<string>, n: nat) {
    forall j :: 0 <= j < |gs| ==>
      SummedHeight(cols + gs[..j], n) &&
      exists k :: 0 <= k < |cats| && GradeColumn(cols + gs[..j], cats[k], n) == Some(gs[j])
  }

  /** More categories keep built grade columns built. */
  lemma BuiltWider(cols: seq<Summed>, gs: seq<Summed>, init: seq<string>, cat: string, n: nat)
    requires GradesBuilt(cols, gs, init, n)
    ensures GradesBuilt(cols, gs, init + [cat], n)
  {
    var cats := init + [cat];
    forall j | 0 <= j < |gs|
      ensures SummedHeight(cols + gs[..j], n) &&
        exists k :: 0 <= k < |cats| && GradeColumn(cols + gs[..j], cats[k], n) == Some(gs[j])
    {
      var k :| 0 <= k < |init| && GradeColumn(cols + gs[..j], init[k], n) == Some(gs[j]);
      assert cats[k] == init[k];
    }
  }

  /** A graded column over the table before it extends the built grade columns. */
  lemma BuiltAppend(cols: seq<Summed>, prev: seq<Summed>, g: Summed, cats: seq<string>, n: nat)
    requires GradesBuilt(cols, prev, cats, n) && |cats| > 0
    requires SummedHeight(cols + prev, n) && GradeColumn(cols + prev, cats[|cats| - 1], n) == Some(g)
    ensures GradesBuilt(cols, prev + [g], cats, n)
  {
    var gs := prev + [g];
    forall j | 0 <= j < |gs|
      ensures SummedHeight(cols + gs[..j], n) &&
        exists k :: 0 <= k < |cats| && GradeColumn(cols + gs[..j], cats[k], n) == Some(gs[j])
    {
      if j < |prev| {
        assert gs[..j] == prev[..j] && gs[j] == prev[j];
      } else {
        assert gs[..j] == prev;
      }
    }
  }

  /** With every category graded, each grade column is its category's column over the table before it. */
  lemma EveryGradeSnoc(cols: seq<Summed>, prev: seq<Summed>, g: Summed, init: seq<string>, cat: string, n: nat, everyCategory: bool)
    requires SummedHeight(cols, n) && SummedHeight(prev, n)
    requires everyCategory ==> |prev| == |init| && forall k :: 0 <= k < |init| ==>
      SummedHeight(cols + prev[..k], n) && GradeColumn(cols + prev[..k], init[k], n) == Some(prev[k])
    requires GradeColumn(cols + prev, cat, n) == Some(g)
    ensures everyCategory ==> forall k :: 0 <= k < |init| + 1 ==>
      SummedHeight(cols + (prev + [g])[..k], n) &&
      GradeColumn(cols + (prev + [g])[..k], (init + [cat])[k], n) == Some((prev + [g])[k])
  {
    if everyCategory {
      var gs := prev + [g];
      forall k | 0 <= k < |init| + 1
        ensures SummedHeight(cols + gs[..k], n) && GradeColumn(cols + gs[..k], (init + [cat])[k], n) == Some(gs[k])
      {
        if k < |init| {
          assert gs[..k] == prev[..k] && gs[k] == prev[k] && (init + [cat])[k] == init[k];
        } else {
          assert gs[..k] == prev;
        }
      }
    }
  }

  /** `name` is the grade column of one of `cats`. */
  predicate GradeOf(name: string, cats: seq<string>) {
    exists i :: 0 <= i < |cats| && name == cats[i] + " grade"
  }

  lemma GradeOfPrefix(prev: seq<Summed>, init: seq<string>, cat: string)
    requires forall k :: 0 <= k < |prev| ==> GradeOf(prev[k].name, init)
    ensures forall k :: 0 <= k < |prev| ==> GradeOf(prev[k].name, init + [cat])
    ensures GradeOf(cat + " grade", init + [cat])
  {
    forall k | 0 <= k < |prev|
      ensures GradeOf(prev[k].name, init + [cat])
    {
      var i :| 0 <= i < |init| && prev[k].name == init[i] + " grade";
      assert (init + [cat])[i] == init[i];
    }
    assert (init + [cat])[|init|] == cat;
  }


  /** `gs` holds the grade column of `cat`. */
  predicate HasGrade(gs: seq<Summed>, cat: string) {
    exists k :: 0 <= k < |gs| && gs[k].name == cat + " grade"
  }

  /** Distinct categories, and no grade column names a category that comes later. */
  predicate SeparateCategories(cats: seq<string>) {
    forall i, j :: 0 <= i < j < |cats| ==> cats[i] != cats[j] && !Contains(cats[i] + " grade", cats[j])
  }

  /** When categories without columns are skipped and no column mentions any of them, there are no grade columns. */
  lemma {:induction false} NoCategoryNoGrades(cols: seq<Summed>, cats: seq<string>, n: nat)
    requires SummedHeight(cols, n)
    requires forall k :: 0 <= k < |cats| ==> !HasCategory(cols, cats[k])
    ensures CategoryGrades(cols, cats, n, false) == Some([])
    decreases |cats|
  {
    if |cats| > 0 {
      var init := cats[..|cats| - 1];
      assert forall k :: 0 <= k < |init| ==> init[k] == cats[k];
      NoCategoryNoGrades(cols, init, n);
      assert cols + [] == cols;
    }
  }

  /** A category's turn fails: it is graded but has no row 0 or a zero row-0 total. */
  predicate TurnFails(cols: seq<Summed>, cat: string, n: nat, everyCategory: bool)
    requires SummedHeight(cols, n)
  {
    (everyCategory || HasCategory(cols, cat)) && (n == 0 || CategoryTotal(cols, cat, 0) == 0)
  }

  predicate AnyTurnFails(cols: seq<Summed>, cats: seq<string>, n: nat, everyCategory: bool)
    requires SummedHeight(cols, n)
  {
    exists k :: 0 <= k < |cats| && TurnFails(cols, cats[k], n, everyCategory)
  }

  /**
   * With separate categories the earlier grade columns never count towards a
   * later category, so the grades are those of the summed columns alone: the
   * run fails exactly when a graded category has a zero points-possible
   * total, and every grade column is its category's grade over `cols`.
   */
  lemma {:induction false} SeparateGrades(cols: seq<Summed>, cats: seq<string>, n: nat, everyCategory: bool)
    requires SummedHeight(cols, n) && SeparateCategories(cats)
    ensures CategoryGrades(cols, cats, n, everyCategory).None? <==> AnyTurnFails(cols, cats, n, everyCategory)
    ensures CategoryGrades(cols, cats, n, everyCategory).Some? ==>
      GradedAlone(cols, CategoryGrades(cols, cats, n, everyCategory).value, cats, n, everyCategory)
    decreases |cats|
  {
    if |cats| > 0 {
      var init := cats[..|cats| - 1];
      var cat := cats[|cats| - 1];
      SeparatePrefix(cats);
      SeparateGrades(cols, init, n, everyCategory);
      AnyTurnFailsSnoc(cols, cats, n, everyCategory);
      GradesStep(cols, cats, n, everyCategory);
      match CategoryGrades(cols, init, n, everyCategory)
      case None =>
      case Some(prev) =>
        assert cats == init + [cat];
        assert GradesFor(prev, init, n, false);
        OthersNotGraded(prev, init, cat, n);
        HasCategoryAppend(cols, prev, cat);
        assert !HasCategory(prev, cat);
        GradeColumnAppend(cols, prev, cat, n);
        if CategoryGrades(cols, cats, n, everyCategory).Some? {
          GradedAloneSnoc(cols, prev, CategoryGrades(cols, cats, n, everyCategory).value, init, cat, n, everyCategory);
        }
    }
  }

  /**
   * Each of `gs` is the grade column over `cols` alone of a graded category,
   * and with `everyCategory` the k-th is that of the k-th category.
   */
  predicate GradedAlone(cols: seq<Summed>, gs: seq<Summed>, cats: seq<string>, n: nat, everyCategory: bool)
    requires SummedHeight(cols, n)
  {
    EachGraded(cols, gs, cats, n, everyCategory) &&
    (everyCategory ==> |gs| == |cats| && forall k :: 0 <= k < |cats| ==> GradeColumn(cols, cats[k], n) == Some(gs[k]))
  }

  /**
   * Each of `gs` is the grade column over `cols` of some category of `cats`
   * that is graded: one `cols` mention, or any with `everyCategory`.
   */
  predicate EachGraded(cols: seq<Summed>, gs: seq<Summed>, cats: seq<string>, n: nat, everyCategory: bool)
    requires SummedHeight(cols, n)
  {
    forall g :: g in gs ==>
      exists k :: 0 <= k < |cats| && (everyCategory || HasCategory(cols, cats[k])) && GradeColumn(cols, cats[k], n) == Some(g)
  }

  /** How the last category's turn extends the earlier grade columns. */
  lemma GradesStep(cols: seq<Summed>, cats: seq<string>, n: nat, everyCategory: bool)
    requires SummedHeight(cols, n) && |cats| > 0
    ensures CategoryGrades(cols, cats[..|cats| - 1], n, everyCategory).None? ==> CategoryGrades(cols, cats, n, everyCategory).None?
    ensures CategoryGrades(cols, cats[..|cats| - 1], n, everyCategory).Some? ==>
      var prev := CategoryGrades(cols, cats[..|cats| - 1], n, everyCategory).value;
      var cat := cats[|cats| - 1];
      SummedHeight(cols + prev, n) &&
      CategoryGrades(cols, cats, n, everyCategory) ==
        if !everyCategory && !HasCategory(cols + prev, cat) then Some(prev)
        else if GradeColumn(cols + prev, cat, n).None? then None
        else Some(prev + [GradeColumn(cols + prev, cat, n).value])
  {
  }

  lemma GradedAloneSnoc(cols: seq<Summed>, prev: seq<Summed>, gs: seq<Summed>, init: seq<string>, cat: string, n: nat, everyCategory: bool)
    requires SummedHeight(cols, n) && GradedAlone(cols, prev, init, n, everyCategory)
    requires (!everyCategory && !HasCategory(cols, cat) && gs == prev) ||
             (GradeColumn(cols, cat, n).Some? && gs == prev + [GradeColumn(cols, cat, n).value] &&
              (everyCategory || HasCategory(cols, cat)))
    ensures GradedAlone(cols, gs, init + [cat], n, everyCategory)
  {
    EachAloneSnoc(cols, prev, gs, init, cat, init + [cat], n, everyCategory);
    if everyCategory {
      EveryAloneSnoc(cols, prev, gs, init, cat, init + [cat], n);
    }
  }

  /** The first half of `GradedAloneSnoc`: each grade column still has its category. */
  lemma EachAloneSnoc(cols: seq<Summed>, prev: seq<Summed>, gs: seq<Summed>, init: seq<string>, cat: string, cats: seq<string>, n: nat, everyCategory: bool)
    requires SummedHeight(cols, n) && EachGraded(cols, prev, init, n, everyCategory) && cats == init + [cat]
    requires (!everyCategory && !HasCategory(cols, cat) && gs == prev) ||
             (GradeColumn(cols, cat, n).Some? && gs == prev + [GradeColumn(cols, cat, n).value] &&
              (everyCategory || HasCategory(cols, cat)))
    ensures EachGraded(cols, gs, cats, n, everyCategory)
  {
    assert cats[|init|] == cat;
    forall g | g in gs
      ensures exists k :: 0 <= k < |cats| && (everyCategory || HasCategory(cols, cats[k])) && GradeColumn(cols, cats[k], n) == Some(g)
    {
      if g in prev {
        var k :| 0 <= k < |init| && (everyCategory || HasCategory(cols, init[k])) && GradeColumn(cols, init[k], n) == Some(g);
        assert cats[k] == init[k];
      } else {
        assert g == GradeColumn(cols, cat, n).value;
        assert (everyCategory || HasCategory(cols, cats[|init|])) && GradeColumn(cols, cats[|init|], n) == Some(g);
      }
    }
  }

  /** The second half of `GradedAloneSnoc`: with every category, the k-th column is the k-th category's. */
  lemma EveryAloneSnoc(cols: seq<Summed>, prev: seq<Summed>, gs: seq<Summed>, init: seq<string>, cat: string, cats: seq<string>, n: nat)
    requires SummedHeight(cols, n) && GradedAlone(cols, prev, init, n, true) && cats == init + [cat]
    requires GradeColumn(cols, cat, n).Some? && gs == prev + [GradeColumn(cols, cat, n).value]
    ensures |gs| == |cats|
    ensures forall k :: 0 <= k < |cats| ==> GradeColumn(cols, cats[k], n) == Some(gs[k])
  {
    forall k | 0 <= k < |cats|
      ensures GradeColumn(cols, cats[k], n) == Some(gs[k])
    {
      if k < |init| {
        assert gs[k] == prev[k] && cats[k] == init[k];
      }
    }
  }

  lemma AnyTurnFailsSnoc(cols: seq<Summed>, cats: seq<string>, n: nat, everyCategory: bool)
    requires SummedHeight(cols, n) && |cats| > 0
    ensures AnyTurnFails(cols, cats, n, everyCategory) <==>
      AnyTurnFails(cols, cats[..|cats| - 1], n, everyCategory) || TurnFails(cols, cats[|cats| - 1], n, everyCategory)
  {
    var init := cats[..|cats| - 1];
    if AnyTurnFails(cols, init, n, everyCategory) {
      var k :| 0 <= k < |init| && TurnFails(cols, init[k], n, everyCategory);
      assert cats[k] == init[k];
    }
    if AnyTurnFails(cols, cats, n, everyCategory) {
      var k :| 0 <= k < |cats| && TurnFails(cols, cats[k], n, everyCategory);
      if k < |init| {
        assert init[k] == cats[k];
      }
    }
  }

  /** Columns that do not mention `cat` leave its totals, and so its grade column, unchanged. */
  lemma GradeColumnAppend(cols: seq<Summed>, more: seq<Summed>, cat: string, n: nat)
    requires SummedHeight(cols, n) && SummedHeight(more, n)
    requires forall j :: 0 <= j < |more| ==> !Contains(more[j].name, cat)
    ensures SummedHeight(cols + more, n)
    ensures GradeColumn(cols + more, cat, n) == GradeColumn(cols, cat, n)
  {
    forall r | 0 <= r < n
      ensures CategoryTotal(cols + more, cat, r) == CategoryTotal(cols, cat, r)
    {
      CategoryTotalAppend(cols, more, cat, r);
    }
    if GradeColumn(cols, cat, n).Some? {
      var a := GradeColumn(cols + more, cat, n).value.values;
      var b := GradeColumn(cols, cat, n).value.values;
      assert a == b;
    }
  }

  lemma {:induction false} CategoryTotalAppend(cols: seq<Summed>, more: seq<Summed>, cat: string, r: nat)
    requires forall j :: 0 <= j < |cols| ==> r < |cols[j].values|
    requires forall j :: 0 <= j < |more| ==> r < |more[j].values| && !Contains(more[j].name, cat)
    ensures CategoryTotal(cols + more, cat, r) == CategoryTotal(cols, cat, r)
    decreases |more|
  {
    if |more| == 0 {
      assert cols + more == cols;
    } else {
      var init := more[..|more| - 1];
      assert (cols + more)[..|cols + more| - 1] == cols + init;
      CategoryTotalAppend(cols, init, cat, r);
    }
  }

  /**
   * When categories without columns are skipped, a category gets a grade
   * column exactly when one of the summed columns mentions it.
   */
  lemma {:induction false} GradeIffCategoryPresent(cols: seq<Summed>, cats: seq<string>, n: nat, k: nat)
    requires SummedHeight(cols, n) && CategoryGrades(cols, cats, n, false).Some?
    requires SeparateCategories(cats) && k < |cats|
    ensures HasGrade(CategoryGrades(cols, cats, n, false).value, cats[k]) <==> HasCategory(cols, cats[k])
    decreases |cats|
  {
    var init := cats[..|cats| - 1];
    var cat := cats[|cats| - 1];
    GradesLast(cols, cats, n);
    var prev := CategoryGrades(cols, init, n, false).value;
    assert cats == init + [cat];
    OthersNotGraded(prev, init, cat, n);
    PresenceStep(cols, prev, CategoryGrades(cols, cats, n, false).value, cat, cats[k]);
    if k < |init| {
      SeparatePrefix(cats);
      GradeIffCategoryPresent(cols, init, n, k);
      assert init[k] == cats[k];
    }
  }

  /**
   * One category's turn: its own grade column appears exactly when a
   * summed column mentions it, and other categories' grade columns are
   * those present before.
   */
  lemma PresenceStep(cols: seq<Summed>, prev: seq<Summed>, gs: seq<Summed>, cat: string, c: string)
    requires forall j :: 0 <= j < |prev| ==> !Contains(prev[j].name, cat) && prev[j].name != cat + " grade"
    requires !HasCategory(cols + prev, cat) ==> gs == prev
    requires HasCategory(cols + prev, cat) ==> |gs| == |prev| + 1 && gs[..|prev|] == prev && gs[|prev|].name == cat + " grade"
    ensures c == cat ==> (HasGrade(gs, c) <==> HasCategory(cols, c))
    ensures c != cat ==> (HasGrade(gs, c) <==> HasGrade(prev, c))
  {
    HasCategoryAppend(cols, prev, cat);
    if HasCategory(cols + prev, cat) {
      assert gs == prev + [gs[|prev|]];
      HasGradeSnoc(prev, gs[|prev|], c);
      if c != cat && gs[|prev|].name == c + " grade" {
        SuffixCancel(c, cat, " grade");
      }
    }
  }

  lemma SeparatePrefix(cats: seq<string>)
    requires SeparateCategories(cats) && |cats| > 0
    ensures SeparateCategories(cats[..|cats| - 1])
  {
    var init := cats[..|cats| - 1];
    forall i, j | 0 <= i < j < |init|
      ensures init[i] != init[j] && !Contains(init[i] + " grade", init[j])
    {
      assert init[i] == cats[i] && init[j] == cats[j];
    }
  }

  /** The last category either leaves the earlier grade columns alone or appends its own. */
  lemma GradesLast(cols: seq<Summed>, cats: seq<string>, n: nat)
    requires SummedHeight(cols, n) && |cats| > 0 && CategoryGrades(cols, cats, n, false).Some?
    ensures CategoryGrades(cols, cats[..|cats| - 1], n, false).Some?
    ensures var prev := CategoryGrades(cols, cats[..|cats| - 1], n, false).value;
      var gs := CategoryGrades(cols, cats, n, false).value;
      var cat := cats[|cats| - 1];
      (!HasCategory(cols + prev, cat) ==> gs == prev) &&
      (HasCategory(cols + prev, cat) ==> |gs| == |prev| + 1 && gs[..|prev|] == prev && gs[|prev|].name == cat + " grade")
  {
  }

  /** The grade columns of earlier categories neither mention nor name a later one. */
  lemma OthersNotGraded(prev: seq<Summed>, init: seq<string>, cat: string, n: nat)
    requires GradesFor(prev, init, n, false) && SeparateCategories(init + [cat])
    ensures forall j :: 0 <= j < |prev| ==> !Contains(prev[j].name, cat) && prev[j].name != cat + " grade"
  {
    var cats := init + [cat];
    forall j | 0 <= j < |prev|
      ensures !Contains(prev[j].name, cat) && prev[j].name != cat + " grade"
    {
      var i :| 0 <= i < |init| && prev[j].name == init[i] + " grade";
      assert cats[i] == init[i] && cats[|init|] == cat;
      if prev[j].name == cat + " grade" {
        SuffixCancel(init[i], cat, " grade");
      }
    }
  }

  lemma SuffixCancel(a: string, b: string, s: string)
    requires a + s == b + s
    ensures a == b
  {
    assert |a| == |b|;
    assert a == (a + s)[..|a|];
    assert b == (b + s)[..|b|];
  }

  lemma HasCategoryAppend(cols: seq<Summed>, more: seq<Summed>, cat: string)
    ensures HasCategory(cols + more, cat) <==> HasCategory(cols, cat) || HasCategory(more, cat)
  {
    var all := cols + more;
    if HasCategory(all, cat) {
      var j :| 0 <= j < |all| && Contains(all[j].name, cat);
      if j >= |cols| {
        assert more[j - |cols|] == all[j];
      }
    }
    if HasCategory(cols, cat) {
      var j :| 0 <= j < |cols| && Contains(cols[j].name, cat);
      assert all[j] == cols[j];
    }
    if HasCategory(more, cat) {
      var j :| 0 <= j < |more| && Contains(more[j].name, cat);
      assert all[|cols| + j] == more[j];
    }
  }

  lemma HasGradeSnoc(gs: seq<Summed>, g: Summed, cat: string)
    ensures HasGrade(gs + [g], cat) <==> HasGrade(gs, cat) || g.name == cat + " grade"
  {
    var all := gs + [g];
    if HasGrade(all, cat) {
      var k :| 0 <= k < |all| && all[k].name == cat + " grade";
      if k < |gs| {
        assert gs[k] == all[k];
      }
    }
    if HasGrade(gs, cat) {
      var k :| 0 <= k < |gs| && gs[k].name == cat + " grade";
      assert all[k] == gs[k];
    }
    assert all[|gs|] == g;
  }
}

=== FILE: pipeline.dfy ===
/**
 * How the aggregators meet the Synergy import.  Every label an aggregator
 * produces names an import type, the import reads exactly the summed
 * columns of an aggregate, and the "drop me" column the CSA aggregator
 * leaves in its sums makes the import refuse the whole sheet.
 */
module Pipeline {
  import opened Wrappers
  import opened Strings
  import opened Table
  import opened Roster
  import opened Synergy
  import Tsk
  import Csp
  import Csa

  // ---------------------------------------------------------------------------
  // Labels and import types
  // ---------------------------------------------------------------------------

  /** A label "<word> <w>", with only blanks in front, is typed by `w`. */
  lemma TypedByTail(course: string, pre: string, u: string, w: string)
    requires AllSpace(pre) && NoSpace(u) && |w| > 0 && !IsSpace(w[0])
    requires u == [] ==> NoSpace(w)
    ensures !AllSpace(pre + u + " " + w)
    ensures AssignmentType(course, pre + u + " " + w) == TypeOfWord(w)
  {
    if |u| > 0 {
      AfterFirstWordOfLabel(pre, u, w);
    } else {
      assert pre + u + " " + w == (pre + " ") + w;
      AfterFirstWordOfSingleWord(pre + " ", w);
    }
  }

  /** A lesson, a space and a word: the lesson's first character is the only one that may be blank. */
  lemma LessonTyped(course: string, lesson: string, w: string)
    requires lesson == [] || NoSpace(lesson[1..])
    requires |w| > 0 && NoSpace(w)
    ensures !AllSpace(lesson + " " + w)
    ensures AssignmentType(course, lesson + " " + w) == TypeOfWord(w)
  {
    var e: string := "";
    if lesson == [] {
      TypedByTail(course, e, e, w);
      assert e + e == lesson;
    } else if IsSpace(lesson[0]) {
      BlankUnitTyped(course, lesson, w);
    } else {
      NoSpaceCons(lesson);
      TypedByTail(course, e, lesson, w);
      assert e + lesson == lesson;
    }
  }

  /** A lesson with a blank unit character reads as blanks before a word. */
  lemma BlankUnitTyped(course: string, lesson: string, w: string)
    requires |lesson| > 0 && IsSpace(lesson[0]) && NoSpace(lesson[1..])
    requires |w| > 0 && NoSpace(w)
    ensures !AllSpace(lesson + " " + w)
    ensures AssignmentType(course, lesson + " " + w) == TypeOfWord(w)
  {
    var pre := lesson[..1];
    assert AllSpace(pre) by {
      assert pre[0] == lesson[0];
    }
    TypedByTail(course, pre, lesson[1..], w);
    assert pre + lesson[1..] == lesson;
  }

  lemma NoSpaceCons(s: string)
    requires |s| > 0 && !IsSpace(s[0]) && NoSpace(s[1..])
    ensures NoSpace(s)
  {
    forall i | 0 <= i < |s|
      ensures !IsSpace(s[i])
    {
      if i > 0 {
        assert s[1..][i - 1] == s[i];
      }
    }
  }

  /** The three TSK kind words are single words with an import type. */
  lemma KindWordTyped(w: string)
    requires w in ["Assignment", "Quiz", "Exam"]
    ensures |w| > 0 && NoSpace(w) && TypeOfWord(w).Some?
  {
  }

  /** Every TSK label is imported under the type of its kind word. */
  lemma TskLabelTyped(course: string, l: string)
    requires Tsk.GoodLabel(l)
    ensures !AllSpace(l)
    ensures AssignmentType(course, l) == TypeOfWord(Tsk.KindWord(l))
    ensures AssignmentType(course, l).Some?
  {
    var w := Tsk.KindWord(l);
    var lesson := Tsk.LessonOf(l);
    KindWordTyped(w);
    Tsk.GoodLabelParts(l);
    LessonTyped(course, lesson, w);
  }

  /** Every CSP label is imported under the type of its category. */
  lemma CspLabelTyped(course: string, l: string)
    requires Csp.CspLabel(l)
    ensures !AllSpace(l)
    ensures AssignmentType(course, l) == TypeOfWord(if l == "Performance" then l else l[2..])
    ensures AssignmentType(course, l).Some?
  {
    var e: string := "";
    if l == "Performance" {
      AfterFirstWordOfSingleWord(e, l);
      assert e + l == l;
    } else {
      assert l == e + l[..1] + " " + l[2..];
      CategoryTyped(l[2..]);
      TypedByTail(course, e, l[..1], l[2..]);
    }
  }

  /** The four unit-numbered CSP categories have an import type. */
  lemma CategoryTyped(c: string)
    requires c in Csp.Categories[..4]
    ensures |c| > 0 && !IsSpace(c[0]) && TypeOfWord(c).Some?
  {
  }

  /** Every CSA label other than "drop me" is imported under the type of its category. */
  lemma CsaLabelTyped(course: string, l: string)
    requires Csa.CsaLabel(l) && l != Csa.DropMe
    ensures !AllSpace(l)
    ensures AssignmentType(course, l) == TypeOfWord(l[LeadingDigits(l) + 1..])
    ensures AssignmentType(course, l).Some?
  {
    var e: string := "";
    var k := LeadingDigits(l);
    assert l[..k] + [l[k]] + l[k + 1..] == l;
    assert e + l[..k] == l[..k];
    TypedByTail(course, e, l[..k], l[k + 1..]);
  }

  /** A word followed by a word of fewer than four letters names no import type. */
  lemma ShortTailUntyped(course: string, u: string, w: string)
    requires |u| > 0 && NoSpace(u) && 0 < |w| < 4 && !IsSpace(w[0])
    ensures !AllSpace(u + " " + w)
    ensures AssignmentType(course, u + " " + w) == None
  {
    var e: string := "";
    assert e + u == u;
    TypedByTail(course, e, u, w);
    ShortWordUntyped(w);
  }

  lemma ShortWordUntyped(w: string)
    requires |w| < 4
    ensures TypeOfWord(w) == None
  {
  }

  /** "drop me" names no import type. */
  lemma DropMeUntyped(course: string)
    ensures !AllSpace(Csa.DropMe)
    ensures AssignmentType(course, Csa.DropMe) == None
  {
    var d := Csa.DropMe;
    assert d == d[..4] + " " + d[5..];
    ShortTailUntyped(course, d[..4], d[5..]);
  }

  // ---------------------------------------------------------------------------
  // The aggregate as the import reads it
  // ---------------------------------------------------------------------------

  /** One cell per row in every column. */
  predicate Shaped(a: AggregateSheet) {
    |a.section| == |a.student| && SummedHeight(a.sums, |a.student|) && SummedHeight(a.grades, |a.student|)
  }

  /** The header `to_csv` writes: the index, the sums, then the blank separator and the grades. */
  function Header(a: AggregateSheet): (h: seq<string>)
    ensures |h| == 2 + |a.sums| + (if a.separated then 1 + |a.grades| else 0)
    ensures h[0] == "Student" && h[1] == "Section"
    ensures forall j :: 2 <= j < 2 + |a.sums| ==> h[j] == a.sums[j - 2].name
    ensures a.separated ==> AllSpace(h[2 + |a.sums|])
  {
    var tail := if a.separated then ["  "] + Labels(a.grades) else [];
    var h := ["Student", "Section"] + Labels(a.sums) + tail;
    assert a.separated ==> h[2 + |a.sums|] == "  ";
    h
  }

  /** Row `r` of a block of summed columns, as numbers. */
  function CellsAt(cols: seq<Summed>, r: nat): (row: seq<Cell>)
    requires forall k :: 0 <= k < |cols| ==> r < |cols[k].values|
    ensures |row| == |cols|
    ensures forall k :: 0 <= k < |cols| ==> row[k] == Num(cols[k].values[r])
  {
    seq(|cols|, k requires 0 <= k < |cols| => Num(cols[k].values[r]))
  }

  /** Some cell of the column is written as non-empty text. */
  predicate HoldsText(column: seq<Cell>) {
    exists k :: 0 <= k < |column| && column[k].Text? && column[k].s != ""
  }

  /**
   * Cell `r` of a written column as `read_csv` parses it: an empty field is
   * missing, and a column with any text in it is read as text throughout, so
   * its numbers come back as the digits they were written as.
   */
  function ReadBack(column: seq<Cell>, r: nat): (c: Cell)
    requires r < |column|
    ensures c == Missing <==> column[r] == Missing || column[r] == Text("")
    ensures c != Missing ==> CellString(c) == CellString(column[r])
    ensures c.Num? <==> column[r].Num? && !HoldsText(column)
  {
    match column[r]
    case Missing => Missing
    case Text(t) => if t == "" then Missing else column[r]
    case Num(v) => if HoldsText(column) then Text(IntToString(v)) else column[r]
  }

  /** Row `r` as it is read back; the separator's cells are empty. */
  function Row(a: AggregateSheet, r: nat): (row: seq<Cell>)
    requires Shaped(a) && r < |a.student|
    ensures |row| == |Header(a)|
    ensures row[0] == ReadBack(a.student, r) && row[1] == ReadBack(a.section, r)
    ensures forall j :: 2 <= j < 2 + |a.sums| ==> row[j] == Num(a.sums[j - 2].values[r])
  {
    var tail := if a.separated then [Missing] + CellsAt(a.grades, r) else [];
    var sums := CellsAt(a.sums, r);
    var row := [ReadBack(a.student, r), ReadBack(a.section, r)] + sums + tail;
    assert forall j :: 2 <= j < 2 + |sums| ==> row[j] == sums[j - 2];
    row
  }

  /** The aggregate written with `to_csv` and read back with `read_csv`. */
  function ToSheet(a: AggregateSheet): (s: Sheet)
    requires Shaped(a)
    ensures Rectangular(s) && |s.rows| == |a.student| && s.header == Header(a)
    ensures forall r :: 0 <= r < |s.rows| ==> s.rows[r] == Row(a, r)
  {
    Sheet(Header(a), seq(|a.student|, r requires 0 <= r < |a.student| => Row(a, r)))
  }

  /**
   * A Student column that opens with text is read back as text: a number in
   * it, such as a blank name filled with 0, comes back as its digits and is
   * looked up like any other name.  Only an empty name reads back as missing
   * and stops the import.
   */
  lemma TextKeys(a: AggregateSheet, roster: map<string, Student>, r: nat)
    requires Shaped(a) && r < |a.student|
    requires a.student[0].Text? && a.student[0].s != ""
    ensures RowKind(roster, ToSheet(a), r).Crash? <==> a.student[r] == Missing || a.student[r] == Text("")
    ensures a.student[r] == Num(0) ==>
      ToSheet(a).rows[r][0] == Text("0") && (RowKind(roster, ToSheet(a), r).Unlisted? <==> "0" !in roster)
  {
    assert HoldsText(a.student);
    var s := ToSheet(a);
    assert FindName(s.header, "Student") == Some(0);
    assert s.rows[r][0] == ReadBack(a.student, r);
    assert IntToString(0) == "0";
  }

  /**
   * The Student column of a TSK aggregate opens with "Max score" and holds
   * no missing cell after `fillna(0)`, so its keys are read back as text.
   */
  lemma TskKeysReadAsText(sheet: seq<seq<Cell>>, roster: map<string, Student>, r: nat)
    requires forall j :: 0 <= j < |sheet| ==> |sheet[j]| == |sheet[0]|
    requires Tsk.Aggregate(sheet).Ok?
    requires r < |Tsk.Aggregate(sheet).value.student|
    ensures Shaped(Tsk.Aggregate(sheet).value)
    ensures var a := Tsk.Aggregate(sheet).value;
      RowKind(roster, ToSheet(a), r).Crash? <==> a.student[r] == Text("")
    ensures var a := Tsk.Aggregate(sheet).value;
      a.student[r] == Num(0) ==>
        ToSheet(a).rows[r][0] == Text("0") && (RowKind(roster, ToSheet(a), r).Unlisted? <==> "0" !in roster)
  {
    var a := Tsk.Aggregate(sheet).value;
    assert a.student[r] != Missing by {
      if r > 0 {
        assert a.student[r] == Tsk.Clean(Tsk.NameOf(sheet[0][r + 4], sheet[1][r + 4]));
      }
    }
    TextKeys(a, roster, r);
  }

  lemma {:induction false} StopAt(header: seq<string>, c: nat, stop: nat)
    requires c <= stop <= |header|
    requires forall j :: c <= j < stop ==> !AllSpace(header[j])
    requires stop == |header| || AllSpace(header[stop])
    ensures StopFrom(header, c) == stop
    decreases stop - c
  {
    if c < stop {
      StopAt(header, c + 1, stop);
    }
  }

  /**
   * The import reads exactly the summed columns: their labels are never
   * blank, and the separator or the end of the sheet comes right after them.
   */
  lemma ImportReadsSums(a: AggregateSheet)
    requires Shaped(a) && forall k :: 0 <= k < |a.sums| ==> !AllSpace(a.sums[k].name)
    ensures ColumnStop(ToSheet(a).header) == 2 + |a.sums|
  {
    var h := Header(a);
    forall j | 2 <= j < 2 + |a.sums|
      ensures !AllSpace(h[j])
    {
      assert h[j] == a.sums[j - 2].name;
    }
    StopAt(h, 2, 2 + |a.sums|);
  }

  /** Every column the import reads from a TSK aggregate has an import type. */
  lemma TskImportTyped(sheet: seq<seq<Cell>>, course: string, c: nat)
    requires forall j :: 0 <= j < |sheet| ==> |sheet[j]| == |sheet[0]|
    requires Tsk.Aggregate(sheet).Ok?
    ensures Shaped(Tsk.Aggregate(sheet).value)
    ensures var s := ToSheet(Tsk.Aggregate(sheet).value);
      2 <= c < ColumnStop(s.header) ==> !AllSpace(s.header[c]) && AssignmentType(course, s.header[c]).Some?
  {
    var a := Tsk.Aggregate(sheet).value;
    forall k | 0 <= k < |a.sums|
      ensures !AllSpace(a.sums[k].name)
    {
      TskLabelTyped(course, a.sums[k].name);
    }
    ImportReadsSums(a);
    if 2 <= c < 2 + |a.sums| {
      TskLabelTyped(course, a.sums[c - 2].name);
    }
  }

  /** Every column the import reads from a CSP aggregate has an import type. */
  lemma CspImportTyped(cols: seq<Column>, n: nat, course: string, c: nat)
    requires SameHeight(cols, n) && Csp.Aggregate(cols, n).Ok?
    ensures Shaped(Csp.Aggregate(cols, n).value)
    ensures var s := ToSheet(Csp.Aggregate(cols, n).value);
      2 <= c < ColumnStop(s.header) ==> !AllSpace(s.header[c]) && AssignmentType(course, s.header[c]).Some?
  {
    var a := Csp.Aggregate(cols, n).value;
    forall k | 0 <= k < |a.sums|
      ensures !AllSpace(a.sums[k].name)
    {
      CspLabelTyped(course, a.sums[k].name);
    }
    ImportReadsSums(a);
    if 2 <= c < 2 + |a.sums| {
      CspLabelTyped(course, a.sums[c - 2].name);
    }
  }

  /** Every column the import reads from a CSA aggregate, "drop me" removed, has an import type. */
  lemma CsaImportTyped(cols: seq<Column>, n: nat, course: string, c: nat)
    requires SameHeight(cols, n) && Csa.Aggregate(cols, n).Ok?
    ensures Shaped(Csa.Aggregate(cols, n).value)
    ensures var s := ToSheet(Csa.Aggregate(cols, n).value);
      2 <= c < ColumnStop(s.header) ==> !AllSpace(s.header[c]) && AssignmentType(course, s.header[c]).Some?
  {
    var a := Csa.Aggregate(cols, n).value;
    forall k | 0 <= k < |a.sums|
      ensures !AllSpace(a.sums[k].name)
    {
      CsaLabelTyped(course, a.sums[k].name);
    }
    ImportReadsSums(a);
    if 2 <= c < 2 + |a.sums| {
      CsaLabelTyped(course, a.sums[c - 2].name);
    }
  }

  /** The import of a CSA aggregate reads exactly its summed columns. */
  lemma CsaReadsSums(a: AggregateSheet)
    requires Shaped(a) && forall k :: 0 <= k < |a.sums| ==> Csa.CsaLabel(a.sums[k].name)
    ensures ColumnStop(ToSheet(a).header) == 2 + |a.sums|
  {
    forall j | 0 <= j < |a.sums|
      ensures !AllSpace(a.sums[j].name)
    {
      if a.sums[j].name == Csa.DropMe {
        DropMeUntyped("");
      } else {
        CsaLabelTyped("", a.sums[j].name);
      }
    }
    ImportReadsSums(a);
  }

  /** A "drop me" column's cell has no import type, so the import refuses it. */
  lemma DropMeCellAborts(a: AggregateSheet, due: map<string, string>, st: Student, r: nat, k: nat)
    requires Shaped(a) && 1 <= r < |a.student| && k < |a.sums| && a.sums[k].name == Csa.DropMe
    ensures !AllSpace(ToSheet(a).header[2 + k]) && CellStep(due, ToSheet(a), st, r, 2 + k).Abort?
  {
    var s := ToSheet(a);
    assert s.header[2 + k] == Csa.DropMe;
    DropMeUntyped(st.course);
  }

  /**
   * A sheet of CSA labels that still holds a "drop me" column cannot be
   * imported once it has a listed student: that student's "drop me" cell
   * has no import type, which refuses the whole sheet.
   */
  lemma DropMeRefused(a: AggregateSheet, roster: Option<map<string, Student>>, due: map<string, string>, r: nat)
    requires Shaped(a) && forall k :: 0 <= k < |a.sums| ==> Csa.CsaLabel(a.sums[k].name)
    requires Csa.DropMe in Labels(a.sums)
    requires roster.Some? && 1 <= r < |a.student|
    requires RowKind(roster.value, ToSheet(a), r).Listed?
    ensures AggToSynergySpec(roster, due, ToSheet(a)).None?
  {
    var s := ToSheet(a);
    var k :| 0 <= k < |a.sums| && a.sums[k].name == Csa.DropMe;
    CsaReadsSums(a);
    DropMeCellAborts(a, due, RowKind(roster.value, s, r).student, r, k);
    BadCellRefused(roster, due, s, r, 2 + k);
  }

  /** The CSA aggregate as written is refused by the import whenever a "drop me" column survives. */
  lemma AsWrittenImportRefused(cols: seq<Column>, n: nat, roster: Option<map<string, Student>>,
                               due: map<string, string>, r: nat)
    requires SameHeight(cols, n) && Csa.AggregateAsWritten(cols, n).Ok?
    requires Csa.DropMe in Labels(Csa.AggregateAsWritten(cols, n).value.sums)
    requires roster.Some? && 1 <= r < n
    requires RowKind(roster.value, ToSheet(Csa.AggregateAsWritten(cols, n).value), r).Listed?
    ensures AggToSynergySpec(roster, due, ToSheet(Csa.AggregateAsWritten(cols, n).value)).None?
  {
    DropMeRefused(Csa.AggregateAsWritten(cols, n).value, roster, due, r);
  }
}

=== FILE: roster.dfy ===
/**
 * The roster side of the Synergy import: a `student` record parsed from one
 * roster row (names split at the first comma, an alias that defaults to
 * "Last, First"), its one-line description, the alias-keyed roster
 * dictionary, and the mapping from an aggregate column label to a Synergy
 * assignment type.
 */
module Roster {
  import opened Wrappers
  import opened Strings
  import opened Table

  /** One roster entry.  `period` and `course` are kept as the text they print as. */
  datatype Student = Student(
    period: string,
    course: string,
    id: string,
    lastName: string,
    firstName: string,
    alias: string)

  /** `student_name.split(",")[0]`. */
  function LastName(name: string): (last: string)
    ensures StartsWith(name, last)
    ensures forall i :: 0 <= i < |last| ==> last[i] != ','
    ensures |last| < |name| ==> name[|last|] == ','
  {
    BeforeChar(name, ',')
  }

  /**
   * `student_name.replace(last + ",", "")`, then three characters off the end
   * when the result ends in ".", then stripped.
   */
  function FirstName(name: string, last: string): (first: string)
    ensures first == [] || (!IsSpace(first[0]) && !IsSpace(first[|first| - 1]))
  {
    var f := ReplaceAll(name, last + ",", "");
    var g := if EndsWith(f, ".") then f[..if |f| >= 3 then |f| - 3 else 0] else f;
    Strip(g)
  }

  function DefaultAlias(last: string, first: string): string {
    last + ", " + first
  }

  /** `student(period, course, student_name, sis, alias)`. */
  function MakeStudent(period: string, course: string, name: string, sis: Cell, alias: Cell): (s: Student)
    ensures s.period == period && s.course == course
    ensures s.id == CellString(sis)
    ensures StartsWith(name, s.lastName) && forall i :: 0 <= i < |s.lastName| ==> s.lastName[i] != ','
    ensures |s.lastName| < |name| ==> name[|s.lastName|] == ','
    ensures alias.Text? && alias.s != "" ==> s.alias == alias.s
    ensures !(alias.Text? && alias.s != "") ==> s.alias == DefaultAlias(s.lastName, s.firstName)
  {
    var last := LastName(name);
    var first := FirstName(name, last);
    var a := if alias.Text? && alias.s != "" then alias.s else DefaultAlias(last, first);
    Student(period, course, CellString(sis), last, first, a)
  }

  /** A numeric SIS number becomes an id of digits that reads back as the number. */
  lemma StudentIdRoundTrip(period: string, course: string, name: string, sis: nat, alias: Cell)
    ensures IsDigits(MakeStudent(period, course, name, Num(sis), alias).id)
    ensures ParseNat(MakeStudent(period, course, name, Num(sis), alias).id) == sis
  {
    ParseNatToString(sis);
  }

  /**
   * For an ordinary "Last, First" name the first name is what follows the
   * first comma, stripped, with three characters dropped from a trailing ".".
   */
  lemma FirstNameOfPlainName(last: string, rest: string)
    requires forall i :: 0 <= i < |last| ==> last[i] != ','
    requires !Contains(rest, last + ",")
    ensures var s := MakeStudent("", "", last + "," + rest, Missing, Missing);
      s.lastName == last &&
      s.firstName == Strip(if EndsWith(rest, ".") then rest[..if |rest| >= 3 then |rest| - 3 else 0] else rest)
  {
    var name := last + "," + rest;
    var pat := last + ",";
    BeforeCharOfPrefix(last, "," + rest, ',');
    assert name == last + ("," + rest);
    assert MatchAt(name, pat, 0);
    assert IndexOf(name, pat) == Some(0);
    assert name[|pat|..] == rest;
    assert ReplaceAll(name, pat, "") == rest;
  }

  /** `student.__str__`. */
  function Show(s: Student): (text: string)
    ensures StartsWith(text, s.id + ": " + DefaultAlias(s.lastName, s.firstName))
    ensures EndsWith(text, "\tP" + s.period + " " + s.course)
    ensures s.alias == DefaultAlias(s.lastName, s.firstName) ==>
      text == s.id + ": " + DefaultAlias(s.lastName, s.firstName) + ("\tP" + s.period + " " + s.course)
    ensures s.alias != DefaultAlias(s.lastName, s.firstName) ==>
      text == s.id + ": " + DefaultAlias(s.lastName, s.firstName) + " (" + s.alias + ")" + ("\tP" + s.period + " " + s.course)
  {
    var head := s.id + ": " + DefaultAlias(s.lastName, s.firstName);
    var aka := if s.alias != DefaultAlias(s.lastName, s.firstName) then " (" + s.alias + ")" else "";
    var tail := "\tP" + s.period + " " + s.course;
    Affixes(head, aka, tail);
    head + aka + tail
  }

  /** Without an alias of its own, a student prints as "id: Last, First" with no parenthesis. */
  lemma ShowWithoutAlias(period: string, course: string, name: string, sis: Cell, alias: Cell)
    requires !(alias.Text? && alias.s != "")
    ensures var s := MakeStudent(period, course, name, sis, alias);
      Show(s) == (s.id + ": " + s.alias) + ("\tP" + period + " " + course)
  {
    var s := MakeStudent(period, course, name, sis, alias);
    var e: string := "";
    assert (s.id + ": " + s.alias) + e == s.id + ": " + s.alias;
  }

  /** A printed student always mentions the alias it is filed under. */
  lemma ShowMentionsAlias(s: Student)
    ensures Contains(Show(s), s.alias)
  {
    var head := s.id + ": " + DefaultAlias(s.lastName, s.firstName);
    var text := Show(s);
    if s.alias == DefaultAlias(s.lastName, s.firstName) {
      assert MatchAt(text, s.alias, |s.id + ": "|) by {
        assert text[..|head|] == head;
        assert head[|s.id + ": "|..] == s.alias;
      }
      ContainsAt(text, s.alias, |s.id + ": "|);
    } else {
      var aka := " (" + s.alias + ")";
      var tail := "\tP" + s.period + " " + s.course;
      assert text == head + aka + tail;
      assert MatchAt(text, s.alias, |head| + 2) by {
        assert text[|head| + 2..|head| + 2 + |s.alias|] == s.alias;
      }
      ContainsAt(text, s.alias, |head| + 2);
    }
  }

  // ---------------------------------------------------------------------------
  // The roster dictionary
  // ---------------------------------------------------------------------------

  /** One row of the roster file, by column. */
  datatype RosterRow = RosterRow(period: string, course: string, name: string, sis: Cell, alias: Cell)

  const RequiredColumns: seq<string> := ["Period", "Course Title", "Student Name", "Sis Number"]

  predicate HasRequiredColumns(columns: seq<string>) {
    forall c :: c in RequiredColumns ==> c in columns
  }

  function Entry(row: RosterRow, hasAlias: bool): Student {
    MakeStudent(row.period, row.course, row.name, row.sis, if hasAlias then row.alias else Missing)
  }

  function Entries(rows: seq<RosterRow>, hasAlias: bool): (es: seq<Student>)
    ensures |es| == |rows|
    ensures forall i :: 0 <= i < |rows| ==> es[i] == Entry(rows[i], hasAlias)
  {
    seq(|rows|, i requires 0 <= i < |rows| => Entry(rows[i], hasAlias))
  }

  /** Each entry stored under its alias; a later entry replaces an earlier one. */
  function IndexByAlias(entries: seq<Student>): (d: map<string, Student>)
    ensures forall a :: a in d ==> d[a].alias == a
    ensures forall a :: a in d <==> exists i :: 0 <= i < |entries| && entries[i].alias == a
  {
    if |entries| == 0 then map[]
    else
      var init := entries[..|entries| - 1];
      var last := entries[|entries| - 1];
      assert forall i :: 0 <= i < |init| ==> init[i] == entries[i];
      IndexByAlias(init)[last.alias := last]
  }

  /** The entry kept for an alias is the last one carrying it. */
  lemma {:induction false} IndexByAliasLastWins(entries: seq<Student>, i: nat)
    requires i < |entries|
    requires forall j :: i < j < |entries| ==> entries[j].alias != entries[i].alias
    ensures IndexByAlias(entries)[entries[i].alias] == entries[i]
  {
    if i < |entries| - 1 {
      var init := entries[..|entries| - 1];
      IndexByAliasLastWins(init, i);
    }
  }

  /**
   * `get_roster_dict`: `None` when a required column is missing; otherwise
   * every row's student under its alias, the "Alias" column used only when
   * the file has one.
   */
  function RosterDict(columns: seq<string>, rows: seq<RosterRow>): (d: Option<map<string, Student>>)
    ensures d.None? <==> !HasRequiredColumns(columns)
    ensures d.Some? ==> forall i :: 0 <= i < |rows| ==> Entry(rows[i], "Alias" in columns).alias in d.value
    ensures d.Some? ==> forall a :: a in d.value ==>
      d.value[a].alias == a && exists i :: 0 <= i < |rows| && d.value[a] == Entry(rows[i], "Alias" in columns)
  {
    if !HasRequiredColumns(columns) then None
    else
      var hasAlias := "Alias" in columns;
      var entries := Entries(rows, hasAlias);
      var d := IndexByAlias(entries);
      assert forall i :: 0 <= i < |rows| ==> entries[i].alias in d;
      IndexByAliasFromEntries(entries);
      Some(d)
  }

  /** Every student in the dictionary is one of the entries. */
  lemma {:induction false} IndexByAliasFromEntries(entries: seq<Student>)
    ensures forall a :: a in IndexByAlias(entries) ==>
      exists i :: 0 <= i < |entries| && IndexByAlias(entries)[a] == entries[i]
  {
    if |entries| > 0 {
      var init := entries[..|entries| - 1];
      IndexByAliasFromEntries(init);
      forall a | a in IndexByAlias(entries)
        ensures exists i :: 0 <= i < |entries| && IndexByAlias(entries)[a] == entries[i]
      {
        if a != entries[|entries| - 1].alias {
          var i :| 0 <= i < |init| && IndexByAlias(init)[a] == init[i];
          assert IndexByAlias(entries)[a] == entries[i];
        } else {
          assert IndexByAlias(entries)[a] == entries[|entries| - 1];
        }
      }
    }
  }

  /**
   * When several roster rows carry the same alias, the dictionary keeps the
   * student of the last of them.
   */
  lemma RosterDictLastWins(columns: seq<string>, rows: seq<RosterRow>, i: nat)
    requires HasRequiredColumns(columns) && i < |rows|
    requires forall j :: i < j < |rows| ==>
      Entry(rows[j], "Alias" in columns).alias != Entry(rows[i], "Alias" in columns).alias
    ensures RosterDict(columns, rows).Some?
    ensures RosterDict(columns, rows).value[Entry(rows[i], "Alias" in columns).alias] == Entry(rows[i], "Alias" in columns)
  {
    IndexByAliasLastWins(Entries(rows, "Alias" in columns), i);
  }

  // ---------------------------------------------------------------------------
  // Assignment types
  // ---------------------------------------------------------------------------

  const ImportTypes: seq<string> :=
    ["Assignment", "Formative Assessment", "Summative Assessment", "Projects", "Performance task"]

  /** The Synergy assignment type of a label whose text after its first word is `w`. */
  function TypeOfWord(w: string): (t: Option<string>)
    ensures t.Some? ==> t.value in ImportTypes
    ensures t.None? <==> (w !in
      ["Assignment", "Exercises", "Quiz", "Quizzes", "Quiz and assignment", "Exam", "Project", "Performance"])
  {
    if w in ["Assignment", "Exercises"] then Some("Assignment")
    else if w in ["Quiz", "Quizzes", "Quiz and assignment"] then Some("Formative Assessment")
    else if w == "Exam" then Some("Summative Assessment")
    else if w == "Project" then Some("Projects")
    else if w == "Performance" then Some("Performance task")
    else None
  }

  /**
   * `get_assignment_type(course, assignment)`: the Synergy type named by the
   * text after the first word (the course is not consulted).  The source
   * indexes the split result, so it needs a label that is not blank.
   */
  function AssignmentType(course: string, assignment: string): (t: Option<string>)
    requires !AllSpace(assignment)
    ensures t.Some? ==> t.value in ImportTypes
    ensures t.None? <==> (AfterFirstWord(assignment) !in
      ["Assignment", "Exercises", "Quiz", "Quizzes", "Quiz and assignment", "Exam", "Project", "Performance"])
  {
    TypeOfWord(AfterFirstWord(assignment))
  }

  /** After a non-blank first word and one space, the rest of a label is what is looked up. */
  lemma AfterFirstWordOfLabel(pre: string, u: string, w: string)
    requires AllSpace(pre) && |u| > 0 && NoSpace(u)
    requires |w| > 0 && !IsSpace(w[0])
    ensures !AllSpace(pre + u + " " + w)
    ensures AfterFirstWord(pre + u + " " + w) == w
  {
    var s := pre + u + " " + w;
    assert s[|pre|] == u[0];
    LStripPadded(pre, u + " " + w);
    assert s == pre + (u + " " + w);
    WordEndOfWord(u, " " + w, 0);
    assert u + " " + w == u + (" " + w);
    assert (u + " " + w)[|u|..] == [' '] + w;
    LStripPadded([' '], w);
  }

  /** A label that is one word after blanks is looked up as that word. */
  lemma AfterFirstWordOfSingleWord(pre: string, w: string)
    requires AllSpace(pre) && |w| > 0 && NoSpace(w)
    ensures !AllSpace(pre + w)
    ensures AfterFirstWord(pre + w) == w
  {
    assert (pre + w)[|pre|] == w[0];
    LStripPadded(pre, w);
    WordEndOfWord(w, [], 0);
    assert w + [] == w;
    assert w[|w|..] == [];
  }
}

=== FILE: stem.dfy ===
/**
 * The steps the two STEM aggregators share.  A STEM export arrives as named
 * columns of equal height whose row 0 is the points-possible row.  The ID
 * columns and the columns STEM computes itself are dropped, Student and
 * Section become the index, same-label columns are summed, and after a
 * blank separator one grade column per category is appended.
 */
module Stem {
  import opened Wrappers
  import opened Strings
  import opened Table
  import opened Grades

  /**
   * Why a STEM `aggregate` stops with an exception.  The classifier
   * failures belong to the CSP aggregator; `col` counts the relabelled
   * columns from 0.
   */
  datatype Failure =
    | MissingColumn(name: string)
    | NoRows
    | CategoryOverflow(col: nat)
    | BlankHeader(col: nat)
    | NotQuiz(col: nat)
    | NotExam(col: nat)
    | UnitTooLarge(col: nat)
    | NotNumeric(heading: string)
    | NoPoints

  /** The failures both STEM aggregators can meet. */
  predicate SharedFailure(e: Failure) {
    e.MissingColumn? || e.NoRows? || e.NotNumeric? || e.NoPoints?
  }

  const IdColumns: seq<string> := ["ID", "SIS User ID", "SIS Login ID"]

  // ---------------------------------------------------------------------------
  // Column drops and the index
  // ---------------------------------------------------------------------------

  /** The columns satisfying `keep`, in their order (`df.loc[:, mask]`). */
  function Where(cols: seq<Column>, keep: Column -> bool): (out: seq<Column>)
    ensures |out| <= |cols|
    ensures forall c :: c in out <==> c in cols && keep(c)
    ensures (forall c :: c in cols ==> !keep(c)) ==> out == []
  {
    if |cols| == 0 then []
    else
      var init := cols[..|cols| - 1];
      var last := cols[|cols| - 1];
      assert cols == init + [last];
      if keep(last) then Where(init, keep) + [last] else Where(init, keep)
  }

  predicate NamedIn(cols: seq<Column>, name: string) {
    exists c :: c in cols && c.name == name
  }

  /** The first of `names` no column carries (`df.drop` raises KeyError for it). */
  function FirstAbsent(cols: seq<Column>, names: seq<string>): (r: Option<string>)
    ensures r.None? <==> forall i :: 0 <= i < |names| ==> NamedIn(cols, names[i])
    ensures r.Some? ==> r.value in names && !NamedIn(cols, r.value)
  {
    if |names| == 0 then None
    else if !NamedIn(cols, names[0]) then Some(names[0])
    else
      var r := FirstAbsent(cols, names[1..]);
      assert forall i :: 1 <= i < |names| ==> names[1..][i - 1] == names[i];
      r
  }

  /** A column STEM fills itself ("(read only)") or one nobody scores ("0"). */
  predicate Unscored(c: Column) {
    |c.cells| > 0 && (c.cells[0] == Text("(read only)") || c.cells[0] == Text("0"))
  }

  /** A column that survives the drops and is not part of the index. */
  predicate Graded(c: Column) {
    c.name !in IdColumns && !Unscored(c) && c.name != "Student" && c.name != "Section"
  }

  /** The first column called `name`. */
  function Find(cols: seq<Column>, name: string): (r: Option<Column>)
    ensures r.Some? ==> r.value in cols && r.value.name == name
    ensures r.None? <==> !NamedIn(cols, name)
  {
    if |cols| == 0 then None
    else if cols[0].name == name then Some(cols[0])
    else
      assert forall c :: c in cols[1..] ==> c in cols;
      assert forall c :: c in cols && c != cols[0] ==> c in cols[1..];
      Find(cols[1..], name)
  }

  /** The export with its Student and Section columns taken out as the index. */
  datatype Indexed = Indexed(student: seq<Cell>, section: seq<Cell>, cols: seq<Column>)

  /** Lines 55 to 59 of either STEM aggregator: drops and `set_index`. */
  function Prelude(cols: seq<Column>, n: nat): (r: Result<Indexed, Failure>)
    requires SameHeight(cols, n)
    ensures r.Err? ==> r.error.MissingColumn? || r.error.NoRows?
    ensures FirstAbsent(cols, IdColumns).Some? ==> r == Err(MissingColumn(FirstAbsent(cols, IdColumns).value))
    ensures FirstAbsent(cols, IdColumns).None? ==> (r == Err(NoRows) <==> n == 0)
    ensures r.Ok? ==> n > 0 && |r.value.student| == n && |r.value.section| == n && SameHeight(r.value.cols, n)
    ensures r.Ok? ==> Column("Student", r.value.student) in cols && Column("Section", r.value.section) in cols
    ensures r.Ok? ==> forall c :: c in r.value.cols <==> c in cols && Graded(c)
    ensures FirstAbsent(cols, IdColumns).None? && n > 0 && !NamedIn(Where(cols, (c: Column) => !Unscored(c)), "Student") ==>
      r == Err(MissingColumn("Student"))
  {
    match FirstAbsent(cols, IdColumns)
    case Some(name) => Err(MissingColumn(name))
    case None =>
      if n == 0 then Err(NoRows)
      else
        var scored := Where(cols, (c: Column) => c.name !in IdColumns && !Unscored(c));
        PreludeIndex(cols, scored, n)
  }

  /** `set_index(["Student", "Section"])` on the columns left after the drops. */
  function PreludeIndex(cols: seq<Column>, scored: seq<Column>, n: nat): (r: Result<Indexed, Failure>)
    requires SameHeight(cols, n) && n > 0
    requires forall c :: c in scored <==> c in cols && c.name !in IdColumns && !Unscored(c)
    ensures r.Err? ==> r.error.MissingColumn?
    ensures r.Ok? ==> |r.value.student| == n && |r.value.section| == n && SameHeight(r.value.cols, n)
    ensures r.Ok? ==> Column("Student", r.value.student) in cols && Column("Section", r.value.section) in cols
    ensures r.Ok? ==> forall c :: c in r.value.cols <==> c in cols && Graded(c)
    ensures !NamedIn(Where(cols, (c: Column) => !Unscored(c)), "Student") ==> r == Err(MissingColumn("Student"))
  {
    match Find(scored, "Student")
    case None =>
      NoStudent(cols, scored);
      Err(MissingColumn("Student"))
    case Some(st) =>
      match Find(scored, "Section")
      case None => Err(MissingColumn("Section"))
      case Some(se) =>
        var rest := Where(scored, (c: Column) => c.name != "Student" && c.name != "Section");
        assert SameHeight(rest, n) by {
          forall k | 0 <= k < |rest| ensures |rest[k].cells| == n {
            assert rest[k] in rest;
          }
        }
        Ok(Indexed(st.cells, se.cells, rest))
  }

  lemma NoStudent(cols: seq<Column>, scored: seq<Column>)
    requires forall c :: c in scored <==> c in cols && c.name !in IdColumns && !Unscored(c)
    requires !NamedIn(scored, "Student")
    ensures !NamedIn(Where(cols, (c: Column) => !Unscored(c)), "Student")
  {
    var unscoredOut := Where(cols, (c: Column) => !Unscored(c));
    forall c | c in unscoredOut
      ensures c.name != "Student"
    {
      assert c in cols && !Unscored(c);
    }
  }

  /** The columns under new names (`df.columns = col_names`). */
  function Rename(cols: seq<Column>, labels: seq<string>): (out: seq<Column>)
    requires |labels| == |cols|
    ensures |out| == |cols| && forall k :: 0 <= k < |cols| ==> out[k] == Column(labels[k], cols[k].cells)
  {
    seq(|cols|, k requires 0 <= k < |cols| => Column(labels[k], cols[k].cells))
  }

  /** Columns taken from a table of height `n` have height `n`. */
  lemma SubsetHeight(cols: seq<Column>, sub: seq<Column>, n: nat)
    requires SameHeight(cols, n) && forall c :: c in sub ==> c in cols
    ensures SameHeight(sub, n)
  {
    forall k | 0 <= k < |sub|
      ensures |sub[k].cells| == n
    {
      assert sub[k] in sub;
    }
  }

  /** Columns taken from a table keep its height, whatever the height. */
  lemma SubsetHeights(cols: seq<Column>, sub: seq<Column>)
    requires forall c :: c in sub ==> c in cols
    ensures forall n: nat :: SameHeight(cols, n) ==> SameHeight(sub, n)
  {
    forall n: nat | SameHeight(cols, n)
      ensures SameHeight(sub, n)
    {
      SubsetHeight(cols, sub, n);
    }
  }

  /** The totals of a table of height `n` have height `n`. */
  lemma TotalsHeight(cols: seq<Column>, n: nat)
    requires SameHeight(cols, n) && Totals(cols).Ok?
    ensures SummedHeight(Totals(cols).value, n)
  {
    var totals := Totals(cols).value;
    forall k | 0 <= k < |totals|
      ensures |totals[k].values| == n
    {
      assert |cols[k].cells| == n;
    }
  }

  /** The labels `groupby` produces are the column names, so they share any property of those. */
  lemma SortedNamesAll(cols: seq<Column>, ok: string -> bool)
    requires forall k :: 0 <= k < |cols| ==> ok(cols[k].name)
    ensures forall l :: l in SortedLabels(Names(cols)) ==> ok(l)
  {
    forall l | l in SortedLabels(Names(cols))
      ensures ok(l)
    {
      var k :| 0 <= k < |cols| && Names(cols)[k] == l;
    }
  }

  /** A label `groupby` produces is the name of one of the columns, and each name is one. */
  lemma SortedNamesIff(cols: seq<Column>, l: string)
    ensures l in SortedLabels(Names(cols)) <==> exists c :: c in cols && c.name == l
  {
    if l in Names(cols) {
      var k :| 0 <= k < |cols| && Names(cols)[k] == l;
      assert cols[k] in cols;
    }
    if exists c :: c in cols && c.name == l {
      var c :| c in cols && c.name == l;
      var k :| 0 <= k < |cols| && cols[k] == c;
      assert Names(cols)[k] == l;
    }
  }

  // ---------------------------------------------------------------------------
  // Summing and grades
  // ---------------------------------------------------------------------------

  /** Every column as integers, the first text cell stopping the run. */
  function Totals(cols: seq<Column>): (r: Result<seq<Summed>, Failure>)
    ensures r.Err? ==> r.error.NotNumeric?
    ensures r.Ok? <==> forall k :: 0 <= k < |cols| ==> NumericValues(cols[k].cells).Some?
    ensures r.Ok? ==> |r.value| == |cols|
    ensures r.Ok? ==> forall k :: 0 <= k < |cols| ==>
      r.value[k] == Summed(cols[k].name, NumericValues(cols[k].cells).value)
    ensures r.Ok? ==> forall k :: 0 <= k < |cols| ==> |r.value[k].values| == |cols[k].cells|
  {
    if |cols| == 0 then Ok([])
    else
      var k := |cols| - 1;
      assert forall j :: 0 <= j < k ==> cols[..k][j] == cols[j];
      match Totals(cols[..k])
      case Err(e) => Err(e)
      case Ok(prev) =>
        match NumericValues(cols[k].cells)
        case None => Err(NotNumeric(cols[k].name))
        case Some(vs) => Ok(prev + [Summed(cols[k].name, vs)])
  }

  /**
   * Lines 115 to 126 of the CSP aggregator and 99 to 112 of the CSA one:
   * same-label columns summed (a missing cell counting 0), then the blank
   * separator and the grade columns of `cats`.
   */
  function Tail(ix: Indexed, cols: seq<Column>, n: nat, cats: seq<string>, everyCategory: bool): (r: Result<AggregateSheet, Failure>)
    requires SameHeight(cols, n)
    ensures r.Err? ==> r.error.NotNumeric? || r.error.NoPoints?
    ensures r.Ok? <==>
      (Totals(cols).Ok? && CategoryGrades(GroupByLabel(Totals(cols).value, n), cats, n, everyCategory).Some?)
    ensures r.Ok? ==> r.value.student == ix.student && r.value.section == ix.section && r.value.separated
    ensures r.Ok? ==> r.value.sums == GroupByLabel(Totals(cols).value, n)
    ensures r.Ok? ==> Labels(r.value.sums) == SortedLabels(Names(cols)) && SummedHeight(r.value.sums, n)
    ensures r.Ok? ==> r.value.grades == CategoryGrades(r.value.sums, cats, n, everyCategory).value
  {
    match Totals(cols)
    case Err(e) => Err(e)
    case Ok(totals) =>
      assert Labels(totals) == Names(cols);
      assert SummedHeight(totals, n) by {
        forall k | 0 <= k < |totals| ensures |totals[k].values| == n {
          assert |cols[k].cells| == n;
        }
      }
      var sums := GroupByLabel(totals, n);
      match CategoryGrades(sums, cats, n, everyCategory)
      case None => Err(NoPoints)
      case Some(grades) => Ok(AggregateSheet(ix.student, ix.section, sums, true, grades))
  }
}

=== FILE: strings.dfy ===
/**
 * The handful of Python `str` operations the grade scripts rely on, written
 * out over `seq<char>`: whitespace stripping and splitting, substring search
 * and replacement, digit runs, decimal conversion and the code-point order
 * Python uses to compare strings.  Whitespace and digits are the ASCII ones.
 */
module Strings {
  import opened Wrappers

  /** `str.isspace` on the ASCII range. */
  predicate IsSpace(c: char) {
    c == ' ' || c == '\t' || c == '\n' || c == '\r' || c == '\U{000B}' || c == '\U{000C}'
    || ('\U{001C}' <= c <= '\U{001F}')
  }

  predicate AllSpace(s: string) {
    forall i :: 0 <= i < |s| ==> IsSpace(s[i])
  }

  predicate NoSpace(s: string) {
    forall i :: 0 <= i < |s| ==> !IsSpace(s[i])
  }

  predicate IsDigit(c: char) {
    '0' <= c <= '9'
  }

  predicate AllDigits(s: string) {
    forall i :: 0 <= i < |s| ==> IsDigit(s[i])
  }

  /** `str.isdigit`: non-empty and made of digits only. */
  predicate IsDigits(s: string) {
    |s| > 0 && AllDigits(s)
  }

  predicate StartsWith(s: string, prefix: string) {
    |prefix| <= |s| && s[..|prefix|] == prefix
  }

  predicate EndsWith(s: string, suffix: string) {
    |suffix| <= |s| && s[|s| - |suffix|..] == suffix
  }

  /** A concatenation starts with its first part and ends with its last. */
  lemma Affixes(a: string, b: string, c: string)
    ensures StartsWith(a + b + c, a) && EndsWith(a + b + c, c)
  {
    var s := a + b + c;
    assert s[..|a|] == a;
    assert s[|s| - |c|..] == c;
  }

  lemma Assoc3(a: string, b: string, c: string)
    ensures a + b + c == a + (b + c)
  {
  }

  /** A concatenation ends with its second part, after its first. */
  lemma EndsWithAppend(a: string, b: string)
    ensures EndsWith(a + b, b) && (a + b)[..|a|] == a
  {
    assert (a + b)[|a + b| - |b|..] == b;
  }

  /** A text that ends with `suffix` is what comes before it followed by it. */
  lemma SplitSuffix(s: string, suffix: string)
    requires EndsWith(s, suffix)
    ensures s == s[..|s| - |suffix|] + suffix
  {
  }

  /** A text whose last character differs from a suffix's does not end with it. */
  lemma NotEndsWithLast(s: string, suffix: string)
    requires |s| > 0 && |suffix| > 0 && s[|s| - 1] != suffix[|suffix| - 1]
    ensures !EndsWith(s, suffix)
  {
    if |suffix| <= |s| {
      assert s[|s| - |suffix|..][|suffix| - 1] == s[|s| - 1];
    }
  }

  // ---------------------------------------------------------------------------
  // Substring search (`str.find`, `in`)
  // ---------------------------------------------------------------------------

  predicate MatchAt(s: string, t: string, i: nat) {
    i + |t| <= |s| && s[i..i + |t|] == t
  }

  /** The first position at or after `i` where `t` occurs in `s`. */
  function IndexFrom(s: string, t: string, i: nat): (r: Option<nat>)
    requires i <= |s|
    ensures r.Some? ==> i <= r.value && MatchAt(s, t, r.value)
    ensures r.Some? ==> forall j: nat :: i <= j < r.value ==> !MatchAt(s, t, j)
    ensures r.None? ==> forall j: nat :: i <= j ==> !MatchAt(s, t, j)
    decreases |s| - i
  {
    if MatchAt(s, t, i) then Some(i)
    else if i + |t| >= |s| then None
    else IndexFrom(s, t, i + 1)
  }

  /** `s.find(t)`, with `None` for Python's -1. */
  function IndexOf(s: string, t: string): (r: Option<nat>)
    ensures r.Some? ==> MatchAt(s, t, r.value) && forall j: nat :: j < r.value ==> !MatchAt(s, t, j)
    ensures r.None? <==> forall j: nat :: !MatchAt(s, t, j)
  {
    IndexFrom(s, t, 0)
  }

  /** `t in s`. */
  predicate Contains(s: string, t: string) {
    IndexOf(s, t).Some?
  }

  lemma ContainsAt(s: string, t: string, i: nat)
    requires MatchAt(s, t, i)
    ensures Contains(s, t)
  {
  }

  /** `t` occurs in `s` only where `s` holds `t`'s first character, so never past position 0 when that is the only one. */
  lemma NotContainsFirstChar(s: string, t: string)
    requires |t| > 0 && !MatchAt(s, t, 0)
    requires forall i :: 0 < i < |s| ==> s[i] != t[0]
    ensures !Contains(s, t)
  {
    forall j: nat | 0 < j
      ensures !MatchAt(s, t, j)
    {
      if j < |s| {
        assert s[j] != t[0];
      }
    }
  }

  /** No proper suffix of `pat` is also a prefix of it, so two occurrences never overlap. */
  predicate Unbordered(pat: string) {
    forall d :: 0 < d < |pat| ==> pat[d..] != pat[..|pat| - d]
  }

  /**
   * An unbordered pattern placed after a text that does not contain it is
   * found exactly there: no occurrence can start inside the text and run
   * into the pattern.
   */
  lemma FirstMatchAfter(p: string, pat: string, q: string)
    requires Unbordered(pat) && !Contains(p, pat)
    ensures IndexOf(p + pat + q, pat) == Some(|p|)
  {
    var s := p + pat + q;
    assert MatchAt(s, pat, |p|) by {
      assert s[|p|..|p| + |pat|] == pat;
    }
    forall j: nat | j < |p|
      ensures !MatchAt(s, pat, j)
    {
      if j + |pat| <= |p| {
        assert !MatchAt(p, pat, j);
        assert p[j..j + |pat|] == s[j..j + |pat|];
      } else {
        var d := |p| - j;
        var k :| 0 <= k < |pat| - d && pat[d..][k] != pat[..|pat| - d][k];
        assert s[j + d + k] == pat[k];
        assert s[j..j + |pat|][d + k] != pat[d + k];
      }
    }
  }

  /** A string containing a word that starts with a non-space character is not blank. */
  lemma ContainsNotBlank(s: string, t: string)
    requires Contains(s, t) && |t| > 0 && !IsSpace(t[0])
    ensures !AllSpace(s)
  {
    var i := IndexOf(s, t).value;
    assert s[i..i + |t|][0] == s[i];
  }

  lemma ContainsAppend(s: string, t: string, u: string)
    requires Contains(s, t)
    ensures Contains(s + u, t) && Contains(u + s, t)
  {
    var i := IndexOf(s, t).value;
    assert (s + u)[i..i + |t|] == s[i..i + |t|];
    ContainsAt(s + u, t, i);
    assert (u + s)[|u| + i..|u| + i + |t|] == s[i..i + |t|];
    ContainsAt(u + s, t, |u| + i);
  }

  /** `s.replace(pat, rep)`: every non-overlapping occurrence, left to right. */
  function ReplaceAll(s: string, pat: string, rep: string): (r: string)
    requires |pat| > 0
    ensures !Contains(s, pat) ==> r == s
    ensures rep == "" ==> |r| <= |s|
    decreases |s|
  {
    match IndexOf(s, pat)
    case None => s
    case Some(i) => s[..i] + rep + ReplaceAll(s[i + |pat|..], pat, rep)
  }

  // ---------------------------------------------------------------------------
  // Whitespace: strip, split
  // ---------------------------------------------------------------------------

  /** Number of leading whitespace characters. */
  function LeadingSpaces(s: string): (k: nat)
    ensures k <= |s|
    ensures AllSpace(s[..k])
    ensures k < |s| ==> !IsSpace(s[k])
  {
    if |s| == 0 || !IsSpace(s[0]) then 0
    else
      var k := 1 + LeadingSpaces(s[1..]);
      assert forall i :: 1 <= i < k ==> s[i] == s[1..][i - 1];
      k
  }

  /** Number of trailing whitespace characters. */
  function TrailingSpaces(s: string): (k: nat)
    ensures k <= |s|
    ensures AllSpace(s[|s| - k..])
    ensures k < |s| ==> !IsSpace(s[|s| - k - 1])
  {
    if |s| == 0 || !IsSpace(s[|s| - 1]) then 0
    else
      var k := 1 + TrailingSpaces(s[..|s| - 1]);
      assert forall i :: |s| - k <= i < |s| - 1 ==> s[i] == s[..|s| - 1][i];
      k
  }

  function LStrip(s: string): (r: string)
    ensures |r| <= |s| && s[|s| - |r|..] == r
    ensures r == [] || !IsSpace(r[0])
    ensures AllSpace(s[..|s| - |r|])
  {
    s[LeadingSpaces(s)..]
  }

  /** `s.strip()`. */
  function Strip(s: string): (r: string)
    ensures r == [] <==> AllSpace(s)
    ensures r != [] ==> !IsSpace(r[0]) && !IsSpace(r[|r| - 1])
  {
    var t := LStrip(s);
    var r := t[..|t| - TrailingSpaces(t)];
    if r == [] then
      assert AllSpace(t) by {
        assert t[|t| - TrailingSpaces(t)..] == t;
      }
      assert s == s[..|s| - |t|] + t;
      r
    else
      assert !AllSpace(s) by {
        assert s[|s| - |t|] == t[0];
      }
      r
  }

  /** Stripping leading whitespace from a non-blank string leaves it starting with a word. */
  lemma NonBlankStrip(s: string)
    requires !AllSpace(s)
    ensures |LStrip(s)| > 0 && WordEnd(LStrip(s), 0) > 0
  {
  }

  /** End of the run of non-space characters starting at `i`. */
  function WordEnd(s: string, i: nat): (j: nat)
    requires i <= |s|
    ensures i <= j <= |s|
    ensures NoSpace(s[i..j])
    ensures j < |s| ==> IsSpace(s[j])
    decreases |s| - i
  {
    if i == |s| || IsSpace(s[i]) then i
    else
      WordEnd(s, i + 1)
  }

  /** `s.split()[0]`: the first whitespace-separated word. */
  function FirstWord(s: string): (w: string)
    requires !AllSpace(s)
    ensures |w| > 0 && NoSpace(w)
    ensures Contains(s, w)
  {
    var t := LStrip(s);
    var w := t[..WordEnd(t, 0)];
    assert MatchAt(s, w, |s| - |t|) by {
      assert s[|s| - |t|..] == t;
    }
    ContainsAt(s, w, |s| - |t|);
    w
  }

  /**
   * `s.split(maxsplit=1)[-1]`: the remainder after the first word with its
   * leading whitespace removed (trailing whitespace kept), or the first word
   * itself when nothing but whitespace follows it.
   */
  function AfterFirstWord(s: string): (r: string)
    requires !AllSpace(s)
    ensures |r| > 0 && !IsSpace(r[0])
  {
    var t := LStrip(s);
    NonBlankStrip(s);
    var e := WordEnd(t, 0);
    var rest := LStrip(t[e..]);
    if rest == [] then t[..e] else rest
  }

  /** `s.split(sep)[0]` for a one-character separator. */
  function BeforeChar(s: string, sep: char): (r: string)
    ensures StartsWith(s, r)
    ensures forall i :: 0 <= i < |r| ==> r[i] != sep
    ensures |r| < |s| ==> s[|r|] == sep
  {
    if |s| == 0 || s[0] == sep then ""
    else
      var r := [s[0]] + BeforeChar(s[1..], sep);
      assert s[..|r|] == [s[0]] + s[1..][..|r| - 1];
      r
  }

  /** Leading whitespace in front of a word is exactly what `LStrip` removes. */
  lemma {:induction false} LStripPadded(pre: string, rest: string)
    requires AllSpace(pre)
    requires rest == [] || !IsSpace(rest[0])
    ensures LStrip(pre + rest) == rest
  {
    if pre != [] {
      assert (pre + rest)[1..] == pre[1..] + rest;
      LStripPadded(pre[1..], rest);
    }
  }

  /** A word ends where the first whitespace after it begins. */
  lemma {:induction false} WordEndOfWord(u: string, rest: string, i: nat)
    requires NoSpace(u) && i <= |u|
    requires rest == [] || IsSpace(rest[0])
    ensures WordEnd(u + rest, i) == |u|
    decreases |u| - i
  {
    if i < |u| {
      assert (u + rest)[i] == u[i];
      WordEndOfWord(u, rest, i + 1);
    }
  }

  /** `split(sep)[0]` of a separator-free prefix followed by the separator is that prefix. */
  lemma {:induction false} BeforeCharOfPrefix(a: string, rest: string, sep: char)
    requires forall i :: 0 <= i < |a| ==> a[i] != sep
    requires rest == [] || rest[0] == sep
    ensures BeforeChar(a + rest, sep) == a
  {
    if a != [] {
      assert (a + rest)[1..] == a[1..] + rest;
      BeforeCharOfPrefix(a[1..], rest, sep);
    }
  }

  // ---------------------------------------------------------------------------
  // Digits and decimal numbers
  // ---------------------------------------------------------------------------

  /** Length of the longest all-digit prefix (`re.match("\d+")`). */
  function LeadingDigits(s: string): (k: nat)
    ensures k <= |s|
    ensures AllDigits(s[..k])
    ensures k < |s| ==> !IsDigit(s[k])
  {
    if |s| == 0 || !IsDigit(s[0]) then 0
    else
      var k := 1 + LeadingDigits(s[1..]);
      assert forall i :: 1 <= i < k ==> s[i] == s[1..][i - 1];
      k
  }

  /** Number of leading characters that are not digits. */
  function LeadingNonDigits(s: string): (k: nat)
    ensures k <= |s|
    ensures forall i :: 0 <= i < k ==> !IsDigit(s[i])
    ensures k < |s| ==> IsDigit(s[k])
  {
    if |s| == 0 || IsDigit(s[0]) then 0
    else 1 + LeadingNonDigits(s[1..])
  }

  /** `re.findall("\d+", s)`: the maximal digit runs, left to right. */
  function DigitRuns(s: string): (runs: seq<string>)
    ensures forall k :: 0 <= k < |runs| ==> IsDigits(runs[k])
    ensures runs == [] <==> forall i :: 0 <= i < |s| ==> !IsDigit(s[i])
    decreases |s|
  {
    var i := LeadingNonDigits(s);
    if i == |s| then []
    else
      var j := i + LeadingDigits(s[i..]);
      assert s[i..j] == s[i..][..j - i];
      [s[i..j]] + DigitRuns(s[j..])
  }

  function DigitValue(c: char): nat
    requires IsDigit(c)
  {
    (c as int - '0' as int) as nat
  }

  function DigitChar(d: nat): (c: char)
    requires d < 10
    ensures IsDigit(c) && DigitValue(c) == d
  {
    ('0' as int + d) as char
  }

  /** `int(s)` for a string of decimal digits. */
  function ParseNat(s: string): nat
    requires AllDigits(s)
  {
    if |s| == 0 then 0
    else 10 * ParseNat(s[..|s| - 1]) + DigitValue(s[|s| - 1])
  }

  /** `str(n)` for a natural number. */
  function NatToString(n: nat): (s: string)
    ensures IsDigits(s)
    ensures |s| > 1 ==> s[0] != '0'
  {
    if n < 10 then [DigitChar(n)]
    else NatToString(n / 10) + [DigitChar(n % 10)]
  }

  /** Printing a number in decimal and reading it back gives the number. */
  lemma {:induction false} ParseNatToString(n: nat)
    ensures ParseNat(NatToString(n)) == n
  {
    if n >= 10 {
      var s := NatToString(n);
      assert s[..|s| - 1] == NatToString(n / 10);
      ParseNatToString(n / 10);
    }
  }

  /** Two numbers print the same only when they are equal. */
  lemma NatToStringInjective(m: nat, n: nat)
    requires NatToString(m) == NatToString(n)
    ensures m == n
  {
    ParseNatToString(m);
    ParseNatToString(n);
  }

  /** `str(i)` for an integer. */
  function IntToString(i: int): (s: string)
    ensures i >= 0 ==> IsDigits(s)
    ensures i < 0 ==> |s| > 0 && s[0] == '-'
  {
    if i < 0 then "-" + NatToString(-i) else NatToString(i)
  }

  // ---------------------------------------------------------------------------
  // Python's ordering of strings (by code point, a proper prefix first)
  // ---------------------------------------------------------------------------

  predicate LexLess(a: string, b: string)
    decreases |a|
  {
    |b| > 0 && (|a| == 0 || a[0] < b[0] || (a[0] == b[0] && LexLess(a[1..], b[1..])))
  }

  lemma {:induction false} LexLessIrreflexive(a: string)
    ensures !LexLess(a, a)
    decreases |a|
  {
    if |a| > 0 {
      LexLessIrreflexive(a[1..]);
    }
  }

  lemma {:induction false} LexLessTransitive(a: string, b: string, c: string)
    requires LexLess(a, b) && LexLess(b, c)
    ensures LexLess(a, c)
    decreases |a|
  {
    if |a| > 0 && a[0] == b[0] && b[0] == c[0] {
      LexLessTransitive(a[1..], b[1..], c[1..]);
    }
  }

  lemma {:induction false} LexLessTotal(a: string, b: string)
    ensures a == b || LexLess(a, b) || LexLess(b, a)
    decreases |a|
  {
    if |a| > 0 && |b| > 0 && a[0] == b[0] {
      LexLessTotal(a[1..], b[1..]);
      if a[1..] == b[1..] {
        assert a == [a[0]] + a[1..] && b == [b[0]] + b[1..];
      }
    }
  }
}

=== FILE: synergy.dfy ===
/**
 * `agg_to_synergy`: the aggregate sheet, joined with the roster, turned into
 * Synergy bulk-import rows — one per student per assignment column — and
 * grouped into one file per class period.
 *
 * The sheet is the aggregate as read back from CSV: a header and rows, row 0
 * holding the points possible and every later row one student.  The roster
 * and the due-date table are inputs: the interactive due-date prompt and all
 * file I/O are outside the model.
 */
module Synergy {
  import opened Wrappers
  import opened Strings
  import opened Table
  import opened Roster

  datatype Sheet = Sheet(header: seq<string>, rows: seq<seq<Cell>>)

  /** Every row has one cell per header entry, as in any data frame. */
  predicate Rectangular(sheet: Sheet) {
    forall r :: 0 <= r < |sheet.rows| ==> |sheet.rows[r]| == |sheet.header|
  }

  /** One line of the bulk import, in the column order Synergy expects. */
  datatype SynergyRow = SynergyRow(
    studentId: string,
    firstName: string,
    lastName: string,
    assignmentName: string,
    assignmentDescription: string,
    overallScore: string,
    points: Cell,
    assignmentType: string,
    assignmentDate: string)

  /** The rows destined for one period's import file. */
  datatype PeriodFile = PeriodFile(period: string, rows: seq<SynergyRow>)

  /** The course of the class (unset when no student was imported) and the per-period files. */
  datatype Import = Import(course: Option<string>, files: seq<PeriodFile>)

  /** Position of the first header entry equal to `name`. */
  function FindName(header: seq<string>, name: string): (c: Option<nat>)
    ensures c.None? <==> name !in header
    ensures c.Some? ==> c.value < |header| && header[c.value] == name
    ensures c.Some? ==> forall j :: 0 <= j < c.value ==> header[j] != name
  {
    if |header| == 0 then None
    else if header[0] == name then Some(0)
    else
      match FindName(header[1..], name)
      case None => None
      case Some(j) =>
        assert forall i :: 1 <= i <= j + 1 ==> header[i] == header[1..][i - 1];
        Some(j + 1)
  }

  /** First column at or after `c` whose name is blank, or the width of the sheet. */
  function StopFrom(header: seq<string>, c: nat): (stop: nat)
    ensures c <= stop
    ensures forall j :: c <= j < stop ==> j < |header| && !AllSpace(header[j])
    ensures stop < |header| ==> AllSpace(header[stop])
    ensures stop == c || stop <= |header|
    decreases |header| - c
  {
    if c >= |header| || AllSpace(header[c]) then c else StopFrom(header, c + 1)
  }

  /**
   * Assignment columns run from the third column up to the first one with a
   * blank name, the separator in front of the aggregates of aggregates.
   */
  function ColumnStop(header: seq<string>): (stop: nat)
    ensures 2 <= stop
    ensures forall j :: 2 <= j < stop ==> j < |header| && !AllSpace(header[j])
    ensures stop < |header| ==> AllSpace(header[stop])
  {
    StopFrom(header, 2)
  }

  /** What the student key of a row leads to. */
  datatype Kind = Crash | Unlisted | Audit | Listed(student: Student)

  /**
   * The row's "Student" cell looked up in the roster.  A sheet without that
   * column, or a key that is not text (the warning concatenates it to a
   * string), stops the conversion.
   */
  function RowKind(roster: map<string, Student>, sheet: Sheet, r: nat): Kind
    requires Rectangular(sheet) && r < |sheet.rows|
  {
    match FindName(sheet.header, "Student")
    case None => Crash
    case Some(sc) =>
      var key := sheet.rows[r][sc];
      if !key.Text? then Crash
      else if key.s !in roster then Unlisted
      else if roster[key.s].course == "Audit" then Audit
      else Listed(roster[key.s])
  }

  /** How a row's key decides its kind. */
  lemma RowKindLookup(roster: map<string, Student>, sheet: Sheet, r: nat)
    requires Rectangular(sheet) && r < |sheet.rows|
    ensures var k := RowKind(roster, sheet, r);
      (k.Crash? <==> ("Student" !in sheet.header ||
                      !sheet.rows[r][FindName(sheet.header, "Student").value].Text?)) &&
      (k.Listed? ==> k.student in roster.Values && k.student.course != "Audit") &&
      (!k.Crash? ==>
        var key := sheet.rows[r][FindName(sheet.header, "Student").value].s;
        (k.Unlisted? <==> key !in roster) &&
        (k.Audit? <==> key in roster && roster[key].course == "Audit") &&
        (k.Listed? ==> key in roster && roster[key] == k.student))
  {
  }

  /** What one cell of a listed student's row contributes. */
  datatype Step = Abort | Skip | Emit(out: SynergyRow)

  const SkipDates: seq<string> := ["S", "X"]

  /**
   * The checks on cell (r, c), in the order the source makes them: the
   * student's points, then the points possible in row 0, then the assignment
   * type, then the due date (a missing one is a lookup failure; "S" and "X"
   * skip the assignment).
   */
  function CellStep(due: map<string, string>, sheet: Sheet, st: Student, r: nat, c: nat): Step
    requires Rectangular(sheet) && 1 <= r < |sheet.rows| && c < |sheet.header|
    requires !AllSpace(sheet.header[c])
  {
    var name := sheet.header[c];
    var points := sheet.rows[r][c];
    var possible := sheet.rows[0][c];
    if !IsDigitCell(points) || !IsDigitCell(possible) then Abort
    else
      match AssignmentType(st.course, name)
      case None => Abort
      case Some(kind) =>
        if name !in due then Abort
        else if due[name] in SkipDates then Skip
        else
          Emit(SynergyRow(st.id, st.firstName, st.lastName, name, name,
                          CellString(points) + "/" + CellString(possible), possible, kind, due[name]))
  }

  /**
   * A cell is refused exactly when one of the four checks fails, skipped
   * exactly when they pass and its due date is "S" or "X", and otherwise
   * yields the student's row for that assignment: the score written as
   * "points/possible" and a recognised import type.
   */
  lemma CellStepChecks(due: map<string, string>, sheet: Sheet, st: Student, r: nat, c: nat)
    requires Rectangular(sheet) && 1 <= r < |sheet.rows| && c < |sheet.header|
    requires !AllSpace(sheet.header[c])
    ensures var step := CellStep(due, sheet, st, r, c);
      var name := sheet.header[c];
      var ok := IsDigits(CellString(sheet.rows[r][c])) && IsDigits(CellString(sheet.rows[0][c])) &&
                AssignmentType(st.course, name).Some? && name in due;
      (step.Abort? <==> !ok) &&
      (step.Skip? <==> ok && due[name] in SkipDates) &&
      (step.Emit? ==>
        step.out.studentId == st.id && step.out.firstName == st.firstName && step.out.lastName == st.lastName &&
        step.out.assignmentName == name && step.out.assignmentDescription == name &&
        step.out.overallScore == CellString(sheet.rows[r][c]) + "/" + CellString(sheet.rows[0][c]) &&
        step.out.points == sheet.rows[0][c] &&
        step.out.assignmentType in ImportTypes &&
        step.out.assignmentDate == due[name])
  {
  }

  /** An import row together with where it came from. */
  datatype Emission = Emission(period: string, row: nat, col: nat, out: SynergyRow)

  /** The steps of the assignment columns of student row `r`, column 2 first. */
  function CellSteps(due: map<string, string>, sheet: Sheet, st: Student, r: nat): (steps: seq<Step>)
    requires Rectangular(sheet) && 1 <= r < |sheet.rows|
    ensures |steps| == ColumnStop(sheet.header) - 2
    ensures forall k :: 0 <= k < |steps| ==> steps[k] == CellStep(due, sheet, st, r, k + 2)
  {
    var n := ColumnStop(sheet.header) - 2;
    seq(n, k requires 0 <= k < n => CellStep(due, sheet, st, r, k + 2))
  }

  /**
   * The import rows of student row `r` from the steps of its assignment
   * columns, step k belonging to column k + 2; `None` once a step refuses.
   */
  function FoldCells(steps: seq<Step>, period: string, r: nat): (es: Option<seq<Emission>>)
    ensures es.Some? ==> |es.value| <= |steps|
  {
    if |steps| == 0 then Some([])
    else
      match FoldCells(steps[..|steps| - 1], period, r)
      case None => None
      case Some(es) =>
        match steps[|steps| - 1]
        case Abort => None
        case Skip => Some(es)
        case Emit(x) => Some(es + [Emission(period, r, |steps| + 1, x)])
  }

  /** What one student row does to the conversion. */
  datatype Outcome = Refuse | Pass | Take(course: string, es: seq<Emission>)

  function RowOutcome(roster: map<string, Student>, due: map<string, string>, sheet: Sheet, r: nat): Outcome
    requires Rectangular(sheet) && 1 <= r < |sheet.rows|
  {
    match RowKind(roster, sheet, r)
    case Crash => Refuse
    case Unlisted => Pass
    case Audit => Pass
    case Listed(st) =>
      match FoldCells(CellSteps(due, sheet, st, r), st.period, r)
      case None => Refuse
      case Some(es) => Take(st.course, es)
  }

  /** The outcomes of student rows 1, 2, ... in order. */
  function Outcomes(roster: map<string, Student>, due: map<string, string>, sheet: Sheet): (outs: seq<Outcome>)
    requires Rectangular(sheet)
    ensures |outs| == if |sheet.rows| == 0 then 0 else |sheet.rows| - 1
    ensures forall i :: 0 <= i < |outs| ==> outs[i] == RowOutcome(roster, due, sheet, i + 1)
  {
    var n := if |sheet.rows| == 0 then 0 else |sheet.rows| - 1;
    seq(n, i requires 0 <= i < n => RowOutcome(roster, due, sheet, i + 1))
  }

  /** The course seen so far and the rows produced so far. */
  datatype State = State(course: Option<string>, emitted: seq<Emission>)

  /** One student row applied: a refusal, or a second course, stops the conversion. */
  function Advance(s: State, o: Outcome): (next: Option<State>)
    ensures next.None? <==> o.Refuse? || (o.Take? && s.course.Some? && s.course.value != o.course)
    ensures next.Some? ==> next.value.emitted == s.emitted + (if o.Take? then o.es else [])
  {
    match o
    case Refuse => None
    case Pass => Some(s)
    case Take(course, es) =>
      if s.course.Some? && s.course.value != course then None
      else Some(State(Some(course), s.emitted + es))
  }

  function RunOutcomes(outs: seq<Outcome>): Option<State> {
    if |outs| == 0 then Some(State(None, []))
    else
      match RunOutcomes(outs[..|outs| - 1])
      case None => None
      case Some(s) => Advance(s, outs[|outs| - 1])
  }

  /** The conversion's walk over every student row. */
  function Run(roster: map<string, Student>, due: map<string, string>, sheet: Sheet): Option<State>
    requires Rectangular(sheet)
  {
    RunOutcomes(Outcomes(roster, due, sheet))
  }

  // ---------------------------------------------------------------------------
  // The two folds, on their own
  // ---------------------------------------------------------------------------

  /** One step of the inner loop keeps the row fold and the files in step. */
  lemma RowStep(steps: seq<Step>, period: string, r: nat, k: nat, rowEs: seq<Emission>,
                prior: seq<Emission>, files: seq<PeriodFile>)
    requires k < |steps| && !steps[k].Abort?
    requires FoldCells(steps[..k], period, r) == Some(rowEs) && files == Partition(prior + rowEs)
    ensures steps[k].Skip? ==> FoldCells(steps[..k + 1], period, r) == Some(rowEs)
    ensures steps[k].Emit? ==>
      var e := Emission(period, r, k + 2, steps[k].out);
      FoldCells(steps[..k + 1], period, r) == Some(rowEs + [e]) &&
      AddRow(files, period, steps[k].out) == Partition(prior + (rowEs + [e]))
  {
    FoldCellsNext(steps, period, r, k, rowEs);
    if steps[k].Emit? {
      EmitExtends(prior, rowEs, Emission(period, r, k + 2, steps[k].out), files);
    }
  }

  /** Appending one more row of the current student to its period's file. */
  lemma EmitExtends(prior: seq<Emission>, rowEs: seq<Emission>, e: Emission, files: seq<PeriodFile>)
    requires files == Partition(prior + rowEs)
    ensures AddRow(files, e.period, e.out) == Partition(prior + (rowEs + [e]))
  {
    assert prior + (rowEs + [e]) == (prior + rowEs) + [e];
    PartitionSnoc(prior + rowEs, e);
  }

  /** Emissions come in row-major order: by student row, then by column. */
  predicate Before(a: Emission, b: Emission) {
    a.row < b.row || (a.row == b.row && a.col < b.col)
  }

  /** Each row of a student comes from an emitting step of its column, in column order. */
  lemma {:induction false} FoldCellsSound(steps: seq<Step>, period: string, r: nat)
    requires FoldCells(steps, period, r).Some?
    ensures var es := FoldCells(steps, period, r).value;
      (forall i :: 0 <= i < |es| ==>
        es[i].row == r && es[i].period == period && 2 <= es[i].col < |steps| + 2 &&
        steps[es[i].col - 2] == Emit(es[i].out)) &&
      (forall i, j :: 0 <= i < j < |es| ==> es[i].col < es[j].col)
  {
    if |steps| > 0 {
      var init := steps[..|steps| - 1];
      FoldCellsSound(init, period, r);
      assert forall k :: 0 <= k < |init| ==> init[k] == steps[k];
    }
  }

  /** A successful row met no refusing step, and every emitting step left its row. */
  lemma {:induction false} FoldCellsComplete(steps: seq<Step>, period: string, r: nat)
    requires FoldCells(steps, period, r).Some?
    ensures var es := FoldCells(steps, period, r).value;
      forall k :: 0 <= k < |steps| ==> (!steps[k].Abort? &&
        (steps[k].Emit? ==> exists i :: 0 <= i < |es| && es[i].col == k + 2 && es[i].out == steps[k].out))
  {
    if |steps| > 0 {
      var init := steps[..|steps| - 1];
      FoldCellsComplete(init, period, r);
      var prev := FoldCells(init, period, r).value;
      var es := FoldCells(steps, period, r).value;
      assert forall i :: 0 <= i < |prev| ==> es[i] == prev[i];
      assert forall k :: 0 <= k < |init| ==> init[k] == steps[k];
      if steps[|steps| - 1].Emit? {
        assert es[|prev|].col == |steps| + 1;
      }
    }
  }

  /** A refusal among the first `k` steps refuses the row. */
  lemma {:induction false} FoldCellsStuck(steps: seq<Step>, period: string, r: nat, k: nat)
    requires k <= |steps| && FoldCells(steps[..k], period, r).None?
    ensures FoldCells(steps, period, r).None?
  {
    if k == |steps| {
      assert steps[..k] == steps;
    } else {
      var init := steps[..|steps| - 1];
      assert init[..k] == steps[..k];
      FoldCellsStuck(init, period, r, k);
    }
  }

  /** One more step of the row fold. */
  lemma FoldCellsNext(steps: seq<Step>, period: string, r: nat, k: nat, es: seq<Emission>)
    requires k < |steps| && FoldCells(steps[..k], period, r) == Some(es)
    ensures steps[k].Skip? ==> FoldCells(steps[..k + 1], period, r) == Some(es)
    ensures steps[k].Emit? ==>
      FoldCells(steps[..k + 1], period, r) == Some(es + [Emission(period, r, k + 2, steps[k].out)])
  {
    assert steps[..k + 1][..k] == steps[..k];
  }

  /** A refusing step refuses the row. */
  lemma FoldCellsAbortAt(steps: seq<Step>, period: string, r: nat, k: nat)
    requires k < |steps| && steps[k].Abort?
    ensures FoldCells(steps, period, r).None?
  {
    assert steps[..k + 1][..k] == steps[..k];
    FoldCellsStuck(steps, period, r, k + 1);
  }

  /** Each outcome's rows belong to its own student row, in column order. */
  predicate WellRowed(outs: seq<Outcome>) {
    forall i :: 0 <= i < |outs| && outs[i].Take? ==>
      (forall a :: 0 <= a < |outs[i].es| ==> outs[i].es[a].row == i + 1) &&
      (forall a, b :: 0 <= a < b < |outs[i].es| ==> outs[i].es[a].col < outs[i].es[b].col)
  }

  /** A successful walk met no refusal and exactly one course. */
  lemma {:induction false} RunOutcomesCourse(outs: seq<Outcome>)
    requires RunOutcomes(outs).Some?
    ensures var s := RunOutcomes(outs).value;
      (forall i :: 0 <= i < |outs| ==> !outs[i].Refuse?) &&
      (forall i :: 0 <= i < |outs| && outs[i].Take? ==> s.course == Some(outs[i].course)) &&
      (s.course.None? ==> forall i :: 0 <= i < |outs| ==> !outs[i].Take?)
  {
    if |outs| > 0 {
      var init := outs[..|outs| - 1];
      RunOutcomesCourse(init);
      assert forall i :: 0 <= i < |init| ==> init[i] == outs[i];
    }
  }

  /** Each row of a successful walk comes from the outcome of its student row, in row-major order. */
  lemma RunOutcomesSound(outs: seq<Outcome>)
    requires WellRowed(outs) && RunOutcomes(outs).Some?
    ensures var es := RunOutcomes(outs).value.emitted;
      (forall j :: 0 <= j < |es| ==>
        1 <= es[j].row <= |outs| && outs[es[j].row - 1].Take? && es[j] in outs[es[j].row - 1].es) &&
      (forall j, j' :: 0 <= j < j' < |es| ==> Before(es[j], es[j']))
  {
    RunOutcomesFrom(outs);
    RunOutcomesOrdered(outs);
  }

  /** Each row of a successful walk comes from the outcome of its student row. */
  lemma {:induction false} RunOutcomesFrom(outs: seq<Outcome>)
    requires WellRowed(outs) && RunOutcomes(outs).Some?
    ensures var es := RunOutcomes(outs).value.emitted;
      forall j :: 0 <= j < |es| ==>
        1 <= es[j].row <= |outs| && outs[es[j].row - 1].Take? && es[j] in outs[es[j].row - 1].es
  {
    if |outs| > 0 {
      var init := outs[..|outs| - 1];
      WellRowedInit(outs);
      RunOutcomesFrom(init);
      var prev := RunOutcomes(init).value.emitted;
      var es := RunOutcomes(outs).value.emitted;
      var last := outs[|outs| - 1];
      forall j | 0 <= j < |es|
        ensures 1 <= es[j].row <= |outs| && outs[es[j].row - 1].Take? && es[j] in outs[es[j].row - 1].es
      {
        if j < |prev| {
          assert es[j] == prev[j];
          assert init[prev[j].row - 1] == outs[prev[j].row - 1];
        } else {
          assert es[j] == last.es[j - |prev|];
          assert last.es[j - |prev|] in last.es;
        }
      }
    }
  }

  /** The rows of a successful walk come in row-major order. */
  lemma {:induction false} RunOutcomesOrdered(outs: seq<Outcome>)
    requires WellRowed(outs) && RunOutcomes(outs).Some?
    ensures var es := RunOutcomes(outs).value.emitted;
      forall j, j' :: 0 <= j < j' < |es| ==> Before(es[j], es[j'])
  {
    if |outs| > 0 {
      var init := outs[..|outs| - 1];
      var last := outs[|outs| - 1];
      WellRowedInit(outs);
      RunOutcomesOrdered(init);
      RunOutcomesFrom(init);
      var prev := RunOutcomes(init).value.emitted;
      if last.Take? {
        OrderedAppend(prev, last.es, |outs|);
      }
    }
  }

  lemma WellRowedInit(outs: seq<Outcome>)
    requires WellRowed(outs) && |outs| > 0
    ensures WellRowed(outs[..|outs| - 1])
  {
    var init := outs[..|outs| - 1];
    forall i | 0 <= i < |init|
      ensures init[i] == outs[i]
    {
    }
  }

  /** Rows of earlier students, in order, followed by one later student's rows in column order, are in order. */
  lemma OrderedAppend(prev: seq<Emission>, more: seq<Emission>, row: nat)
    requires forall j :: 0 <= j < |prev| ==> prev[j].row < row
    requires forall j, j' :: 0 <= j < j' < |prev| ==> Before(prev[j], prev[j'])
    requires forall a :: 0 <= a < |more| ==> more[a].row == row
    requires forall a, b :: 0 <= a < b < |more| ==> more[a].col < more[b].col
    ensures forall j, j' :: 0 <= j < j' < |prev + more| ==> Before((prev + more)[j], (prev + more)[j'])
  {
    var all := prev + more;
    forall j, j' | 0 <= j < j' < |all|
      ensures Before(all[j], all[j'])
    {
      if j' < |prev| {
        assert all[j] == prev[j] && all[j'] == prev[j'];
      } else if j < |prev| {
        assert all[j] == prev[j] && all[j'] == more[j' - |prev|];
      } else {
        assert all[j] == more[j - |prev|] && all[j'] == more[j' - |prev|];
      }
    }
  }

  /** Every row of every taken outcome is in a successful walk. */
  lemma {:induction false} RunOutcomesComplete(outs: seq<Outcome>)
    requires RunOutcomes(outs).Some?
    ensures var es := RunOutcomes(outs).value.emitted;
      forall i, a :: 0 <= i < |outs| && outs[i].Take? && 0 <= a < |outs[i].es| ==> outs[i].es[a] in es
  {
    if |outs| > 0 {
      var init := outs[..|outs| - 1];
      RunOutcomesComplete(init);
      var last := outs[|outs| - 1];
      var prev := RunOutcomes(init).value.emitted;
      var es := RunOutcomes(outs).value.emitted;
      assert es == prev + (if last.Take? then last.es else []);
      forall i, a | 0 <= i < |outs| && outs[i].Take? && 0 <= a < |outs[i].es|
        ensures outs[i].es[a] in es
      {
        if i < |init| {
          assert init[i] == outs[i];
          assert outs[i].es[a] in prev;
        } else {
          assert es[|prev| + a] == last.es[a];
        }
      }
    }
  }

  /** One more student row of the walk. */
  lemma RunOutcomesNext(outs: seq<Outcome>, k: nat, s: State)
    requires k < |outs| && RunOutcomes(outs[..k]) == Some(s)
    ensures RunOutcomes(outs[..k + 1]) == Advance(s, outs[k])
  {
    assert outs[..k + 1][..k] == outs[..k];
  }

  /** A refusal among the first `k` student rows refuses the conversion. */
  lemma {:induction false} RunOutcomesStuck(outs: seq<Outcome>, k: nat)
    requires k <= |outs| && RunOutcomes(outs[..k]).None?
    ensures RunOutcomes(outs).None?
  {
    if k == |outs| {
      assert outs[..k] == outs;
    } else {
      var init := outs[..|outs| - 1];
      assert init[..k] == outs[..k];
      RunOutcomesStuck(init, k);
    }
  }

  // ---------------------------------------------------------------------------
  // Grouping by period (the source's dictionary of per-period frames)
  // ---------------------------------------------------------------------------

  function FindPeriod(files: seq<PeriodFile>, p: string): (i: Option<nat>)
    ensures i.None? <==> forall j :: 0 <= j < |files| ==> files[j].period != p
    ensures i.Some? ==> i.value < |files| && files[i.value].period == p
  {
    if |files| == 0 then None
    else if files[|files| - 1].period == p then Some(|files| - 1)
    else FindPeriod(files[..|files| - 1], p)
  }

  /** Append `row` to the file for period `p`, opening that file if needed. */
  function AddRow(files: seq<PeriodFile>, p: string, row: SynergyRow): seq<PeriodFile> {
    match FindPeriod(files, p)
    case None => files + [PeriodFile(p, [row])]
    case Some(i) => files[i := PeriodFile(p, files[i].rows + [row])]
  }

  /** The rows in the order they were produced, one file per period. */
  function Partition(es: seq<Emission>): seq<PeriodFile> {
    if |es| == 0 then []
    else
      var e := es[|es| - 1];
      AddRow(Partition(es[..|es| - 1]), e.period, e.out)
  }

  lemma PartitionSnoc(es: seq<Emission>, e: Emission)
    ensures Partition(es + [e]) == AddRow(Partition(es), e.period, e.out)
  {
    assert (es + [e])[..|es|] == es;
  }

  /** The periods in order of first appearance. */
  function Periods(es: seq<Emission>): (ps: seq<string>)
    ensures forall i, j :: 0 <= i < j < |ps| ==> ps[i] != ps[j]
    ensures forall p :: p in ps <==> exists k :: 0 <= k < |es| && es[k].period == p
  {
    if |es| == 0 then []
    else
      var init := es[..|es| - 1];
      var e := es[|es| - 1];
      assert forall k :: 0 <= k < |init| ==> init[k] == es[k];
      if e.period in Periods(init) then Periods(init) else Periods(init) + [e.period]
  }

  /** The rows for period `p`, in order. */
  function RowsFor(es: seq<Emission>, p: string): (rows: seq<SynergyRow>)
    ensures |rows| <= |es|
  {
    if |es| == 0 then []
    else
      var e := es[|es| - 1];
      RowsFor(es[..|es| - 1], p) + (if e.period == p then [e.out] else [])
  }

  /** The grouping as a definition: a file per period, in first-appearance order, holding that period's rows. */
  function Grouped(es: seq<Emission>): (files: seq<PeriodFile>)
    ensures |files| == |Periods(es)|
    ensures forall i :: 0 <= i < |files| ==> files[i].period == Periods(es)[i]
  {
    var ps := Periods(es);
    seq(|ps|, i requires 0 <= i < |ps| => PeriodFile(ps[i], RowsFor(es, ps[i])))
  }

  lemma FindPeriodInGrouped(es: seq<Emission>, p: string)
    ensures FindPeriod(Grouped(es), p).None? <==> p !in Periods(es)
    ensures p in Periods(es) ==> Periods(es)[FindPeriod(Grouped(es), p).value] == p
  {
    FindPeriodAt(Grouped(es), Periods(es), p);
  }

  /** Looking a period up in files whose periods are `ps`, in order. */
  lemma FindPeriodAt(g: seq<PeriodFile>, ps: seq<string>, p: string)
    requires |g| == |ps| && forall i :: 0 <= i < |g| ==> g[i].period == ps[i]
    ensures FindPeriod(g, p).None? <==> p !in ps
    ensures p in ps ==> ps[FindPeriod(g, p).value] == p
  {
    if p in ps {
      var i :| 0 <= i < |ps| && ps[i] == p;
      assert g[i].period == p;
    }
  }

  /** The incremental grouping the source performs builds exactly the grouping by period. */
  lemma {:induction false} PartitionIsGrouped(es: seq<Emission>)
    ensures Partition(es) == Grouped(es)
  {
    if |es| > 0 {
      var init := es[..|es| - 1];
      var e := es[|es| - 1];
      PartitionIsGrouped(init);
      if e.period in Periods(init) {
        GroupedSnocKnown(es);
      } else {
        GroupedSnocNew(es);
      }
    }
  }

  /** A row of a period already seen goes to the end of that period's file. */
  lemma GroupedSnocKnown(es: seq<Emission>)
    requires |es| > 0 && es[|es| - 1].period in Periods(es[..|es| - 1])
    ensures AddRow(Grouped(es[..|es| - 1]), es[|es| - 1].period, es[|es| - 1].out) == Grouped(es)
  {
    var init := es[..|es| - 1];
    var e := es[|es| - 1];
    var g := Grouped(init);
    var ps := Periods(init);
    FindPeriodInGrouped(init, e.period);
    var next := AddRow(g, e.period, e.out);
    var want := Grouped(es);
    var i := FindPeriod(g, e.period).value;
    assert Periods(es) == ps;
    forall j | 0 <= j < |want| ensures next[j] == want[j] {
      if j == i {
        assert next[j] == PeriodFile(e.period, RowsFor(init, e.period) + [e.out]);
      } else {
        assert ps[j] != e.period;
      }
    }
  }

  /** A row of a new period opens a file of its own after the others. */
  lemma GroupedSnocNew(es: seq<Emission>)
    requires |es| > 0 && es[|es| - 1].period !in Periods(es[..|es| - 1])
    ensures AddRow(Grouped(es[..|es| - 1]), es[|es| - 1].period, es[|es| - 1].out) == Grouped(es)
  {
    var init := es[..|es| - 1];
    var e := es[|es| - 1];
    var g := Grouped(init);
    var ps := Periods(init);
    FindPeriodInGrouped(init, e.period);
    var next := AddRow(g, e.period, e.out);
    var want := Grouped(es);
    assert Periods(es) == ps + [e.period];
    assert forall k :: 0 <= k < |init| ==> init[k].period != e.period;
    RowsForAbsent(init, e.period);
    forall j | 0 <= j < |want| ensures next[j] == want[j] {
      if j < |ps| {
        assert ps[j] != e.period;
      }
    }
  }

  lemma {:induction false} RowsForAbsent(es: seq<Emission>, p: string)
    requires forall k :: 0 <= k < |es| ==> es[k].period != p
    ensures RowsFor(es, p) == []
  {
    if |es| > 0 {
      RowsForAbsent(es[..|es| - 1], p);
    }
  }

  /** The files have distinct periods, and each holds exactly its period's rows, in order. */
  lemma PartitionFiles(es: seq<Emission>)
    ensures var files := Partition(es);
      (forall i, j :: 0 <= i < j < |files| ==> files[i].period != files[j].period) &&
      (forall i :: 0 <= i < |files| ==> files[i].rows == RowsFor(es, files[i].period))
  {
    PartitionIsGrouped(es);
    var ps := Periods(es);
    var g := Grouped(es);
    assert forall i :: 0 <= i < |g| ==> g[i].period == ps[i];
  }

  /** A file exists for a period exactly when some row has that period. */
  lemma PartitionCoversPeriods(es: seq<Emission>)
    ensures (set i | 0 <= i < |Partition(es)| :: Partition(es)[i].period) == (set k | 0 <= k < |es| :: es[k].period)
  {
    PartitionIsGrouped(es);
    var ps := Periods(es);
    var g := Grouped(es);
    var left := set i | 0 <= i < |g| :: g[i].period;
    var right := set k | 0 <= k < |es| :: es[k].period;
    forall p | p in left ensures p in right {
      var i :| 0 <= i < |g| && g[i].period == p;
      assert ps[i] in ps;
    }
    forall p | p in right ensures p in left {
      var k :| 0 <= k < |es| && es[k].period == p;
      assert p in ps;
      var i :| 0 <= i < |ps| && ps[i] == p;
      assert g[i].period == p;
    }
  }

  // ---------------------------------------------------------------------------
  // The conversion
  // ---------------------------------------------------------------------------

  /**
   * The conversion as a definition.  `roster` is what the roster reader
   * returned; a missing or empty roster gives `None`, as does any refusal
   * while walking the rows.
   */
  function AggToSynergySpec(roster: Option<map<string, Student>>, due: map<string, string>, sheet: Sheet): (out: Option<Import>)
    requires Rectangular(sheet)
    ensures roster.None? || |roster.value| == 0 ==> out.None?
    ensures roster.Some? && |roster.value| > 0 && |sheet.rows| <= 1 ==> out == Some(Import(None, []))
  {
    if roster.None? || |roster.value| == 0 then None
    else
      match Run(roster.value, due, sheet)
      case None => None
      case Some(s) => Some(Import(s.course, Partition(s.emitted)))
  }

  /**
   * The inner loop of `agg_to_synergy` for one listed student: the steps of
   * the assignment columns taken left to right, each emitted row appended to
   * its period's file.
   */
  method StudentRows(steps: seq<Step>, period: string, r: nat, files0: seq<PeriodFile>, ghost prior: seq<Emission>)
    returns (ok: bool, files: seq<PeriodFile>, ghost rowEs: seq<Emission>)
    requires files0 == Partition(prior)
    ensures ok <==> FoldCells(steps, period, r).Some?
    ensures ok ==> FoldCells(steps, period, r) == Some(rowEs)
    ensures ok ==> files == Partition(prior + rowEs)
  {
    files := files0;
    rowEs := [];
    assert prior + rowEs == prior;
    var k := 0;
    while k < |steps|
      invariant k <= |steps|
      invariant FoldCells(steps[..k], period, r) == Some(rowEs)
      invariant files == Partition(prior + rowEs)
    {
      var step := steps[k];
      if step.Abort? {
        FoldCellsAbortAt(steps, period, r, k);
        return false, files, rowEs;
      }
      RowStep(steps, period, r, k, rowEs, prior, files);
      if step.Emit? {
        rowEs := rowEs + [Emission(period, r, k + 2, step.out)];
        files := AddRow(files, period, step.out);
      }
      k := k + 1;
    }
    assert steps[..k] == steps;
    ok := true;
  }

  /** `agg_to_synergy` with its loop over student rows. */
  method AggToSynergy(roster: Option<map<string, Student>>, due: map<string, string>, sheet: Sheet) returns (out: Option<Import>)
    requires Rectangular(sheet)
    ensures out == AggToSynergySpec(roster, due, sheet)
  {
    if roster.None? || |roster.value| == 0 {
      return None;
    }
    var dict := roster.value;
    ghost var outs := Outcomes(dict, due, sheet);
    var course: Option<string> := None;
    var files: seq<PeriodFile> := [];
    ghost var emitted: seq<Emission> := [];
    var r := 1;
    while r < |sheet.rows|
      invariant 1 <= r && r - 1 <= |outs|
      invariant RunOutcomes(outs[..r - 1]) == Some(State(course, emitted))
      invariant files == Partition(emitted)
    {
      assert outs[r - 1] == RowOutcome(dict, due, sheet, r);
      RunOutcomesNext(outs, r - 1, State(course, emitted));
      var stop;
      stop, course, files, emitted := StudentRow(dict, due, sheet, r, course, files, emitted);
      if stop {
        RunOutcomesStuck(outs, r);
        return None;
      }
      r := r + 1;
    }
    assert outs[..r - 1] == outs;
    out := Some(Import(course, files));
  }

  /**
   * One pass of the outer loop: the student row `r` looked up in the roster
   * and, for a listed student of the course seen so far, its rows appended.
   */
  method StudentRow(dict: map<string, Student>, due: map<string, string>, sheet: Sheet, r: nat,
                    course: Option<string>, files: seq<PeriodFile>, ghost emitted: seq<Emission>)
    returns (stop: bool, course': Option<string>, files': seq<PeriodFile>, ghost emitted': seq<Emission>)
    requires Rectangular(sheet) && 1 <= r < |sheet.rows| && files == Partition(emitted)
    ensures stop <==> Advance(State(course, emitted), RowOutcome(dict, due, sheet, r)).None?
    ensures !stop ==> Advance(State(course, emitted), RowOutcome(dict, due, sheet, r)) == Some(State(course', emitted'))
    ensures !stop ==> files' == Partition(emitted')
  {
    course', files', emitted' := course, files, emitted;
    var kind := RowKind(dict, sheet, r);
    if kind.Crash? {
      return true, course', files', emitted';
    }
    if kind.Listed? {
      var st := kind.student;
      if course.Some? && course.value != st.course {
        return true, course', files', emitted';
      }
      var steps := CellSteps(due, sheet, st, r);
      var ok, rowFiles, rowEs := StudentRows(steps, st.period, r, files, emitted);
      if !ok {
        return true, course', files', emitted';
      }
      files' := rowFiles;
      emitted' := emitted + rowEs;
      course' := Some(st.course);
    }
    stop := false;
  }

  // ---------------------------------------------------------------------------
  // What a successful conversion guarantees
  // ---------------------------------------------------------------------------

  /** An import row is justified by a listed student's row and an assignment column that emits it. */
  predicate Justified(roster: map<string, Student>, due: map<string, string>, sheet: Sheet, e: Emission)
    requires Rectangular(sheet)
  {
    1 <= e.row < |sheet.rows| && 2 <= e.col < ColumnStop(sheet.header) &&
    RowKind(roster, sheet, e.row).Listed? &&
    e.period == RowKind(roster, sheet, e.row).student.period &&
    CellStep(due, sheet, RowKind(roster, sheet, e.row).student, e.row, e.col) == Emit(e.out)
  }

  lemma OutcomesWellRowed(roster: map<string, Student>, due: map<string, string>, sheet: Sheet)
    requires Rectangular(sheet)
    ensures WellRowed(Outcomes(roster, due, sheet))
  {
    var outs := Outcomes(roster, due, sheet);
    forall i | 0 <= i < |outs| && outs[i].Take?
      ensures (forall a :: 0 <= a < |outs[i].es| ==> outs[i].es[a].row == i + 1) &&
              (forall a, b :: 0 <= a < b < |outs[i].es| ==> outs[i].es[a].col < outs[i].es[b].col)
    {
      TakeJustified(roster, due, sheet, i + 1);
      assert forall a :: 0 <= a < |outs[i].es| ==> outs[i].es[a] in outs[i].es;
    }
  }

  /** The rows a student row yields are justified by it. */
  lemma TakeJustified(roster: map<string, Student>, due: map<string, string>, sheet: Sheet, r: nat)
    requires Rectangular(sheet) && 1 <= r < |sheet.rows|
    requires RowOutcome(roster, due, sheet, r).Take?
    ensures var es := RowOutcome(roster, due, sheet, r).es;
      (forall e :: e in es ==> e.row == r && Justified(roster, due, sheet, e)) &&
      (forall a, b :: 0 <= a < b < |es| ==> es[a].col < es[b].col)
  {
    var st := RowKind(roster, sheet, r).student;
    var steps := CellSteps(due, sheet, st, r);
    FoldCellsSound(steps, st.period, r);
  }

  /** A listed student's row that is not refused passed every cell check and yielded every emitting cell. */
  lemma TakeComplete(roster: map<string, Student>, due: map<string, string>, sheet: Sheet, r: nat)
    requires Rectangular(sheet) && 1 <= r < |sheet.rows|
    requires RowKind(roster, sheet, r).Listed? && !RowOutcome(roster, due, sheet, r).Refuse?
    ensures var st := RowKind(roster, sheet, r).student;
      var o := RowOutcome(roster, due, sheet, r);
      o.Take? && o.course == st.course &&
      forall c :: 2 <= c < ColumnStop(sheet.header) ==>
        !CellStep(due, sheet, st, r, c).Abort? &&
        (CellStep(due, sheet, st, r, c).Emit? ==>
          exists i :: 0 <= i < |o.es| && o.es[i].col == c && o.es[i].out == CellStep(due, sheet, st, r, c).out)
  {
    var st := RowKind(roster, sheet, r).student;
    var steps := CellSteps(due, sheet, st, r);
    FoldCellsComplete(steps, st.period, r);
    forall c | 2 <= c < ColumnStop(sheet.header)
      ensures steps[c - 2] == CellStep(due, sheet, st, r, c)
    {
    }
  }

  /**
   * A successful conversion: every import row is justified by a listed
   * student and an assignment column, rows come in row-major order, each file
   * holds exactly one period's rows, and files exist only once a course is
   * known.
   */
  lemma ImportSound(roster: Option<map<string, Student>>, due: map<string, string>, sheet: Sheet)
    requires Rectangular(sheet)
    requires AggToSynergySpec(roster, due, sheet).Some?
    ensures var imp := AggToSynergySpec(roster, due, sheet).value;
      var es := Run(roster.value, due, sheet).value.emitted;
      imp.files == Grouped(es) &&
      (forall i :: 0 <= i < |es| ==> Justified(roster.value, due, sheet, es[i])) &&
      (forall i, j :: 0 <= i < j < |es| ==> Before(es[i], es[j])) &&
      (|imp.files| > 0 ==> imp.course.Some?)
  {
    var dict := roster.value;
    var outs := Outcomes(dict, due, sheet);
    var s := Run(dict, due, sheet).value;
    var es := s.emitted;
    PartitionIsGrouped(es);
    OutcomesWellRowed(dict, due, sheet);
    RunOutcomesSound(outs);
    RunOutcomesCourse(outs);
    forall i | 0 <= i < |es| ensures Justified(dict, due, sheet, es[i]) {
      TakeJustified(dict, due, sheet, es[i].row);
    }
    if |es| > 0 {
      assert outs[es[0].row - 1].Take?;
    }
  }

  /**
   * A successful conversion left nothing out: every listed student's every
   * assignment cell passed its checks, and each one not skipped by its due
   * date is among the import rows.
   */
  lemma ImportComplete(roster: Option<map<string, Student>>, due: map<string, string>, sheet: Sheet, r: nat, c: nat)
    requires Rectangular(sheet)
    requires AggToSynergySpec(roster, due, sheet).Some?
    requires 1 <= r < |sheet.rows| && 2 <= c < ColumnStop(sheet.header)
    requires RowKind(roster.value, sheet, r).Listed?
    ensures var st := RowKind(roster.value, sheet, r).student;
      var step := CellStep(due, sheet, st, r, c);
      var es := Run(roster.value, due, sheet).value.emitted;
      !step.Abort? &&
      (step.Emit? ==> exists i :: 0 <= i < |es| && es[i].row == r && es[i].col == c && es[i].out == step.out)
  {
    var dict := roster.value;
    var outs := Outcomes(dict, due, sheet);
    var o := RowOutcome(dict, due, sheet, r);
    assert outs[r - 1] == o;
    RunOutcomesCourse(outs);
    TakeComplete(dict, due, sheet, r);
    var st := RowKind(dict, sheet, r).student;
    var step := CellStep(due, sheet, st, r, c);
    if step.Emit? {
      var a :| 0 <= a < |o.es| && o.es[a].col == c && o.es[a].out == step.out;
      RowOfTake(dict, due, sheet, r, a);
      RunOutcomesComplete(outs);
      var es := Run(dict, due, sheet).value.emitted;
      assert o.es[a] in es;
    }
  }

  lemma RowOfTake(roster: map<string, Student>, due: map<string, string>, sheet: Sheet, r: nat, a: nat)
    requires Rectangular(sheet) && 1 <= r < |sheet.rows|
    requires RowOutcome(roster, due, sheet, r).Take? && a < |RowOutcome(roster, due, sheet, r).es|
    ensures RowOutcome(roster, due, sheet, r).es[a].row == r
  {
    var st := RowKind(roster, sheet, r).student;
    FoldCellsSound(CellSteps(due, sheet, st, r), st.period, r);
  }

  /** Two imported students enrolled in different courses make the conversion refuse. */
  lemma MixedCoursesRefused(roster: Option<map<string, Student>>, due: map<string, string>, sheet: Sheet, r1: nat, r2: nat)
    requires Rectangular(sheet) && roster.Some?
    requires 1 <= r1 < |sheet.rows| && 1 <= r2 < |sheet.rows|
    requires RowKind(roster.value, sheet, r1).Listed? && RowKind(roster.value, sheet, r2).Listed?
    requires RowKind(roster.value, sheet, r1).student.course != RowKind(roster.value, sheet, r2).student.course
    ensures AggToSynergySpec(roster, due, sheet).None?
  {
    if |roster.value| > 0 && Run(roster.value, due, sheet).Some? {
      var outs := Outcomes(roster.value, due, sheet);
      RunOutcomesCourse(outs);
      assert outs[r1 - 1] == RowOutcome(roster.value, due, sheet, r1);
      assert outs[r2 - 1] == RowOutcome(roster.value, due, sheet, r2);
      TakeComplete(roster.value, due, sheet, r1);
      TakeComplete(roster.value, due, sheet, r2);
    }
  }

  /** A refused student row refuses the whole conversion. */
  lemma RefusedRowRefuses(roster: map<string, Student>, due: map<string, string>, sheet: Sheet, r: nat)
    requires Rectangular(sheet) && 1 <= r < |sheet.rows|
    requires RowOutcome(roster, due, sheet, r).Refuse?
    ensures Run(roster, due, sheet).None?
  {
    var outs := Outcomes(roster, due, sheet);
    assert outs[r - 1] == RowOutcome(roster, due, sheet, r);
    assert outs[..r][..r - 1] == outs[..r - 1];
    RunOutcomesStuck(outs, r);
  }

  /**
   * A listed student's cell that fails a check -- points or points possible
   * not a plain number, no assignment type, no due date -- makes the whole
   * conversion refuse, even for an assignment whose due date would skip it.
   */
  lemma BadCellRefused(roster: Option<map<string, Student>>, due: map<string, string>, sheet: Sheet, r: nat, c: nat)
    requires Rectangular(sheet) && roster.Some?
    requires 1 <= r < |sheet.rows| && 2 <= c < ColumnStop(sheet.header)
    requires RowKind(roster.value, sheet, r).Listed?
    requires CellStep(due, sheet, RowKind(roster.value, sheet, r).student, r, c).Abort?
    ensures AggToSynergySpec(roster, due, sheet).None?
  {
    var st := RowKind(roster.value, sheet, r).student;
    FoldCellsAbortAt(CellSteps(due, sheet, st, r), st.period, r, c - 2);
    RefusedRowRefuses(roster.value, due, sheet, r);
  }

  /** A student row whose key is not text, or a sheet with no "Student" column, makes the conversion refuse. */
  lemma BadKeyRefused(roster: Option<map<string, Student>>, due: map<string, string>, sheet: Sheet, r: nat)
    requires Rectangular(sheet) && roster.Some?
    requires 1 <= r < |sheet.rows|
    requires "Student" !in sheet.header || !sheet.rows[r][FindName(sheet.header, "Student").value].Text?
    ensures AggToSynergySpec(roster, due, sheet).None?
  {
    RefusedRowRefuses(roster.value, due, sheet, r);
  }

  /** "Synergy bulk import for P<period> <course>.xlsx" in the output directory. */
  function OutputFileName(dir: string, sep: string, period: string, course: string): (name: string)
    ensures EndsWith(name, " " + course + ".xlsx")
  {
    var tail := " " + course + ".xlsx";
    var name := dir + sep + "Synergy bulk import for P" + period + tail;
    assert name[|name| - |tail|..] == tail;
    name
  }

  /** Within one course, different periods never share an output file. */
  lemma OutputFileNameInjective(dir: string, sep: string, p1: string, p2: string, course: string)
    requires OutputFileName(dir, sep, p1, course) == OutputFileName(dir, sep, p2, course)
    ensures p1 == p2
  {
    var pre := dir + sep + "Synergy bulk import for P";
    var tail := " " + course + ".xlsx";
    var n1 := OutputFileName(dir, sep, p1, course);
    assert n1 == pre + p1 + tail;
    assert OutputFileName(dir, sep, p2, course) == pre + p2 + tail;
    assert |p1| == |p2|;
    assert p1 == n1[|pre|..|pre| + |p1|];
  }
}

=== FILE: table.dfy ===
/**
 * The spreadsheet vocabulary shared by the three aggregators: cells as pandas
 * holds them, columns, the participation filter `dropna(axis=1, thresh=t)`,
 * and `groupby(by=df.columns, axis=1).sum()`, which yields one column per
 * distinct label, in sorted label order, holding the row-wise sums.
 */
module Table {
  import opened Wrappers
  import opened Strings

  /** A spreadsheet cell: empty (NaN), a number, or text. */
  datatype Cell = Missing | Num(n: int) | Text(s: string)

  /** A named column of cells; row 0 comes first. */
  datatype Column = Column(name: string, cells: seq<Cell>)

  /** A labelled column of integer values. */
  datatype Summed = Summed(name: string, values: seq<int>)

  /** `str(x)` of a cell's value: NaN prints as "nan". */
  function CellString(c: Cell): string {
    match c
    case Missing => "nan"
    case Num(v) => IntToString(v)
    case Text(t) => t
  }

  /** `str(x).isdigit()`: true exactly for non-negative numbers and digit text. */
  predicate IsDigitCell(c: Cell)
    ensures IsDigitCell(c) <==> IsDigits(CellString(c))
  {
    match c
    case Missing => assert !IsDigit(CellString(c)[0]); false
    case Num(v) => v >= 0
    case Text(t) => IsDigits(t)
  }

  /**
   * An aggregate as written to CSV: the Student and Section index columns,
   * the summed label columns and, for the STEM aggregators, a blank-named
   * separator column followed by the per-category grade columns.  Row 0 is
   * the points-possible row.
   */
  datatype AggregateSheet = AggregateSheet(
    student: seq<Cell>,
    section: seq<Cell>,
    sums: seq<Summed>,
    separated: bool,
    grades: seq<Summed>)

  /** The column labels, in order (`df.columns`). */
  function Names(cols: seq<Column>): (names: seq<string>)
    ensures |names| == |cols| && forall k :: 0 <= k < |cols| ==> names[k] == cols[k].name
  {
    seq(|cols|, k requires 0 <= k < |cols| => cols[k].name)
  }

  predicate SameHeight(cols: seq<Column>, n: nat) {
    forall j :: 0 <= j < |cols| ==> |cols[j].cells| == n
  }

  predicate SummedHeight(cols: seq<Summed>, n: nat) {
    forall j :: 0 <= j < |cols| ==> |cols[j].values| == n
  }

  // ---------------------------------------------------------------------------
  // Participation filter
  // ---------------------------------------------------------------------------

  /** The number of cells that are not missing (pandas `count`). */
  function NonMissing(cells: seq<Cell>): (k: nat)
    ensures k <= |cells|
    ensures k == 0 <==> forall i :: 0 <= i < |cells| ==> cells[i] == Missing
    ensures k == |cells| <==> forall i :: 0 <= i < |cells| ==> cells[i] != Missing
  {
    if |cells| == 0 then 0
    else
      var last := if cells[|cells| - 1] == Missing then 0 else 1;
      var k := NonMissing(cells[..|cells| - 1]) + last;
      assert forall i :: 0 <= i < |cells| - 1 ==> cells[i] == cells[..|cells| - 1][i];
      k
  }

  /**
   * The positions, from `i` on, of the columns with at least `thresh`
   * non-missing cells, in increasing order.
   */
  function ParticipatingFrom(cols: seq<Column>, thresh: nat, i: nat): (ix: seq<nat>)
    requires i <= |cols|
    ensures forall k :: 0 <= k < |ix| ==> i <= ix[k] < |cols| && NonMissing(cols[ix[k]].cells) >= thresh
    ensures forall k, l :: 0 <= k < l < |ix| ==> ix[k] < ix[l]
    ensures forall j :: i <= j < |cols| && NonMissing(cols[j].cells) >= thresh ==> j in ix
    decreases |cols| - i
  {
    if i == |cols| then []
    else if NonMissing(cols[i].cells) >= thresh then [i] + ParticipatingFrom(cols, thresh, i + 1)
    else ParticipatingFrom(cols, thresh, i + 1)
  }

  /** The first kept column, if any, is the first column with at least `thresh` non-missing cells. */
  predicate FirstKept(cols: seq<Column>, kept: seq<Column>, thresh: nat) {
    |kept| > 0 ==>
      exists j :: (0 <= j < |cols| && kept[0] == cols[j] && NonMissing(cols[j].cells) >= thresh
                   && forall i :: 0 <= i < j ==> NonMissing(cols[i].cells) < thresh)
  }

  /**
   * `dropna(axis=1, thresh=thresh)`: the columns with at least `thresh`
   * non-missing cells, in their original order.
   */
  function KeepParticipating(cols: seq<Column>, thresh: nat): (kept: seq<Column>)
    ensures |kept| <= |cols|
    ensures forall c :: c in kept ==> c in cols && NonMissing(c.cells) >= thresh
    ensures forall c :: c in cols && NonMissing(c.cells) >= thresh ==> c in kept
    ensures FirstKept(cols, kept, thresh)
    ensures forall n: nat :: SameHeight(cols, n) ==> SameHeight(kept, n)
  {
    var ix := ParticipatingFrom(cols, thresh, 0);
    var kept := seq(|ix|, k requires 0 <= k < |ix| => cols[ix[k]]);
    KeepParticipatingFacts(cols, thresh, ix, kept);
    kept
  }

  lemma KeepParticipatingFacts(cols: seq<Column>, thresh: nat, ix: seq<nat>, kept: seq<Column>)
    requires ix == ParticipatingFrom(cols, thresh, 0)
    requires |kept| == |ix| && forall k :: 0 <= k < |ix| ==> kept[k] == cols[ix[k]]
    ensures |kept| <= |cols|
    ensures forall c :: c in kept ==> c in cols && NonMissing(c.cells) >= thresh
    ensures forall c :: c in cols && NonMissing(c.cells) >= thresh ==> c in kept
    ensures FirstKept(cols, kept, thresh)
    ensures forall n: nat :: SameHeight(cols, n) ==> SameHeight(kept, n)
  {
    IncreasingBounded(ix, |cols|);
    KeptHeight(cols, ix, kept);
    KeptSound(cols, thresh, ix, kept);
    KeptComplete(cols, thresh, ix, kept);
    if |ix| > 0 {
      KeptFirst(cols, thresh, ix);
      assert kept[0] == cols[ix[0]];
    }
  }

  lemma KeptHeight(cols: seq<Column>, ix: seq<nat>, kept: seq<Column>)
    requires |kept| == |ix| && forall k :: 0 <= k < |ix| ==> ix[k] < |cols| && kept[k] == cols[ix[k]]
    ensures forall n: nat :: SameHeight(cols, n) ==> SameHeight(kept, n)
  {
    forall n: nat | SameHeight(cols, n)
      ensures SameHeight(kept, n)
    {
      forall k | 0 <= k < |kept|
        ensures |kept[k].cells| == n
      {
        assert kept[k] == cols[ix[k]];
      }
    }
  }

  lemma KeptSound(cols: seq<Column>, thresh: nat, ix: seq<nat>, kept: seq<Column>)
    requires forall k :: 0 <= k < |ix| ==> ix[k] < |cols| && NonMissing(cols[ix[k]].cells) >= thresh
    requires |kept| == |ix| && forall k :: 0 <= k < |ix| ==> ix[k] < |cols| && kept[k] == cols[ix[k]]
    ensures forall c :: c in kept ==> c in cols && NonMissing(c.cells) >= thresh
  {
    forall c | c in kept
      ensures c in cols && NonMissing(c.cells) >= thresh
    {
      var k :| 0 <= k < |kept| && kept[k] == c;
      assert cols[ix[k]] == c;
    }
  }

  lemma KeptComplete(cols: seq<Column>, thresh: nat, ix: seq<nat>, kept: seq<Column>)
    requires forall j :: 0 <= j < |cols| && NonMissing(cols[j].cells) >= thresh ==> j in ix
    requires |kept| == |ix| && forall k :: 0 <= k < |ix| ==> ix[k] < |cols| && kept[k] == cols[ix[k]]
    ensures forall c :: c in cols && NonMissing(c.cells) >= thresh ==> c in kept
  {
    forall c | c in cols && NonMissing(c.cells) >= thresh
      ensures c in kept
    {
      var j :| 0 <= j < |cols| && cols[j] == c;
      var k :| 0 <= k < |ix| && ix[k] == j;
      assert kept[k] == c;
    }
  }

  /** No column before the first kept position participates. */
  lemma KeptFirst(cols: seq<Column>, thresh: nat, ix: seq<nat>)
    requires |ix| > 0 && ix[0] < |cols|
    requires forall k, l :: 0 <= k < l < |ix| ==> ix[k] < ix[l]
    requires forall j :: 0 <= j < |cols| && NonMissing(cols[j].cells) >= thresh ==> j in ix
    ensures forall i :: 0 <= i < ix[0] ==> NonMissing(cols[i].cells) < thresh
  {
    forall k | 0 <= k < |ix|
      ensures ix[0] <= ix[k]
    {
      if k > 0 {
        assert ix[0] < ix[k];
      }
    }
  }

  /** A strictly increasing sequence of numbers below `n` has at most `n` elements. */
  lemma {:induction false} IncreasingBounded(ix: seq<nat>, n: nat)
    requires forall k :: 0 <= k < |ix| ==> ix[k] < n
    requires forall k, l :: 0 <= k < l < |ix| ==> ix[k] < ix[l]
    ensures |ix| <= n
  {
    if |ix| > 0 {
      var last := ix[|ix| - 1];
      IncreasingBounded(ix[..|ix| - 1], last);
    }
  }

  // ---------------------------------------------------------------------------
  // Numeric conversion (`fillna(0)` / `astype(int)` on numeric columns)
  // ---------------------------------------------------------------------------

  /**
   * The integer values of a column, a missing cell counting as 0 (pandas'
   * `sum` skips NaN); `None` when some cell holds text.
   */
  function NumericValues(cells: seq<Cell>): (r: Option<seq<int>>)
    ensures r.None? <==> exists i :: 0 <= i < |cells| && cells[i].Text?
    ensures r.Some? ==> |r.value| == |cells|
    ensures r.Some? ==> forall i :: 0 <= i < |cells| ==>
      r.value[i] == (if cells[i].Num? then cells[i].n else 0)
  {
    if |cells| == 0 then Some([])
    else
      var init := cells[..|cells| - 1];
      var last := cells[|cells| - 1];
      assert forall i :: 0 <= i < |init| ==> init[i] == cells[i];
      match NumericValues(init)
      case None => None
      case Some(vs) =>
        match last
        case Text(_) => None
        case Missing => Some(vs + [0])
        case Num(v) => Some(vs + [v])
  }

  // ---------------------------------------------------------------------------
  // Sorted distinct labels (the group keys of `groupby`)
  // ---------------------------------------------------------------------------

  predicate StrictlySorted(s: seq<string>) {
    forall i, j :: 0 <= i < j < |s| ==> LexLess(s[i], s[j])
  }

  lemma SortedDistinct(s: seq<string>, i: nat, j: nat)
    requires StrictlySorted(s) && i < j < |s|
    ensures s[i] != s[j]
  {
    LexLessIrreflexive(s[i]);
  }

  /** Adds `x` to a strictly sorted sequence, keeping it strictly sorted. */
  function Insert(x: string, s: seq<string>): (r: seq<string>)
    requires StrictlySorted(s)
    ensures StrictlySorted(r)
    ensures forall y :: y in r <==> y == x || y in s
    ensures x in s ==> r == s
  {
    if |s| == 0 then [x]
    else if x == s[0] then s
    else if LexLess(x, s[0]) then
      assert forall j :: 0 <= j < |s| ==> LexLess(x, s[j]) by {
        forall j | 0 <= j < |s| ensures LexLess(x, s[j]) {
          if j > 0 {
            LexLessTransitive(x, s[0], s[j]);
          }
        }
      }
      assert x !in s by {
        forall j | 0 <= j < |s| ensures s[j] != x {
          LexLessIrreflexive(x);
        }
      }
      [x] + s
    else
      LexLessTotal(x, s[0]);
      var rest := Insert(x, s[1..]);
      assert forall y :: y in rest ==> LexLess(s[0], y);
      assert x in s ==> x in s[1..] by {
        if x in s {
          var j :| 0 <= j < |s| && s[j] == x;
          assert j != 0;
          assert s[1..][j - 1] == x;
        }
      }
      assert s == [s[0]] + s[1..];
      [s[0]] + rest
  }

  /** The distinct elements of `xs`, each once, in Python's string order. */
  function SortedLabels(xs: seq<string>): (r: seq<string>)
    ensures StrictlySorted(r)
    ensures forall y :: y in r <==> y in xs
  {
    if |xs| == 0 then []
    else
      var init := xs[..|xs| - 1];
      assert xs == init + [xs[|xs| - 1]];
      Insert(xs[|xs| - 1], SortedLabels(init))
  }

  // ---------------------------------------------------------------------------
  // Summing same-label columns
  // ---------------------------------------------------------------------------

  function Labels(cols: seq<Summed>): (ls: seq<string>)
    ensures |ls| == |cols| && forall j :: 0 <= j < |cols| ==> ls[j] == cols[j].name
  {
    seq(|cols|, j requires 0 <= j < |cols| => cols[j].name)
  }

  /** Row `r` of the sum of the columns labelled `key`. */
  function LabelSum(cols: seq<Summed>, key: string, r: nat): int
    requires forall j :: 0 <= j < |cols| ==> r < |cols[j].values|
  {
    if |cols| == 0 then 0
    else
      var last := cols[|cols| - 1];
      LabelSum(cols[..|cols| - 1], key, r) + (if last.name == key then last.values[r] else 0)
  }

  /** Row `r` of the sum of every column. */
  function RowTotal(cols: seq<Summed>, r: nat): int
    requires forall j :: 0 <= j < |cols| ==> r < |cols[j].values|
  {
    if |cols| == 0 then 0
    else RowTotal(cols[..|cols| - 1], r) + cols[|cols| - 1].values[r]
  }

  /**
   * `groupby(by=df.columns, axis=1).sum()`: one column per distinct label, in
   * sorted label order, each row the sum of that row over the columns with
   * that label.
   */
  function GroupByLabel(cols: seq<Summed>, n: nat): (out: seq<Summed>)
    requires SummedHeight(cols, n)
    ensures Labels(out) == SortedLabels(Labels(cols))
    ensures SummedHeight(out, n)
    ensures forall k, r :: 0 <= k < |out| && 0 <= r < n ==>
      out[k].values[r] == LabelSum(cols, out[k].name, r)
  {
    var ls := SortedLabels(Labels(cols));
    var out := seq(|ls|, k requires 0 <= k < |ls| =>
      Summed(ls[k], seq(n, r requires 0 <= r < n => LabelSum(cols, ls[k], r))));
    assert Labels(out) == ls;
    out
  }

  /** The sum over the labels `ls` of the label sums of `cols` at row `r`. */
  function SumOverLabels(ls: seq<string>, cols: seq<Summed>, r: nat): int
    requires forall j :: 0 <= j < |cols| ==> r < |cols[j].values|
  {
    if |ls| == 0 then 0
    else SumOverLabels(ls[..|ls| - 1], cols, r) + LabelSum(cols, ls[|ls| - 1], r)
  }

  function Occurrences(ls: seq<string>, x: string): nat {
    if |ls| == 0 then 0
    else Occurrences(ls[..|ls| - 1], x) + (if ls[|ls| - 1] == x then 1 else 0)
  }

  lemma {:induction false} OccurrencesOfSorted(ls: seq<string>, x: string)
    requires StrictlySorted(ls)
    ensures Occurrences(ls, x) == (if x in ls then 1 else 0)
  {
    if |ls| > 0 {
      var init := ls[..|ls| - 1];
      assert StrictlySorted(init);
      OccurrencesOfSorted(init, x);
      if ls[|ls| - 1] == x {
        assert x !in init by {
          forall i | 0 <= i < |init| ensures init[i] != x {
            SortedDistinct(ls, i, |ls| - 1);
          }
        }
      }
      assert ls == init + [ls[|ls| - 1]];
    }
  }

  lemma {:induction false} SumOverLabelsEmpty(ls: seq<string>, r: nat)
    ensures SumOverLabels(ls, [], r) == 0
  {
    if |ls| > 0 {
      SumOverLabelsEmpty(ls[..|ls| - 1], r);
    }
  }

  /** Appending a column adds its value once per occurrence of its label in `ls`. */
  lemma {:induction false} SumOverLabelsSnoc(ls: seq<string>, cols: seq<Summed>, c: Summed, r: nat)
    requires forall j :: 0 <= j < |cols| ==> r < |cols[j].values|
    requires r < |c.values|
    ensures SumOverLabels(ls, cols + [c], r)
         == SumOverLabels(ls, cols, r) + Occurrences(ls, c.name) * c.values[r]
  {
    var cs := cols + [c];
    assert cs[..|cs| - 1] == cols;
    if |ls| > 0 {
      SumOverLabelsSnoc(ls[..|ls| - 1], cols, c, r);
    }
  }

  /** Summing the label sums over a duplicate-free cover of the labels gives the row total. */
  lemma {:induction false} SumOverLabelsIsTotal(ls: seq<string>, cols: seq<Summed>, r: nat)
    requires StrictlySorted(ls)
    requires forall j :: 0 <= j < |cols| ==> r < |cols[j].values| && cols[j].name in ls
    ensures SumOverLabels(ls, cols, r) == RowTotal(cols, r)
  {
    if |cols| == 0 {
      SumOverLabelsEmpty(ls, r);
    } else {
      var init := cols[..|cols| - 1];
      var c := cols[|cols| - 1];
      assert cols == init + [c];
      SumOverLabelsIsTotal(ls, init, r);
      SumOverLabelsSnoc(ls, init, c, r);
      OccurrencesOfSorted(ls, c.name);
    }
  }

  lemma {:induction false} SumOverLabelsOfGroups(out: seq<Summed>, cols: seq<Summed>, n: nat, r: nat)
    requires SummedHeight(out, n) && SummedHeight(cols, n) && r < n
    requires forall k :: 0 <= k < |out| ==> out[k].values[r] == LabelSum(cols, out[k].name, r)
    ensures RowTotal(out, r) == SumOverLabels(Labels(out), cols, r)
  {
    if |out| > 0 {
      var init := out[..|out| - 1];
      assert Labels(out)[..|out| - 1] == Labels(init);
      SumOverLabelsOfGroups(init, cols, n, r);
    }
  }

  /**
   * Grouping neither loses nor invents points: in every row, the grouped
   * columns add up to the same total as the original columns.
   */
  lemma GroupByLabelPreservesRowTotals(cols: seq<Summed>, n: nat, r: nat)
    requires SummedHeight(cols, n) && r < n
    ensures RowTotal(GroupByLabel(cols, n), r) == RowTotal(cols, r)
  {
    var out := GroupByLabel(cols, n);
    SumOverLabelsOfGroups(out, cols, n, r);
    var ls := Labels(out);
    forall j | 0 <= j < |cols| ensures cols[j].name in ls {
      assert cols[j].name in Labels(cols);
    }
    SumOverLabelsIsTotal(ls, cols, r);
  }

  /** Every input label becomes exactly one output column, and no other column appears. */
  lemma GroupByLabelColumns(cols: seq<Summed>, n: nat, key: string)
    requires SummedHeight(cols, n)
    ensures (exists j :: 0 <= j < |cols| && cols[j].name == key)
        <==> Occurrences(Labels(GroupByLabel(cols, n)), key) == 1
    ensures Occurrences(Labels(GroupByLabel(cols, n)), key) <= 1
  {
    var ls := Labels(GroupByLabel(cols, n));
    OccurrencesOfSorted(ls, key);
    if exists j :: 0 <= j < |cols| && cols[j].name == key {
      var j :| 0 <= j < |cols| && cols[j].name == key;
      assert key in Labels(cols);
    } else {
      assert key !in Labels(cols);
    }
  }
}

=== FILE: tsk.dfy ===
/**
 * The TSK aggregator.  Its export is a grid whose first five rows are
 * headers (unit, lesson, title, category, date) and whose first three
 * columns are last name, first name and ID.
 *
 * The header rows are folded left to right into "<lesson> <kind>" labels.
 * The name columns become one "Last, First" Student column, and sparse
 * columns are dropped.  Cell text is then coerced to points, a max-score
 * row is put on top, and the columns that share a label are summed.
 */
module Tsk {
  import opened Wrappers
  import opened Strings
  import opened Table

  /**
   * Why `aggregate` stops with an exception.  Header columns count from 0 in
   * the sheet; scored columns count from 0 in the working table, where the
   * Student column comes first; rows count among the students.
   */
  datatype Failure =
    | TooFewColumns
    | TooFewRows
    | BadUnit(col: nat)
    | BadLesson(col: nat)
    | BadTitle(col: nat)
    | NumericName(row: nat)
    | BadFraction(col: nat, row: nat)
    | ZeroPossible(col: nat, row: nat)
    | StudentDropped
    | NotNumeric(col: nat, row: nat)

  // ---------------------------------------------------------------------------
  // Header fold
  // ---------------------------------------------------------------------------

  /** Rows 0 to 3 of one assignment column. */
  datatype HeaderCells = HeaderCells(unit: Cell, lesson: Cell, title: Cell, category: Cell)

  predicate HeaderFailure(e: Failure) {
    e.BadUnit? || e.BadLesson? || e.BadTitle?
  }

  /** The failures of the cell stage, after the working table is built. */
  predicate ScoringFailure(e: Failure) {
    e.BadFraction? || e.ZeroPossible? || e.StudentDropped? || e.NotNumeric?
  }

  /** What the fold carries from one column to the next. */
  datatype Carry = Carry(unit: string, lesson: string)

  const Start: Carry := Carry("0", "")

  /**
   * The lesson token of a row-1 header: "Lesson " removed everywhere, then
   * the text before the first ":".  Without a ":" the source's `find`
   * returns -1, so the token is all but the last character.
   */
  function LessonToken(text: string): (tok: string)
    ensures forall i :: 0 <= i < |tok| ==> tok[i] != ':'
  {
    var l := ReplaceAll(text, "Lesson ", "");
    match IndexOf(l, ":")
    case Some(i) =>
      assert forall j :: 0 <= j < i ==> l[j] != ':' by {
        forall j | 0 <= j < i ensures l[j] != ':' {
          assert !MatchAt(l, ":", j) && l[j..j + 1] == [l[j]];
        }
      }
      l[..i]
    case None =>
      assert forall j :: 0 <= j < |l| ==> l[j] != ':' by {
        forall j | 0 <= j < |l| ensures l[j] != ':' {
          assert !MatchAt(l, ":", j) && l[j..j + 1] == [l[j]];
        }
      }
      l[..if |l| > 0 then |l| - 1 else 0]
  }

  /**
   * The lesson after a row-1 token: "Q" appends "Q", a number or "T" starts
   * lesson "<unit>.<token>", and any other token leaves the lesson alone.
   */
  function NextLesson(lesson: string, unit: string, tok: string): string {
    if tok == "Q" then lesson + "Q"
    else if IsDigits(tok) || tok == "T" then unit + "." + tok
    else lesson
  }

  /** The three kinds a TSK column can have. */
  predicate KindLabel(heading: string) {
    EndsWith(heading, " Assignment") || EndsWith(heading, " Quiz") || EndsWith(heading, " Exam")
  }

  /** The kind of a column: only an Assessment column can be a Quiz or an Exam. */
  function Classify(lesson: string, h: HeaderCells, col: nat): (r: Result<string, Failure>)
    ensures r.Ok? ==> r.value in ["Assignment", "Quiz", "Exam"]
    ensures r.Err? <==> h.category == Text("Assessment") && !h.title.Text?
    ensures h.category != Text("Assessment") ==> r == Ok("Assignment")
    ensures r == Ok("Exam") <==>
      h.category == Text("Assessment") && h.title.Text? && EndsWith(lesson, "T") &&
      !StartsWith(h.title.s, "Practice Test") && !EndsWith(h.title.s, "Lesson Check")
  {
    if h.category != Text("Assessment") then Ok("Assignment")
    else if !h.title.Text? then Err(BadTitle(col))
    else if StartsWith(h.title.s, "Practice Test") || EndsWith(h.title.s, "Lesson Check") then Ok("Assignment")
    else if EndsWith(lesson, "T") then Ok("Exam")
    else Ok("Quiz")
  }

  /**
   * A header the fold refuses whatever it carries: a row-0 unit that is not
   * text of six or more characters, a numeric lesson, or an assessment
   * without a text title.
   */
  predicate BadHeader(h: HeaderCells) {
    (h.unit != Missing && !(h.unit.Text? && |h.unit.s| > 5)) || h.lesson.Num? ||
    (h.category == Text("Assessment") && !h.title.Text?)
  }

  predicate AnyBadHeader(hs: seq<HeaderCells>) {
    exists k :: 0 <= k < |hs| && BadHeader(hs[k])
  }

  /** The carry after a column, that column's kind and its label "<lesson> <kind>". */
  datatype Step = Step(carry: Carry, kind: string, heading: string)

  /**
   * One column of the header fold.  A blank row-0 or row-1 cell keeps the
   * carried unit or lesson; a present one must be text (the unit needs a
   * sixth character).
   */
  function HeaderStep(c: Carry, h: HeaderCells, col: nat): (r: Result<Step, Failure>)
    ensures r.Err? <==> BadHeader(h)
    ensures r.Err? ==> HeaderFailure(r.error)
    ensures r.Ok? && h.unit == Missing ==> r.value.carry.unit == c.unit
    ensures r.Ok? && h.unit != Missing ==> r.value.carry.unit == [h.unit.s[5]]
    ensures r.Ok? && h.lesson == Missing ==> r.value.carry.lesson == c.lesson
    ensures r.Ok? && h.lesson.Text? ==>
      r.value.carry.lesson == NextLesson(c.lesson, r.value.carry.unit, LessonToken(h.lesson.s))
    ensures r.Ok? ==> r.value.kind in ["Assignment", "Quiz", "Exam"]
    ensures r.Ok? ==> r.value.heading == r.value.carry.lesson + " " + r.value.kind
    ensures r.Ok? && r.value.kind == "Exam" ==> EndsWith(r.value.carry.lesson, "T")
  {
    if h.unit != Missing && !(h.unit.Text? && |h.unit.s| > 5) then Err(BadUnit(col))
    else
      var unit := if h.unit == Missing then c.unit else [h.unit.s[5]];
      if h.lesson.Num? then Err(BadLesson(col))
      else
        var lesson := if h.lesson == Missing then c.lesson else NextLesson(c.lesson, unit, LessonToken(h.lesson.s));
        match Classify(lesson, h, col)
        case Err(e) => Err(e)
        case Ok(kind) => Ok(Step(Carry(unit, lesson), kind, lesson + " " + kind))
  }

  // ---------------------------------------------------------------------------
  // The shape of lessons
  // ---------------------------------------------------------------------------

  /** The number of "Q"s a text ends with. */
  function TrailingQs(s: string): (k: nat)
    ensures k <= |s|
    ensures forall i :: |s| - k <= i < |s| ==> s[i] == 'Q'
    ensures k < |s| ==> s[|s| - k - 1] != 'Q'
  {
    if |s| == 0 || s[|s| - 1] != 'Q' then 0
    else
      var k := 1 + TrailingQs(s[..|s| - 1]);
      assert forall i :: |s| - k <= i < |s| - 1 ==> s[i] == s[..|s| - 1][i];
      k
  }

  /** A lesson is a run of "Q"s, or "<unit>.<number or T>" followed by a run of "Q"s. */
  predicate LessonShaped(lesson: string) {
    var core := lesson[..|lesson| - TrailingQs(lesson)];
    core == [] || (|core| >= 3 && core[1] == '.' && (IsDigits(core[2..]) || core[2..] == "T"))
  }

  /** The fold's invariant: a one-character unit and a well-shaped lesson. */
  predicate Carried(c: Carry) {
    |c.unit| == 1 && LessonShaped(c.lesson)
  }

  lemma LessonShapedAppendQ(l: string)
    requires LessonShaped(l)
    ensures LessonShaped(l + "Q")
  {
    var s := l + "Q";
    assert s[..|s| - 1] == l;
    assert TrailingQs(s) == TrailingQs(l) + 1;
    assert s[..|s| - TrailingQs(s)] == l[..|l| - TrailingQs(l)];
  }

  lemma LessonShapedFresh(unit: string, tok: string)
    requires |unit| == 1 && (IsDigits(tok) || tok == "T")
    ensures LessonShaped(unit + "." + tok)
  {
    var s := unit + "." + tok;
    assert s[|s| - 1] == tok[|tok| - 1];
    assert TrailingQs(s) == 0;
    assert s[..|s|] == s;
    assert s[2..] == tok;
  }

  /** A well-shaped lesson that ends in "T" is exactly "<unit>.T". */
  lemma ExamLesson(l: string)
    requires LessonShaped(l) && EndsWith(l, "T")
    ensures |l| == 3 && l[1..] == ".T"
  {
    assert l[|l| - 1] == 'T';
    assert TrailingQs(l) == 0;
    assert l[..|l|] == l;
    assert l[|l| - 1] == l[2..][|l[2..]| - 1];
  }

  /** Every step keeps the invariant. */
  lemma HeaderStepCarried(c: Carry, h: HeaderCells, col: nat)
    requires Carried(c) && HeaderStep(c, h, col).Ok?
    ensures Carried(HeaderStep(c, h, col).value.carry)
  {
    var s := HeaderStep(c, h, col).value.carry;
    if h.lesson.Text? {
      var tok := LessonToken(h.lesson.s);
      if tok == "Q" {
        LessonShapedAppendQ(c.lesson);
      } else if IsDigits(tok) || tok == "T" {
        LessonShapedFresh(s.unit, tok);
      }
    }
  }

  /** The kind word a label ends with. */
  function KindWord(heading: string): (w: string)
    requires KindLabel(heading)
    ensures w in ["Assignment", "Quiz", "Exam"] && EndsWith(heading, " " + w)
  {
    if EndsWith(heading, " Assignment") then "Assignment"
    else if EndsWith(heading, " Quiz") then "Quiz"
    else "Exam"
  }

  /** The lesson in front of a label's kind word. */
  function LessonOf(heading: string): string
    requires KindLabel(heading)
  {
    heading[..|heading| - |KindWord(heading)| - 1]
  }

  /**
   * A TSK label: a lesson with no whitespace after its first character, a
   * space and its kind word; an Exam's lesson is "<unit>.T".
   */
  predicate GoodLabel(heading: string) {
    KindLabel(heading) && (LessonOf(heading) == [] || NoSpace(LessonOf(heading)[1..])) &&
    (EndsWith(heading, " Exam") ==> |LessonOf(heading)| == 3 && LessonOf(heading)[1..] == ".T")
  }

  /** A label splits into its lesson, a space and its kind word. */
  lemma GoodLabelParts(heading: string)
    requires GoodLabel(heading)
    ensures heading == LessonOf(heading) + " " + KindWord(heading)
  {
    var w := KindWord(heading);
    SplitSuffix(heading, " " + w);
    Assoc3(LessonOf(heading), " ", w);
  }

  /** A lesson, a space and a kind word make a label of that kind and lesson. */
  lemma KindLabelOf(l: string, kind: string)
    requires kind in ["Assignment", "Quiz", "Exam"]
    ensures KindLabel(l + " " + kind) && KindWord(l + " " + kind) == kind && LessonOf(l + " " + kind) == l
  {
    var t := l + " " + kind;
    Assoc3(l, " ", kind);
    EndsWithAppend(l, " " + kind);
    KindWordOf(t, kind);
    assert |t| - |kind| - 1 == |l|;
  }

  /** The kind word of a label is the one it ends with. */
  lemma KindWordOf(t: string, kind: string)
    requires kind in ["Assignment", "Quiz", "Exam"] && EndsWith(t, " " + kind)
    ensures KindLabel(t) && KindWord(t) == kind
  {
    if kind == "Quiz" {
      QuizNotAssignment(t);
    } else if kind == "Exam" {
      ExamNotOther(t);
    }
  }

  lemma QuizNotAssignment(t: string)
    requires EndsWith(t, " Quiz")
    ensures !EndsWith(t, " Assignment")
  {
    var q := " Quiz";
    assert t[|t| - 1] == q[4];
    NotEndsWithLast(t, " Assignment");
  }

  lemma ExamNotOther(t: string)
    requires EndsWith(t, " Exam")
    ensures !EndsWith(t, " Assignment") && !EndsWith(t, " Quiz")
  {
    var e := " Exam";
    assert t[|t| - 1] == e[4];
    NotEndsWithLast(t, " Assignment");
    NotEndsWithLast(t, " Quiz");
  }

  /** Only an Exam label ends in "m". */
  lemma OtherNotExam(t: string)
    requires EndsWith(t, " Assignment") || EndsWith(t, " Quiz")
    ensures !EndsWith(t, " Exam")
  {
    var a := " Assignment";
    var q := " Quiz";
    if EndsWith(t, " Assignment") {
      assert t[|t| - 1] == a[10];
    } else {
      assert t[|t| - 1] == q[4];
    }
    NotEndsWithLast(t, " Exam");
  }

  /** Only the unit character of a lesson can be whitespace. */
  lemma LessonNoSpace(l: string)
    requires LessonShaped(l) && |l| > 0
    ensures NoSpace(l[1..])
  {
    var q := TrailingQs(l);
    forall i | 1 <= i < |l|
      ensures !IsSpace(l[i])
    {
      if i < |l| - q {
        var core := l[..|l| - q];
        assert core[i] == l[i];
        if i >= 2 {
          assert core[2..][i - 2] == l[i];
        }
      }
    }
  }

  lemma StepLabelGood(c: Carry, h: HeaderCells, col: nat)
    requires Carried(c) && HeaderStep(c, h, col).Ok?
    ensures GoodLabel(HeaderStep(c, h, col).value.heading)
  {
    var st := HeaderStep(c, h, col).value;
    HeaderStepCarried(c, h, col);
    KindHeadingGood(st.carry.lesson, st.kind);
  }

  lemma KindHeadingGood(l: string, kind: string)
    requires kind in ["Assignment", "Quiz", "Exam"]
    requires LessonShaped(l) && (kind == "Exam" ==> EndsWith(l, "T"))
    ensures GoodLabel(l + " " + kind)
  {
    var t := l + " " + kind;
    KindLabelOf(l, kind);
    if |l| > 0 {
      LessonNoSpace(l);
    }
    if kind == "Exam" {
      ExamLesson(l);
    } else {
      OtherNotExam(t);
    }
  }

  /** The carry after every column and the labels in column order. */
  datatype Folded = Folded(carry: Carry, labels: seq<string>)

  /** The header fold over the assignment columns, left to right; the first failing column stops it. */
  function HeaderFold(hs: seq<HeaderCells>): (r: Result<Folded, Failure>)
    ensures r.Err? <==> AnyBadHeader(hs)
    ensures r.Err? ==> HeaderFailure(r.error)
    ensures r.Ok? ==> |r.value.labels| == |hs| && Carried(r.value.carry)
    ensures r.Ok? ==> forall k :: 0 <= k < |hs| ==> GoodLabel(r.value.labels[k])
  {
    if |hs| == 0 then Ok(Folded(Start, []))
    else
      var init := hs[..|hs| - 1];
      AnyBadHeaderSnoc(hs);
      match HeaderFold(init)
      case Err(e) => Err(e)
      case Ok(f) =>
        var col := |hs| + 2;
        match HeaderStep(f.carry, hs[|hs| - 1], col)
        case Err(e) => Err(e)
        case Ok(s) =>
          HeaderStepCarried(f.carry, hs[|hs| - 1], col);
          StepLabelGood(f.carry, hs[|hs| - 1], col);
          GoodLabelsSnoc(f.labels, s.heading);
          Ok(Folded(s.carry, f.labels + [s.heading]))
  }

  lemma AnyBadHeaderSnoc(hs: seq<HeaderCells>)
    requires |hs| > 0
    ensures AnyBadHeader(hs) <==> AnyBadHeader(hs[..|hs| - 1]) || BadHeader(hs[|hs| - 1])
  {
    var init := hs[..|hs| - 1];
    if AnyBadHeader(init) {
      var k :| 0 <= k < |init| && BadHeader(init[k]);
      assert hs[k] == init[k];
    }
    if AnyBadHeader(hs) {
      var k :| 0 <= k < |hs| && BadHeader(hs[k]);
      if k < |init| {
        assert init[k] == hs[k];
      }
    }
  }

  lemma GoodLabelsSnoc(labels: seq<string>, heading: string)
    requires forall k :: 0 <= k < |labels| ==> GoodLabel(labels[k])
    requires GoodLabel(heading)
    ensures forall k :: 0 <= k < |labels| + 1 ==> GoodLabel((labels + [heading])[k])
  {
    forall k | 0 <= k < |labels| + 1
      ensures GoodLabel((labels + [heading])[k])
    {
      if k < |labels| {
        assert (labels + [heading])[k] == labels[k];
      }
    }
  }

  /**
   * The unit carried out of the fold is the sixth character of the last
   * non-blank row-0 header.
   */
  lemma {:induction false} FoldUnitIsLastNamed(hs: seq<HeaderCells>, k: nat)
    requires HeaderFold(hs).Ok?
    requires k < |hs| && hs[k].unit != Missing
    requires forall j :: k < j < |hs| ==> hs[j].unit == Missing
    ensures hs[k].unit.Text? && |hs[k].unit.s| > 5
    ensures HeaderFold(hs).value.carry.unit == [hs[k].unit.s[5]]
  {
    var init := hs[..|hs| - 1];
    var f := HeaderFold(init).value;
    assert HeaderFold(hs).value.carry == HeaderStep(f.carry, hs[|hs| - 1], |hs| + 2).value.carry;
    if k < |hs| - 1 {
      FoldUnitIsLastNamed(init, k);
    }
  }

  /** With every row-0 header blank the unit stays "0". */
  lemma {:induction false} FoldUnitDefault(hs: seq<HeaderCells>)
    requires HeaderFold(hs).Ok?
    requires forall j :: 0 <= j < |hs| ==> hs[j].unit == Missing
    ensures HeaderFold(hs).value.carry.unit == "0"
  {
    if |hs| > 0 {
      var init := hs[..|hs| - 1];
      var f := HeaderFold(init).value;
      assert HeaderFold(hs).value.carry == HeaderStep(f.carry, hs[|hs| - 1], |hs| + 2).value.carry;
      FoldUnitDefault(init);
    }
  }

  // ---------------------------------------------------------------------------
  // Cell clean-up: `fillna(0)` and the `replace` calls
  // ---------------------------------------------------------------------------

  /** The end of the line that position `i` is on: the next "\n" or the end of the text. */
  function LineEnd(t: string, i: nat): (e: nat)
    requires i <= |t|
    ensures i <= e <= |t|
    ensures forall j :: i <= j < e ==> t[j] != '\n'
    ensures e < |t| ==> t[e] == '\n'
  {
    var r := BeforeChar(t[i..], '\n');
    assert forall j :: i <= j < i + |r| ==> t[j] == r[j - i];
    i + |r|
  }

  /** Any position with no line break between `i` and it, and a line break or the end at it, is the line end. */
  lemma LineEndAt(t: string, i: nat, e: nat)
    requires i <= e <= |t|
    requires forall j :: i <= j < e ==> t[j] != '\n'
    requires e < |t| ==> t[e] == '\n'
    ensures LineEnd(t, i) == e
  {
    var f := LineEnd(t, i);
    assert f < |t| ==> t[f] == '\n';
  }

  const LinesOfCode := " lines of code"

  lemma LinesOfCodeShape()
    ensures Unbordered(LinesOfCode)
    ensures forall k :: 0 <= k < |LinesOfCode| ==> LinesOfCode[k] != '\n'
  {
    assert '\n' !in LinesOfCode;
    forall d | 0 < d < |LinesOfCode|
      ensures LinesOfCode[d..] != LinesOfCode[..|LinesOfCode| - d]
    {
      if d == 6 || d == 9 {
        assert LinesOfCode[d + 1] != 'l';
        assert LinesOfCode[d..][1] != LinesOfCode[..|LinesOfCode| - d][1];
      } else {
        assert LinesOfCode[d] != ' ';
        assert LinesOfCode[d..][0] != LinesOfCode[..|LinesOfCode| - d][0];
      }
    }
  }

  /** Each occurrence of " lines of code" goes, with the rest of its line. */
  function DropLinesOfCode(t: string): (r: string)
    ensures |r| <= |t|
    decreases |t|
  {
    match IndexOf(t, LinesOfCode)
    case None => t
    case Some(i) =>
      assert t[i] == ' ';
      t[..i] + DropLinesOfCode(t[LineEnd(t, i)..])
  }

  /**
   * The first " lines of code" goes together with whatever follows it up to
   * the next line break, and the search resumes at that line break.
   */
  lemma DropLinesOfCodeAt(p: string, q: string, rest: string)
    requires !Contains(p, LinesOfCode)
    requires forall k :: 0 <= k < |q| ==> q[k] != '\n'
    requires rest == [] || rest[0] == '\n'
    ensures DropLinesOfCode(p + LinesOfCode + q + rest) == p + DropLinesOfCode(rest)
  {
    var t := p + LinesOfCode + q + rest;
    LinesOfCodeShape();
    FirstMatchAfter(p, LinesOfCode, q + rest);
    assert p + LinesOfCode + (q + rest) == t;
    var e := |p| + |LinesOfCode| + |q|;
    forall j | |p| <= j < e
      ensures t[j] != '\n'
    {
      if j < |p| + |LinesOfCode| {
        assert t[j] == LinesOfCode[j - |p|];
      } else {
        assert t[j] == q[j - |p| - |LinesOfCode|];
      }
    }
    assert e < |t| ==> t[e] == rest[0];
    LineEndAt(t, |p|, e);
    assert t[..|p|] == p;
    assert t[e..] == rest;
  }

  /** On a single line, everything from the first " lines of code" on goes. */
  lemma DropLinesOfCodeLine(p: string, q: string)
    requires !Contains(p, LinesOfCode)
    requires forall k :: 0 <= k < |q| ==> q[k] != '\n'
    ensures DropLinesOfCode(p + LinesOfCode + q) == p
  {
    DropLinesOfCodeAt(p, q, []);
    assert p + LinesOfCode + q + [] == p + LinesOfCode + q;
    assert !Contains([], LinesOfCode);
  }

  /** Everything from the first "\n" on goes. */
  function FirstLine(t: string): (r: string)
    ensures |r| <= |t|
    ensures forall i :: 0 <= i < |r| ==> r[i] != '\n'
  {
    BeforeChar(t, '\n')
  }

  /** The first line is a prefix of the text, ended by a line break or by the end of the text. */
  lemma FirstLineIsLine(t: string)
    ensures StartsWith(t, FirstLine(t))
    ensures |FirstLine(t)| < |t| ==> t[|FirstLine(t)|] == '\n'
  {
  }

  /** The position of the last `ch` in `t`. */
  function LastIndexOf(t: string, ch: char): (r: Option<nat>)
    ensures r.Some? ==> r.value < |t| && t[r.value] == ch && forall j :: r.value < j < |t| ==> t[j] != ch
    ensures r.None? ==> forall j :: 0 <= j < |t| ==> t[j] != ch
  {
    if |t| == 0 then None
    else if t[|t| - 1] == ch then Some(|t| - 1)
    else LastIndexOf(t[..|t| - 1], ch)
  }

  /** A position holding `ch` with no `ch` after it is the last one. */
  lemma LastIndexOfAt(t: string, ch: char, k: nat)
    requires k < |t| && t[k] == ch
    requires forall j :: k < j < |t| ==> t[j] != ch
    ensures LastIndexOf(t, ch) == Some(k)
  {
    var r := LastIndexOf(t, ch);
    assert r.Some?;
    assert t[r.value] == ch;
  }

  /**
   * A parenthetical on a one-line text goes: from the first " (" through the
   * last ")", provided at least one character lies between them.
   */
  function DropParenthetical(t: string): (r: string)
    ensures |r| <= |t|
    ensures (forall i :: 0 <= i < |t| ==> t[i] != '\n') ==> forall i :: 0 <= i < |r| ==> r[i] != '\n'
  {
    match IndexOf(t, " (")
    case None => t
    case Some(i) =>
      match LastIndexOf(t, ')')
      case None => t
      case Some(j) =>
        if j >= i + 3 then
          var r := t[..i] + t[j + 1..];
          assert forall k :: 0 <= k < |r| ==> r[k] == (if k < i then t[k] else t[k - i + j + 1]);
          r
        else t
  }

  /**
   * " (", something, ")" goes, with any ")" inside kept in the cut since the
   * match runs to the last one; the text before and after it stays.
   */
  lemma DropParentheticalAt(a: string, m: string, z: string)
    requires !Contains(a, " (") && |m| >= 1
    requires forall k :: 0 <= k < |z| ==> z[k] != ')'
    ensures DropParenthetical(a + " (" + m + ")" + z) == a + z
  {
    var t := a + " (" + m + ")" + z;
    assert Unbordered(" (") by {
      forall d | 0 < d < 2
        ensures " ("[d..] != " ("[..2 - d]
      {
        assert " ("[d..][0] != " ("[..2 - d][0];
      }
    }
    FirstMatchAfter(a, " (", m + ")" + z);
    assert a + " (" + (m + ")" + z) == t;
    var j := |a| + 2 + |m|;
    assert t[j] == ')';
    forall k | j < k < |t|
      ensures t[k] != ')'
    {
      assert t[k] == z[k - j - 1];
    }
    LastIndexOfAt(t, ')', j);
    assert t[..|a|] == a;
    assert t[j + 1..] == z;
  }

  /** Text that the first three replacements turn into 0. */
  predicate ZeroText(t: string) {
    Contains(t, "In progress") || Contains(t, "In Progress") || Contains(t, "Syntax error")
  }

  /**
   * `fillna(0)` followed by the seven replacements.  A replacement whose
   * value is a number swaps the whole cell, which then is no longer text,
   * so the earlier rule wins; the text replacements trim what is left.
   */
  function Clean(c: Cell): (r: Cell)
    ensures r != Missing
    ensures c == Missing ==> r == Num(0)
    ensures c.Num? ==> r == c
    ensures c.Text? ==> (r == Num(0) <==> ZeroText(c.s))
    ensures c.Text? ==> (r == Num(1) <==> !ZeroText(c.s) && Contains(c.s, "Turned In"))
    ensures c.Text? ==> (r.Text? <==> !ZeroText(c.s) && !Contains(c.s, "Turned In"))
    ensures r.Text? ==> c.Text? && |r.s| <= |c.s| && forall i :: 0 <= i < |r.s| ==> r.s[i] != '\n'
  {
    match c
    case Missing => Num(0)
    case Num(_) => c
    case Text(t) =>
      if ZeroText(t) then Num(0)
      else if Contains(t, "Turned In") then Num(1)
      else Text(DropParenthetical(FirstLine(DropLinesOfCode(t))))
  }

  /**
   * A one-line score followed by " lines of code" keeps what precedes the
   * phrase, less any parenthetical in it.
   */
  lemma CleanLinesOfCode(p: string, q: string)
    requires forall k :: 0 <= k < |p| ==> p[k] != '\n'
    requires forall k :: 0 <= k < |q| ==> q[k] != '\n'
    requires !Contains(p, LinesOfCode)
    requires !ZeroText(p + LinesOfCode + q) && !Contains(p + LinesOfCode + q, "Turned In")
    ensures Clean(Text(p + LinesOfCode + q)) == Text(DropParenthetical(p))
  {
    DropLinesOfCodeLine(p, q);
    BeforeCharOfPrefix(p, [], '\n');
    assert p + [] == p;
  }

  /** A one-line score followed by a parenthetical keeps the score alone. */
  lemma CleanParenthetical(a: string, m: string)
    requires forall k :: 0 <= k < |a| ==> a[k] != '\n'
    requires forall k :: 0 <= k < |m| ==> m[k] != '\n'
    requires !Contains(a, " (") && |m| >= 1
    requires var t := a + " (" + m + ")";
      !Contains(t, LinesOfCode) && !ZeroText(t) && !Contains(t, "Turned In")
    ensures Clean(Text(a + " (" + m + ")")) == Text(a)
  {
    var t := a + " (" + m + ")";
    forall k | 0 <= k < |t|
      ensures t[k] != '\n'
    {
      if k < |a| {
        assert t[k] == a[k];
      } else if |a| + 2 <= k < |a| + 2 + |m| {
        assert t[k] == m[k - |a| - 2];
      }
    }
    BeforeCharOfPrefix(t, [], '\n');
    assert t + [] == t;
    DropParentheticalAt(a, m, []);
    assert t + [] == a + " (" + m + ")" + [];
    assert a + [] == a;
  }

  /** A graded score with its percentage, "3/4 (75%)", is cleaned to "3/4". */
  lemma CleanScoreWithPercentage()
    ensures Clean(Text("3/4 (75%)")) == Text("3/4")
  {
    var t := "3/4 (75%)";
    assert t == "3/4" + " (" + "75%" + ")";
    assert ' ' !in "3/4";
    assert "3/4"[0..2][0] != " ("[0];
    NotContainsFirstChar("3/4", " (");
    assert 'T' !in t;
    assert t[0..9][0] != "Turned In"[0];
    NotContainsFirstChar(t, "Turned In");
    assert !Contains(t, "In progress") && !Contains(t, "In Progress") && !Contains(t, "Syntax error");
    assert !Contains(t, LinesOfCode);
    CleanParenthetical("3/4", "75%");
  }

  function CleanCells(cells: seq<Cell>): (out: seq<Cell>)
    ensures |out| == |cells| && forall i :: 0 <= i < |cells| ==> out[i] == Clean(cells[i])
  {
    seq(|cells|, i requires 0 <= i < |cells| => Clean(cells[i]))
  }

  // ---------------------------------------------------------------------------
  // The a/b loop
  // ---------------------------------------------------------------------------

  /** The text names a fraction: it has at least two runs of digits. */
  predicate HasFraction(v: string) {
    |DigitRuns(v)| >= 2
  }

  /** `int(findall("\d+", v)[0])`: the earned points. */
  function Earned(v: string): nat
    requires HasFraction(v)
  {
    ParseNat(DigitRuns(v)[0])
  }

  /** `int(findall("\d+", v)[1])`: the points possible. */
  function Possible(v: string): nat
    requires HasFraction(v)
  {
    ParseNat(DigitRuns(v)[1])
  }

  predicate IsAssignment(heading: string) {
    Contains(heading, "Assignment")
  }

  /** A text cell the loop stops on: no fraction, or a zero denominator in an Assignment column. */
  predicate BadCell(heading: string, c: Cell) {
    c.Text? && (!HasFraction(c.s) || (IsAssignment(heading) && Possible(c.s) == 0))
  }

  /**
   * The value a cell gets: an Assignment fraction a/b becomes 1 when
   * a/b >= 1/2 and 0 otherwise; any other fraction becomes a.  Cells that
   * are not text are left as they are.
   */
  function ScoreOf(heading: string, c: Cell): Cell
    requires !BadCell(heading, c)
  {
    if !c.Text? then c
    else if IsAssignment(heading) then Num(if 2 * Earned(c.s) >= Possible(c.s) then 1 else 0)
    else Num(Earned(c.s))
  }

  /** A column after the loop, and the max score it recorded (1 unless a non-Assignment fraction set it). */
  datatype Scored = Scored(cells: seq<Cell>, max: int)

  /** Some cell of the column is refused by the a/b loop. */
  predicate AnyBadCell(heading: string, cells: seq<Cell>) {
    exists i :: 0 <= i < |cells| && BadCell(heading, cells[i])
  }

  /** `out` is `cells`, each cell scored. */
  predicate CellsScored(heading: string, cells: seq<Cell>, out: seq<Cell>) {
    |out| == |cells| && forall i :: 0 <= i < |cells| ==> !BadCell(heading, cells[i]) && out[i] == ScoreOf(heading, cells[i])
  }

  /** The a/b loop down one column, rows in order. */
  function ScoreColumn(heading: string, cells: seq<Cell>, col: nat): (r: Result<Scored, Failure>)
    ensures r.Err? <==> AnyBadCell(heading, cells)
    ensures r.Err? ==> r.error.BadFraction? || r.error.ZeroPossible?
    ensures r.Ok? ==> CellsScored(heading, cells, r.value.cells)
    ensures r.Ok? && IsAssignment(heading) ==> r.value.max == 1
  {
    if |cells| == 0 then Ok(Scored([], 1))
    else
      var init := cells[..|cells| - 1];
      var row := |cells| - 1;
      var c := cells[row];
      AnyBadCellSnoc(heading, cells);
      match ScoreColumn(heading, init, col)
      case Err(e) => Err(e)
      case Ok(prev) =>
        if !c.Text? then
          CellsScoredSnoc(heading, cells, prev.cells);
          Ok(Scored(prev.cells + [c], prev.max))
        else if !HasFraction(c.s) then Err(BadFraction(col, row))
        else if IsAssignment(heading) then
          if Possible(c.s) == 0 then Err(ZeroPossible(col, row))
          else
            CellsScoredSnoc(heading, cells, prev.cells);
            Ok(Scored(prev.cells + [ScoreOf(heading, c)], prev.max))
        else
          CellsScoredSnoc(heading, cells, prev.cells);
          Ok(Scored(prev.cells + [ScoreOf(heading, c)], Possible(c.s)))
  }

  lemma AnyBadCellSnoc(heading: string, cells: seq<Cell>)
    requires |cells| > 0
    ensures AnyBadCell(heading, cells) <==>
      AnyBadCell(heading, cells[..|cells| - 1]) || BadCell(heading, cells[|cells| - 1])
  {
    var init := cells[..|cells| - 1];
    if AnyBadCell(heading, init) {
      var i :| 0 <= i < |init| && BadCell(heading, init[i]);
      assert cells[i] == init[i];
    }
    if AnyBadCell(heading, cells) {
      var i :| 0 <= i < |cells| && BadCell(heading, cells[i]);
      if i < |init| {
        assert init[i] == cells[i];
      }
    }
  }

  lemma CellsScoredSnoc(heading: string, cells: seq<Cell>, out: seq<Cell>)
    requires |cells| > 0 && CellsScored(heading, cells[..|cells| - 1], out)
    requires !BadCell(heading, cells[|cells| - 1])
    ensures CellsScored(heading, cells, out + [ScoreOf(heading, cells[|cells| - 1])])
  {
    var init := cells[..|cells| - 1];
    var o := out + [ScoreOf(heading, cells[|cells| - 1])];
    forall i | 0 <= i < |cells|
      ensures !BadCell(heading, cells[i]) && o[i] == ScoreOf(heading, cells[i])
    {
      if i < |init| {
        assert init[i] == cells[i];
      }
    }
  }

  /**
   * The max score of a column is the denominator of its last fraction:
   * every row overwrites it.  A column without text, or an Assignment
   * column, keeps the default 1.
   */
  lemma {:induction false} MaxFromLastRow(heading: string, cells: seq<Cell>, col: nat, i: nat)
    requires ScoreColumn(heading, cells, col).Ok? && !IsAssignment(heading)
    requires i < |cells| && cells[i].Text?
    requires forall j :: i < j < |cells| ==> !cells[j].Text?
    ensures HasFraction(cells[i].s)
    ensures ScoreColumn(heading, cells, col).value.max == Possible(cells[i].s)
  {
    var init := cells[..|cells| - 1];
    assert forall j :: 0 <= j < |init| ==> init[j] == cells[j];
    if i < |cells| - 1 {
      MaxFromLastRow(heading, init, col, i);
    }
  }

  lemma {:induction false} MaxDefault(heading: string, cells: seq<Cell>, col: nat)
    requires ScoreColumn(heading, cells, col).Ok?
    requires forall j :: 0 <= j < |cells| ==> !cells[j].Text?
    ensures ScoreColumn(heading, cells, col).value.max == 1
  {
    if |cells| > 0 {
      var init := cells[..|cells| - 1];
      assert forall j :: 0 <= j < |init| ==> init[j] == cells[j];
      MaxDefault(heading, init, col);
    }
  }

  /** An Assignment fraction scores 1 exactly when it is at least one half. */
  lemma AssignmentHalf(heading: string, v: string)
    requires IsAssignment(heading) && HasFraction(v) && Possible(v) > 0
    ensures ScoreOf(heading, Text(v)) == Num(1) <==> 2 * Earned(v) >= Possible(v)
    ensures ScoreOf(heading, Text(v)) == Num(0) <==> 2 * Earned(v) < Possible(v)
  {
  }

  /** A column from position 2 on with a cell its a/b loop refuses. */
  predicate ColumnFails(c: Column, pos: nat) {
    pos >= 2 && AnyBadCell(c.name, c.cells)
  }

  predicate AnyColumnFails(cols: seq<Column>, offset: nat) {
    exists k :: 0 <= k < |cols| && ColumnFails(cols[k], k + offset)
  }

  /** What the loop leaves for one column at position `pos`. */
  predicate ColumnScored(c: Column, pos: nat, s: Scored) {
    if pos < 2 then s == Scored(c.cells, 1) else ScoreColumn(c.name, c.cells, pos) == Ok(s)
  }

  predicate ColumnsScored(cols: seq<Column>, offset: nat, out: seq<Scored>) {
    |out| == |cols| && forall k :: 0 <= k < |cols| ==> ColumnScored(cols[k], k + offset, out[k])
  }

  /**
   * The loop over the working table's columns, from position 2 on: `offset`
   * is the position of `cols[0]` (1 behind the Student column, 0 when the
   * filter dropped it).  Columns before position 2 keep their cells and a
   * max of 1.
   */
  function ScoreAll(cols: seq<Column>, offset: nat): (r: Result<seq<Scored>, Failure>)
    ensures r.Err? ==> r.error.BadFraction? || r.error.ZeroPossible?
    ensures r.Ok? ==> ColumnsScored(cols, offset, r.value)
    ensures r.Err? <==> AnyColumnFails(cols, offset)
  {
    if |cols| == 0 then Ok([])
    else
      var init := cols[..|cols| - 1];
      var k := |cols| - 1;
      AnyColumnFailsSnoc(cols, offset);
      match ScoreAll(init, offset)
      case Err(e) => Err(e)
      case Ok(prev) =>
        if k + offset < 2 then
          ColumnsScoredSnoc(cols, offset, prev, Scored(cols[k].cells, 1));
          Ok(prev + [Scored(cols[k].cells, 1)])
        else
          match ScoreColumn(cols[k].name, cols[k].cells, k + offset)
          case Err(e) => Err(e)
          case Ok(s) =>
            ColumnsScoredSnoc(cols, offset, prev, s);
            Ok(prev + [s])
  }

  lemma AnyColumnFailsSnoc(cols: seq<Column>, offset: nat)
    requires |cols| > 0
    ensures AnyColumnFails(cols, offset) <==>
      (AnyColumnFails(cols[..|cols| - 1], offset) || ColumnFails(cols[|cols| - 1], |cols| - 1 + offset))
  {
    var init := cols[..|cols| - 1];
    if AnyColumnFails(init, offset) {
      var k :| 0 <= k < |init| && ColumnFails(init[k], k + offset);
      assert cols[k] == init[k];
    }
    if AnyColumnFails(cols, offset) {
      var k :| 0 <= k < |cols| && ColumnFails(cols[k], k + offset);
      if k < |init| {
        assert init[k] == cols[k];
      }
    }
  }

  lemma ColumnsScoredSnoc(cols: seq<Column>, offset: nat, out: seq<Scored>, s: Scored)
    requires |cols| > 0 && ColumnsScored(cols[..|cols| - 1], offset, out)
    requires ColumnScored(cols[|cols| - 1], |cols| - 1 + offset, s)
    ensures ColumnsScored(cols, offset, out + [s])
  {
    var init := cols[..|cols| - 1];
    var o := out + [s];
    forall k | 0 <= k < |cols|
      ensures ColumnScored(cols[k], k + offset, o[k])
    {
      if k < |init| {
        assert init[k] == cols[k];
      }
    }
  }

  // ---------------------------------------------------------------------------
  // `pd.to_numeric`
  // ---------------------------------------------------------------------------

  /** A cell `pd.to_numeric` accepts: anything but text that is not a number. */
  predicate Numeric(c: Cell) {
    !c.Text? || IsDigits(c.s)
  }

  function NumberOf(c: Cell): int
    requires Numeric(c)
  {
    match c
    case Missing => 0
    case Num(v) => v
    case Text(t) => ParseNat(t)
  }

  /** `pd.to_numeric` of one column; the first text that is not a number stops it. */
  function NumericColumn(cells: seq<Cell>, col: nat): (r: Result<seq<int>, Failure>)
    ensures r.Ok? <==> forall i :: 0 <= i < |cells| ==> Numeric(cells[i])
    ensures r.Err? ==> r.error.NotNumeric?
    ensures r.Ok? ==> |r.value| == |cells| && forall i :: 0 <= i < |cells| ==> r.value[i] == NumberOf(cells[i])
  {
    if |cells| == 0 then Ok([])
    else
      var init := cells[..|cells| - 1];
      var row := |cells| - 1;
      assert forall i :: 0 <= i < |init| ==> init[i] == cells[i];
      match NumericColumn(init, col)
      case Err(e) => Err(e)
      case Ok(vs) =>
        if Numeric(cells[row]) then Ok(vs + [NumberOf(cells[row])]) else Err(NotNumeric(col, row))
  }

  /** Every cell a non-skipped column leaves the loop with is a number. */
  lemma {:induction false} ScoredNumeric(heading: string, cells: seq<Cell>, col: nat)
    requires ScoreColumn(heading, cells, col).Ok?
    ensures forall i :: 0 <= i < |cells| ==> Numeric(ScoreColumn(heading, cells, col).value.cells[i])
  {
  }

  /** A scored column holding text that is not a number. */
  predicate Unreadable(s: Scored) {
    exists i :: 0 <= i < |s.cells| && !Numeric(s.cells[i])
  }

  predicate AnyUnreadable(scored: seq<Scored>) {
    exists k :: 0 <= k < |scored| && Unreadable(scored[k])
  }

  /** `values` is the max score over the column's cells, each read as a number. */
  predicate ColumnTotalled(s: Scored, values: seq<int>) {
    |values| == |s.cells| + 1 && values[0] == s.max &&
    forall i :: 0 <= i < |s.cells| ==> Numeric(s.cells[i]) && values[i + 1] == NumberOf(s.cells[i])
  }

  predicate Totalled(names: seq<string>, scored: seq<Scored>, out: seq<Summed>) {
    |names| == |scored| && |out| == |scored| &&
    forall k :: 0 <= k < |scored| ==> out[k].name == names[k] && ColumnTotalled(scored[k], out[k].values)
  }

  /**
   * The max-score row on top of each column, then `to_numeric` column by
   * column (`k + 1` is the position behind the Student index).
   */
  function Totals(names: seq<string>, scored: seq<Scored>): (r: Result<seq<Summed>, Failure>)
    requires |names| == |scored|
    ensures r.Err? ==> r.error.NotNumeric?
    ensures r.Ok? ==> Totalled(names, scored, r.value)
    ensures r.Err? <==> AnyUnreadable(scored)
  {
    if |scored| == 0 then Ok([])
    else
      var k := |scored| - 1;
      UnreadableSnoc(scored);
      match Totals(names[..k], scored[..k])
      case Err(e) => Err(e)
      case Ok(prev) =>
        var col := NumericColumn([Num(scored[k].max)] + scored[k].cells, k + 1);
        NumericOfScored(scored[k], k + 1, col);
        match col
        case Err(e) => Err(e)
        case Ok(vs) =>
          TotalledSnoc(names, scored, prev, vs);
          Ok(prev + [Summed(names[k], vs)])
  }

  /** `to_numeric` of a column under its max score fails exactly on text that is not a number. */
  lemma NumericOfScored(s: Scored, col: nat, r: Result<seq<int>, Failure>)
    requires r == NumericColumn([Num(s.max)] + s.cells, col)
    ensures r.Err? <==> Unreadable(s)
    ensures r.Ok? ==> ColumnTotalled(s, r.value)
  {
    var cells := [Num(s.max)] + s.cells;
    assert forall i :: 0 <= i < |s.cells| ==> cells[i + 1] == s.cells[i];
    if Unreadable(s) {
      var i :| 0 <= i < |s.cells| && !Numeric(s.cells[i]);
      assert !Numeric(cells[i + 1]);
    }
    if r.Err? {
      var j :| 0 <= j < |cells| && !Numeric(cells[j]);
      assert j > 0 && !Numeric(s.cells[j - 1]);
    }
  }

  lemma UnreadableSnoc(scored: seq<Scored>)
    requires |scored| > 0
    ensures AnyUnreadable(scored) <==>
      (AnyUnreadable(scored[..|scored| - 1]) || Unreadable(scored[|scored| - 1]))
  {
    var init := scored[..|scored| - 1];
    if AnyUnreadable(init) {
      var k :| 0 <= k < |init| && Unreadable(init[k]);
      assert scored[k] == init[k];
    }
    if AnyUnreadable(scored) {
      var k :| 0 <= k < |scored| && Unreadable(scored[k]);
      if k < |init| {
        assert init[k] == scored[k];
      }
    }
  }

  lemma TotalledSnoc(names: seq<string>, scored: seq<Scored>, out: seq<Summed>, vs: seq<int>)
    requires |names| == |scored| > 0
    requires Totalled(names[..|scored| - 1], scored[..|scored| - 1], out)
    requires ColumnTotalled(scored[|scored| - 1], vs)
    ensures Totalled(names, scored, out + [Summed(names[|scored| - 1], vs)])
  {
    var k := |scored| - 1;
    var o := out + [Summed(names[k], vs)];
    forall j | 0 <= j < |scored|
      ensures o[j].name == names[j] && ColumnTotalled(scored[j], o[j].values)
    {
      if j < k {
        assert names[..k][j] == names[j] && scored[..k][j] == scored[j];
      }
    }
  }

  // ---------------------------------------------------------------------------
  // The whole aggregation
  // ---------------------------------------------------------------------------

  /** Rows 0 to 3 of every column from the fourth on. */
  function Headers(sheet: seq<seq<Cell>>): (hs: seq<HeaderCells>)
    requires |sheet| >= 3 && forall j :: 0 <= j < |sheet| ==> |sheet[j]| >= 5
    ensures |hs| == |sheet| - 3
  {
    seq(|sheet| - 3, k requires 0 <= k < |sheet| - 3 =>
      HeaderCells(sheet[k + 3][0], sheet[k + 3][1], sheet[k + 3][2], sheet[k + 3][3]))
  }

  /** A student's name cell: missing when either part is, "Last, First" when both are text. */
  predicate NameOk(last: Cell, first: Cell) {
    last == Missing || first == Missing || (last.Text? && first.Text?)
  }

  function NameOf(last: Cell, first: Cell): Cell
    requires NameOk(last, first)
  {
    if last == Missing || first == Missing then Missing else Text(last.s + ", " + first.s)
  }

  /** `df["Last name"].str.cat(df["First name"], sep=", ")`; a number beside a present name is refused. */
  function StudentColumn(last: seq<Cell>, first: seq<Cell>): (r: Result<seq<Cell>, Failure>)
    requires |last| == |first|
    ensures r.Ok? <==> forall i :: 0 <= i < |last| ==> NameOk(last[i], first[i])
    ensures r.Err? ==> r.error.NumericName?
    ensures r.Ok? ==> |r.value| == |last| && forall i :: 0 <= i < |last| ==> r.value[i] == NameOf(last[i], first[i])
  {
    if |last| == 0 then Ok([])
    else
      var k := |last| - 1;
      assert forall j :: 0 <= j < k ==> last[..k][j] == last[j] && first[..k][j] == first[j];
      match StudentColumn(last[..k], first[..k])
      case Err(e) => Err(e)
      case Ok(prev) =>
        if NameOk(last[k], first[k]) then Ok(prev + [NameOf(last[k], first[k])]) else Err(NumericName(k))
  }

  /** The student rows of every assignment column, named by its label. */
  function LabelledColumns(sheet: seq<seq<Cell>>, labels: seq<string>): (cols: seq<Column>)
    requires |sheet| >= 3 && forall j :: 0 <= j < |sheet| ==> |sheet[j]| >= 5
    requires |labels| == |sheet| - 3
    ensures |cols| == |labels|
    ensures forall k :: 0 <= k < |cols| ==> cols[k] == Column(labels[k], sheet[k + 3][5..])
  {
    seq(|labels|, k requires 0 <= k < |labels| => Column(labels[k], sheet[k + 3][5..]))
  }

  /** The label columns the participation filter keeps: at least a quarter of the students answered. */
  function KeptColumns(sheet: seq<seq<Cell>>, labels: seq<string>): (kept: seq<Column>)
    requires |sheet| >= 3 && forall j :: 0 <= j < |sheet| ==> |sheet[j]| == |sheet[0]|
    requires |sheet[0]| >= 5 && |labels| == |sheet| - 3
    requires forall k :: 0 <= k < |labels| ==> GoodLabel(labels[k])
    ensures forall k :: 0 <= k < |kept| ==> |kept[k].cells| == |sheet[0]| - 5 && GoodLabel(kept[k].name)
    ensures forall k :: 0 <= k < |kept| ==> NonMissing(kept[k].cells) >= (|sheet[0]| - 5) / 4
    ensures forall c :: c in kept <==>
      c in LabelledColumns(sheet, labels) && NonMissing(c.cells) >= (|sheet[0]| - 5) / 4
    ensures FirstKept(LabelledColumns(sheet, labels), kept, (|sheet[0]| - 5) / 4)
  {
    var cols := LabelledColumns(sheet, labels);
    var kept := KeepParticipating(cols, (|sheet[0]| - 5) / 4);
    KeptFromLabelled(sheet, labels, cols, kept);
    kept
  }

  lemma {:induction false} KeptFromLabelled(sheet: seq<seq<Cell>>, labels: seq<string>, cols: seq<Column>, kept: seq<Column>)
    requires |sheet| >= 3 && forall j :: 0 <= j < |sheet| ==> |sheet[j]| == |sheet[0]|
    requires |sheet[0]| >= 5 && |labels| == |sheet| - 3
    requires forall k :: 0 <= k < |labels| ==> GoodLabel(labels[k])
    requires cols == LabelledColumns(sheet, labels)
    requires forall c :: c in kept ==> c in cols
    ensures forall k :: 0 <= k < |kept| ==> |kept[k].cells| == |sheet[0]| - 5 && GoodLabel(kept[k].name)
  {
    forall k | 0 <= k < |kept|
      ensures |kept[k].cells| == |sheet[0]| - 5 && GoodLabel(kept[k].name)
    {
      assert kept[k] in cols;
      var j :| 0 <= j < |cols| && cols[j] == kept[k];
      assert cols[j] == Column(labels[j], sheet[j + 3][5..]);
    }
  }

  /** The working table after the header fold, the Student column and the participation filter. */
  datatype Prepared = Prepared(students: seq<Cell>, studentKept: bool, kept: seq<Column>)

  /** Lines 47 to 89 of the source: labels, Student column, filter. */
  function Prepare(sheet: seq<seq<Cell>>): (r: Result<Prepared, Failure>)
    requires forall j :: 0 <= j < |sheet| ==> |sheet[j]| == |sheet[0]|
    ensures r == Err(TooFewColumns) <==> |sheet| < 3
    ensures |sheet| >= 3 ==> (r == Err(TooFewRows) <==> |sheet[0]| < 5)
    ensures r.Ok? ==> |sheet| >= 3 && |sheet[0]| >= 5
    ensures r.Ok? ==> |r.value.students| == |sheet[0]| - 5
    ensures r.Ok? ==> forall i :: 5 <= i < |sheet[0]| ==>
      NameOk(sheet[0][i], sheet[1][i]) && r.value.students[i - 5] == NameOf(sheet[0][i], sheet[1][i])
    ensures r.Ok? ==> (r.value.studentKept <==> NonMissing(r.value.students) >= (|sheet[0]| - 5) / 4)
    ensures r.Ok? ==> forall k :: 0 <= k < |r.value.kept| ==>
      |r.value.kept[k].cells| == |sheet[0]| - 5 && GoodLabel(r.value.kept[k].name)
  {
    if |sheet| < 3 then Err(TooFewColumns)
    else if |sheet[0]| < 5 then Err(TooFewRows)
    else
      var n := |sheet[0]| - 5;
      var folded :- HeaderFold(Headers(sheet));
      var students :- StudentColumn(sheet[0][5..], sheet[1][5..]);
      StudentsOfSheet(sheet[0], sheet[1], students);
      Ok(Prepared(students, NonMissing(students) >= n / 4, KeptColumns(sheet, folded.labels)))
  }

  /**
   * A sheet of at least three columns and five rows is prepared exactly when
   * no header is refused and every name pair is readable; the kept columns
   * are then the labelled columns that pass the participation filter.
   */
  lemma PrepareSucceeds(sheet: seq<seq<Cell>>)
    requires |sheet| >= 3 && forall j :: 0 <= j < |sheet| ==> |sheet[j]| == |sheet[0]|
    requires |sheet[0]| >= 5
    ensures Prepare(sheet).Ok? <==>
      !AnyBadHeader(Headers(sheet)) && forall i :: 5 <= i < |sheet[0]| ==> NameOk(sheet[0][i], sheet[1][i])
    ensures Prepare(sheet).Ok? ==> HeaderFold(Headers(sheet)).Ok?
    ensures Prepare(sheet).Ok? ==>
      Prepare(sheet).value.kept == KeptColumns(sheet, HeaderFold(Headers(sheet)).value.labels)
  {
    NamesOfSheet(sheet[0], sheet[1]);
  }

  /** The Student column of rows 5 on is read exactly when every name pair from row 5 on is. */
  lemma NamesOfSheet(last: seq<Cell>, first: seq<Cell>)
    requires |last| == |first| >= 5
    ensures StudentColumn(last[5..], first[5..]).Ok? <==> forall i :: 5 <= i < |last| ==> NameOk(last[i], first[i])
  {
    forall i | 5 <= i < |last|
      ensures last[5..][i - 5] == last[i] && first[5..][i - 5] == first[i]
    {
    }
    if !StudentColumn(last[5..], first[5..]).Ok? {
      var j :| 0 <= j < |last[5..]| && !NameOk(last[5..][j], first[5..][j]);
      assert !NameOk(last[j + 5], first[j + 5]);
    }
  }

  /** The Student column read from rows 5 on of the two name columns, by sheet row. */
  lemma StudentsOfSheet(last: seq<Cell>, first: seq<Cell>, students: seq<Cell>)
    requires |last| == |first| >= 5
    requires StudentColumn(last[5..], first[5..]) == Ok(students)
    ensures |students| == |last| - 5
    ensures forall i :: 5 <= i < |last| ==> NameOk(last[i], first[i]) && students[i - 5] == NameOf(last[i], first[i])
  {
    forall i | 5 <= i < |last|
      ensures NameOk(last[i], first[i]) && students[i - 5] == NameOf(last[i], first[i])
    {
      assert last[5..][i - 5] == last[i] && first[5..][i - 5] == first[i];
    }
  }

  /** The kept columns after `fillna(0)` and the replacements. */
  function Cleaned(p: Prepared): (cols: seq<Column>)
    ensures |cols| == |p.kept|
    ensures forall k :: 0 <= k < |cols| ==> cols[k] == Column(p.kept[k].name, CleanCells(p.kept[k].cells))
  {
    seq(|p.kept|, k requires 0 <= k < |p.kept| => Column(p.kept[k].name, CleanCells(p.kept[k].cells)))
  }

  /** Lines 94 to 136: clean-up, the a/b loop, the max row and `to_numeric`. */
  function Score(p: Prepared): (r: Result<seq<Summed>, Failure>)
    requires forall k :: 0 <= k < |p.kept| ==> |p.kept[k].cells| == |p.students|
    ensures r.Err? ==> ScoringFailure(r.error)
    ensures r.Ok? ==> p.studentKept && |r.value| == |p.kept| && SummedHeight(r.value, |p.students| + 1)
    ensures r.Ok? ==> forall k :: 0 <= k < |p.kept| ==> r.value[k].name == p.kept[k].name
    ensures r.Ok? <==>
      p.studentKept && !AnyColumnFails(Cleaned(p), 1) && !AnyUnreadable(ScoreAll(Cleaned(p), 1).value)
    ensures !p.studentKept && !AnyColumnFails(Cleaned(p), 0) ==> r == Err(StudentDropped)
    ensures r.Ok? ==> Totalled(Names(p.kept), ScoreAll(Cleaned(p), 1).value, r.value)
  {
    var scored :- ScoreAll(Cleaned(p), if p.studentKept then 1 else 0);
    if !p.studentKept then Err(StudentDropped)
    else Totals(Names(p.kept), scored)
  }

  lemma {:induction false} ScoreUnfold(p: Prepared)
    requires forall j :: 0 <= j < |p.kept| ==> |p.kept[j].cells| == |p.students|
    requires Score(p).Ok?
    ensures p.studentKept && ScoreAll(Cleaned(p), 1).Ok?
    ensures Score(p) == Totals(Names(p.kept), ScoreAll(Cleaned(p), 1).value)
  {
  }

  /**
   * Row 0 of a kept column is its max score: 1 for the first label column,
   * which the loop skips, and what the loop recorded for the others.
   */
  lemma {:induction false} ScoreMaxRow(p: Prepared, k: nat)
    requires forall j :: 0 <= j < |p.kept| ==> |p.kept[j].cells| == |p.students|
    requires Score(p).Ok? && k < |p.kept|
    ensures k == 0 ==> Score(p).value[k].values[0] == 1
    ensures k > 0 ==> ScoreColumn(p.kept[k].name, CleanCells(p.kept[k].cells), k + 1).Ok?
    ensures k > 0 ==>
      Score(p).value[k].values[0] == ScoreColumn(p.kept[k].name, CleanCells(p.kept[k].cells), k + 1).value.max
  {
    ScoreUnfold(p);
    var cols := Cleaned(p);
    var scored := ScoreAll(cols, 1).value;
    assert ColumnTotalled(scored[k], Score(p).value[k].values);
    if k > 0 {
      assert ScoreColumn(cols[k].name, cols[k].cells, k + 1) == Ok(scored[k]);
    }
  }

  /**
   * A student row of the first label column is the cleaned cell as
   * `to_numeric` reads it: the loop skips that column, so a fraction left
   * there stops the run.
   */
  lemma {:induction false} FirstColumnUnscored(p: Prepared, i: nat)
    requires forall j :: 0 <= j < |p.kept| ==> |p.kept[j].cells| == |p.students|
    requires Score(p).Ok? && 0 < |p.kept| && i < |p.students|
    ensures Numeric(Clean(p.kept[0].cells[i]))
    ensures Score(p).value[0].values[i + 1] == NumberOf(Clean(p.kept[0].cells[i]))
  {
    ScoreUnfold(p);
    var cols := Cleaned(p);
    var scored := ScoreAll(cols, 1).value;
    assert scored[0] == Scored(cols[0].cells, 1);
    assert ColumnTotalled(scored[0], Score(p).value[0].values);
  }

  /** A student row of any later kept column is its cleaned cell, scored. */
  lemma {:induction false} ScoredColumnRow(p: Prepared, k: nat, i: nat)
    requires forall j :: 0 <= j < |p.kept| ==> |p.kept[j].cells| == |p.students|
    requires Score(p).Ok? && 0 < k < |p.kept| && i < |p.students|
    ensures !BadCell(p.kept[k].name, Clean(p.kept[k].cells[i]))
    ensures Score(p).value[k].values[i + 1] == NumberOf(ScoreOf(p.kept[k].name, Clean(p.kept[k].cells[i])))
  {
    ScoreUnfold(p);
    var cols := Cleaned(p);
    var scored := ScoreAll(cols, 1).value;
    assert cols[k].cells[i] == Clean(p.kept[k].cells[i]);
    ScoredCell(cols, scored, k, i);
    assert ColumnTotalled(scored[k], Score(p).value[k].values);
  }

  lemma {:induction false} ScoredCell(cols: seq<Column>, scored: seq<Scored>, k: nat, i: nat)
    requires ScoreAll(cols, 1) == Ok(scored) && 0 < k < |cols| && i < |cols[k].cells|
    ensures !BadCell(cols[k].name, cols[k].cells[i])
    ensures i < |scored[k].cells| && scored[k].cells[i] == ScoreOf(cols[k].name, cols[k].cells[i])
  {
    assert ScoreColumn(cols[k].name, cols[k].cells, k + 1) == Ok(scored[k]);
  }

  /** `aggregate`: the TSK export, column by column, to the aggregate sheet. */
  function Aggregate(sheet: seq<seq<Cell>>): (r: Result<AggregateSheet, Failure>)
    requires forall j :: 0 <= j < |sheet| ==> |sheet[j]| == |sheet[0]|
    ensures r == Err(TooFewColumns) <==> |sheet| < 3
    ensures |sheet| >= 3 ==> (r == Err(TooFewRows) <==> |sheet[0]| < 5)
    ensures r.Ok? ==> |sheet| >= 3 && |sheet[0]| >= 5
    ensures r.Ok? ==> |r.value.student| == |sheet[0]| - 4 && r.value.student[0] == Text("Max score")
    ensures r.Ok? ==> forall i :: 5 <= i < |sheet[0]| ==>
      NameOk(sheet[0][i], sheet[1][i]) && r.value.student[i - 4] == Clean(NameOf(sheet[0][i], sheet[1][i]))
    ensures r.Ok? ==> |r.value.section| == |sheet[0]| - 4 && forall i :: 0 <= i < |r.value.section| ==> r.value.section[i] == Text("Default")
    ensures r.Ok? ==> !r.value.separated && r.value.grades == []
    ensures r.Ok? ==> SummedHeight(r.value.sums, |sheet[0]| - 4) && StrictlySorted(Labels(r.value.sums))
    ensures r.Ok? ==> forall k :: 0 <= k < |r.value.sums| ==> GoodLabel(r.value.sums[k].name)
  {
    match Prepare(sheet)
    case Err(e) => Err(e)
    case Ok(p) => ScoreAndAssemble(sheet, p)
  }

  /**
   * The aggregate exists exactly when preparing and scoring succeed, and its
   * sums are then the same-label sums of the scored columns.
   */
  lemma AggregateSucceeds(sheet: seq<seq<Cell>>)
    requires forall j :: 0 <= j < |sheet| ==> |sheet[j]| == |sheet[0]|
    ensures Aggregate(sheet).Ok? <==> Prepare(sheet).Ok? && Score(Prepare(sheet).value).Ok?
    ensures Aggregate(sheet).Ok? ==>
      Aggregate(sheet).value.sums == GroupByLabel(Score(Prepare(sheet).value).value, |Prepare(sheet).value.students| + 1)
  {
  }

  /** The prepared sheet scored, then assembled around the Student index. */
  function ScoreAndAssemble(sheet: seq<seq<Cell>>, p: Prepared): (r: Result<AggregateSheet, Failure>)
    requires |sheet| >= 3 && forall j :: 0 <= j < |sheet| ==> |sheet[j]| == |sheet[0]|
    requires |sheet[0]| >= 5 && |p.students| == |sheet[0]| - 5
    requires forall i :: 5 <= i < |sheet[0]| ==>
      NameOk(sheet[0][i], sheet[1][i]) && p.students[i - 5] == NameOf(sheet[0][i], sheet[1][i])
    requires forall k :: 0 <= k < |p.kept| ==> |p.kept[k].cells| == |sheet[0]| - 5 && GoodLabel(p.kept[k].name)
    ensures r.Err? ==> ScoringFailure(r.error)
    ensures r.Ok? <==> Score(p).Ok?
    ensures r.Ok? ==> |r.value.student| == |sheet[0]| - 4 && r.value.student[0] == Text("Max score")
    ensures r.Ok? ==> forall i :: 5 <= i < |sheet[0]| ==>
      NameOk(sheet[0][i], sheet[1][i]) && r.value.student[i - 4] == Clean(NameOf(sheet[0][i], sheet[1][i]))
    ensures r.Ok? ==> |r.value.section| == |sheet[0]| - 4 && forall i :: 0 <= i < |r.value.section| ==> r.value.section[i] == Text("Default")
    ensures r.Ok? ==> !r.value.separated && r.value.grades == []
    ensures r.Ok? ==> SummedHeight(r.value.sums, |sheet[0]| - 4) && StrictlySorted(Labels(r.value.sums))
    ensures r.Ok? ==> forall k :: 0 <= k < |r.value.sums| ==> GoodLabel(r.value.sums[k].name)
    ensures r.Ok? ==> r.value.sums == GroupByLabel(Score(p).value, |p.students| + 1)
  {
    match Score(p)
    case Err(e) => Err(e)
    case Ok(totals) => Ok(AssembleSheet(sheet, p.students, totals))
  }

  /**
   * Summing by label loses no points: every row of the aggregate adds up to
   * the same total as that row over the scored columns, and each label's
   * column is the sum of the scored columns with that label.
   */
  lemma {:induction false} AggregateKeepsTotals(sheet: seq<seq<Cell>>, row: nat)
    requires forall j :: 0 <= j < |sheet| ==> |sheet[j]| == |sheet[0]|
    requires Aggregate(sheet).Ok? && row < |sheet[0]| - 4
    ensures RowTotal(Aggregate(sheet).value.sums, row) == RowTotal(Score(Prepare(sheet).value).value, row)
    ensures forall k :: 0 <= k < |Aggregate(sheet).value.sums| ==>
      Aggregate(sheet).value.sums[k].values[row] ==
        LabelSum(Score(Prepare(sheet).value).value, Aggregate(sheet).value.sums[k].name, row)
  {
    AggregateSucceeds(sheet);
    var p := Prepare(sheet).value;
    var totals := Score(p).value;
    GroupByLabelPreservesRowTotals(totals, |p.students| + 1, row);
  }

  /** `Assemble` read against the sheet: student row `i` is aggregate row `i - 4`. */
  function AssembleSheet(sheet: seq<seq<Cell>>, students: seq<Cell>, totals: seq<Summed>): (s: AggregateSheet)
    requires |sheet| >= 3 && forall j :: 0 <= j < |sheet| ==> |sheet[j]| == |sheet[0]|
    requires |sheet[0]| >= 5 && |students| == |sheet[0]| - 5
    requires forall i :: 5 <= i < |sheet[0]| ==>
      NameOk(sheet[0][i], sheet[1][i]) && students[i - 5] == NameOf(sheet[0][i], sheet[1][i])
    requires SummedHeight(totals, |students| + 1)
    requires forall k :: 0 <= k < |totals| ==> GoodLabel(totals[k].name)
    ensures s == Assemble(students, totals)
    ensures |s.student| == |sheet[0]| - 4 && s.student[0] == Text("Max score")
    ensures forall i :: 5 <= i < |sheet[0]| ==>
      NameOk(sheet[0][i], sheet[1][i]) && s.student[i - 4] == Clean(NameOf(sheet[0][i], sheet[1][i]))
    ensures |s.section| == |sheet[0]| - 4 && forall i :: 0 <= i < |s.section| ==> s.section[i] == Text("Default")
    ensures !s.separated && s.grades == []
    ensures SummedHeight(s.sums, |sheet[0]| - 4) && StrictlySorted(Labels(s.sums))
    ensures forall k :: 0 <= k < |s.sums| ==> GoodLabel(s.sums[k].name)
    ensures s.sums == GroupByLabel(totals, |students| + 1)
  {
    var s := Assemble(students, totals);
    StudentsAssembled(sheet, students, s.student);
    s
  }

  /** Student row `i` of the sheet is aggregate row `i - 4`: the max-score row takes row 0. */
  lemma StudentsAssembled(sheet: seq<seq<Cell>>, students: seq<Cell>, col: seq<Cell>)
    requires |sheet| >= 3 && forall j :: 0 <= j < |sheet| ==> |sheet[j]| == |sheet[0]|
    requires |sheet[0]| >= 5 && |students| == |sheet[0]| - 5
    requires forall i :: 5 <= i < |sheet[0]| ==>
      NameOk(sheet[0][i], sheet[1][i]) && students[i - 5] == NameOf(sheet[0][i], sheet[1][i])
    requires |col| == |students| + 1 && forall i :: 0 <= i < |students| ==> col[i + 1] == Clean(students[i])
    ensures forall i :: 5 <= i < |sheet[0]| ==>
      NameOk(sheet[0][i], sheet[1][i]) && col[i - 4] == Clean(NameOf(sheet[0][i], sheet[1][i]))
  {
    forall i | 5 <= i < |sheet[0]|
      ensures NameOk(sheet[0][i], sheet[1][i]) && col[i - 4] == Clean(NameOf(sheet[0][i], sheet[1][i]))
    {
      assert col[(i - 5) + 1] == Clean(students[i - 5]);
    }
  }

  /**
   * The aggregate sheet around the totalled columns: a max-score row on
   * top of the cleaned Student index, the "Default" section, and the
   * columns that share a label summed, in label order.
   */
  function Assemble(students: seq<Cell>, totals: seq<Summed>): (s: AggregateSheet)
    requires SummedHeight(totals, |students| + 1)
    requires forall k :: 0 <= k < |totals| ==> GoodLabel(totals[k].name)
    ensures |s.student| == |students| + 1 && s.student[0] == Text("Max score")
    ensures forall i :: 0 <= i < |students| ==> s.student[i + 1] == Clean(students[i])
    ensures |s.section| == |students| + 1 && forall i :: 0 <= i < |s.section| ==> s.section[i] == Text("Default")
    ensures !s.separated && s.grades == []
    ensures s.sums == GroupByLabel(totals, |students| + 1)
    ensures SummedHeight(s.sums, |students| + 1) && StrictlySorted(Labels(s.sums))
    ensures forall k :: 0 <= k < |s.sums| ==> GoodLabel(s.sums[k].name)
  {
    var sums := GroupByLabel(totals, |students| + 1);
    GroupedLabelsGood(totals, sums);
    AggregateSheet(IndexColumn(students), Sections(|students| + 1), sums, false, [])
  }

  /** The Student index: "Max score" over the cleaned names. */
  function IndexColumn(students: seq<Cell>): (col: seq<Cell>)
    ensures |col| == |students| + 1 && col[0] == Text("Max score")
    ensures forall i :: 0 <= i < |students| ==> col[i + 1] == Clean(students[i])
  {
    seq(|students| + 1, i requires 0 <= i <= |students| => if i == 0 then Text("Max score") else Clean(students[i - 1]))
  }

  /** A Section index of `n` rows, all "Default". */
  function Sections(n: nat): (col: seq<Cell>)
    ensures |col| == n && forall i :: 0 <= i < n ==> col[i] == Text("Default")
  {
    seq(n, _ => Text("Default"))
  }

  /** Summing by label keeps only labels that some column had. */
  lemma {:induction false} GroupedLabelsGood(totals: seq<Summed>, sums: seq<Summed>)
    requires forall k :: 0 <= k < |totals| ==> GoodLabel(totals[k].name)
    requires Labels(sums) == SortedLabels(Labels(totals))
    ensures forall k :: 0 <= k < |sums| ==> GoodLabel(sums[k].name)
  {
    forall k | 0 <= k < |sums|
      ensures GoodLabel(sums[k].name)
    {
      assert Labels(sums)[k] == sums[k].name;
      assert sums[k].name in SortedLabels(Labels(totals));
      var j :| 0 <= j < |totals| && Labels(totals)[j] == sums[k].name;
    }
  }
}

=== FILE: wrappers.dfy ===
/** Failure-compatible result types shared by every module of the model. */
module Wrappers {

  /** An optional value; `None` models Python's `None` return. */
  datatype Option<+T> = None | Some(value: T) {
    predicate IsFailure() {
      None?
    }

    function PropagateFailure<U>(): Option<U>
      requires None?
    {
      None
    }

    function Extract(): T
      requires Some?
    {
      value
    }
  }

  /** A value or the reason the source would have stopped with an exception. */
  datatype Result<+T, +E> = Ok(value: T) | Err(error: E) {
    predicate IsFailure() {
      Err?
    }

    function PropagateFailure<U>(): Result<U, E>
      requires Err?
    {
      Err(error)
    }

    function Extract(): T
      requires Ok?
    {
      value
    }
  }
}
